=== FILE: README.md ===
# Divide-and-conquer Delaunay triangulation in Dafny

This project models the core of a 2D divide-and-conquer Delaunay triangulator
written in C# for Unity (`SubMesh2d`, `Edge2d`, `Vertex2d`, `Triangle2d`,
`Math2d`). It proves properties of that model.

The mutable object graph of the source is an **arena**:

- A `Graph` holds the vertices, where a vertex id is a position in `verts`.
- It also holds every edge ever built, where an edge id is a position in the
  append-only `edges`.
- Each vertex carries its incident list (`Vertex2d.Edges`) as a sequence of
  edge ids.
- A `Mesh` adds the live edge list (`_edges`, the field `active`) and the
  triangle list (`_triangles`, the field `tris`).
- A rejected or removed edge stays in the arena. It is just no longer
  reachable from any incident list or from `active`.

The headline invariant is `Submesh.Consistent`:

- every vertex and edge reference in the graph and in the live list
  resolves, and so does every edge id of a triangle (a triangle's corner
  fields are not constrained);
- no incident list and not the live list holds an entry twice;
- an edge is listed on a vertex exactly when it is live and the vertex is one
  of its endpoints.

`Consistent` says nothing about duplicate triangles. That is the separate
`Submesh.TrisDistinct`: `AddTriangle` keeps it, and so does the triangle
pick-out.

Every mutating operation preserves `Consistent`: building an edge, removing
one, adding the three edges of a triangle, the candidate walk, the merge, the
whole divide-and-conquer, and the triangle pick-out. So does the full run,
`Triangulation.Triangulate`.

The other modules are:

- `Geometry` is the `Math2d` layer over exact `real` arithmetic. It has one
  tolerance constant, `1e-6`. The circumcircle keeps the squared radius.
- `Merge` holds the decision logic of the divide-and-conquer driver:
  - the split;
  - the candidate walk of `TryToFindCandidate`;
  - the four-way choice of `MergeWithRL`;
  - the row-major convex search of `GetLRBaseEdge`.

  These are stated over `Oracles`, which bundle the angle key, the
  circumcircle test and the convexity test as parameters.
  `Merge.GeometricOracles` plugs in the model's own geometry. The
  convexity oracle receives the graph and the two vertices, as a trial
  `Edge2d` would.
- Exceptions the source can throw become `Result` failures:
  - `BadTriangle`: circumcircle of collinear points;
  - `EdgeNotFound`: `First` on a missing edge;
  - `NullBaseEdge`: a `null` base edge dereferenced by `MergeWithRL`;
  - `OutOfFuel`: the recursion bound of the merge.

## Model

| member | source | states |
|---|---|---|
| Geometry.FindIntersectionPointBetweenLines | Assets/Scripts/Math2d.cs:10-32 | no intersection exactly when the 2×2 determinant is below the tolerance; otherwise the point lies on both lines (zero cross product with each direction) |
| Geometry.LinesSolution | Assets/Scripts/Math2d.cs:20-32 | the point `l11 + t·(l12−l11)` with the source's `t` lies on line l11–l12 and on line l21–l22 |
| Geometry.IsVectorsCollinear | Assets/Scripts/Math2d.cs:47-52 | reversing a vector does not change the test; exactly parallel vectors and the zero vector count as collinear |
| Geometry.VectorsCollinearSymmetric | Assets/Scripts/Math2d.cs:47-52 | the test does not depend on the order of the two vectors |
| Geometry.IsThePointOnSegment | Assets/Scripts/Math2d.cs:54-73 | true exactly when the point is collinear with the segment within the tolerance and both dot products toward the far end are positive; a point on the segment then differs from both ends, and the ends differ |
| Geometry.OnSegmentSymmetric | Assets/Scripts/Math2d.cs:54-73 | the on-segment test does not depend on the order of the segment's ends |
| Geometry.FindLineSegmentIntersection | Assets/Scripts/Math2d.cs:35-45 | a found point is strictly inside the segment, away from both ends (exactly and within `Vector2 ==`), and it is the intersection point of the two lines; no point only if the lines are parallel, or the crossing is on an end or off the segment |
| Geometry.IsThePointOnEndsOfSegment | Assets/Scripts/Math2d.cs:75-77 | an end of the segment qualifies; a qualifying point is within the `Vector2 ==` epsilon of one end in both coordinates |
| Geometry.IsPointInsideCircle | Assets/Scripts/Math2d.cs:95-101 | the test is inclusive: a point strictly inside or at exactly the radius counts as inside; one farther out does not |
| Geometry.IsPointsCollinear | Assets/Scripts/Math2d.cs:103-110 | three points are collinear when the vectors from the first are collinear; two coinciding points always count as collinear |
| Geometry.GetCircumferenceAroundTriangle | Assets/Scripts/Math2d.cs:112-135 | fails with `BadTriangle` exactly for collinear corners; otherwise the centre is at the squared radius from all three corners |
| Geometry.BisectorsDenominator | Assets/Scripts/Math2d.cs:112-135 | the determinant of the two perpendicular bisectors equals the cross product of the triangle's sides, so the bisector system is singular exactly when the corners are collinear |
| Geometry.OnBisectorEquidistant | Assets/Scripts/Math2d.cs:83-93 | a point on the perpendicular bisector of a–b is equally far from a and b |
| Geometry.IsPointInTriangCircum | Assets/Scripts/Math2d.cs:137-140 | fails exactly for collinear corners; otherwise true exactly when the point is no farther from the centre than the first corner |
| Geometry.CornersInsideOwnCircumcircle | Assets/Scripts/Math2d.cs:95-140 | each corner of a proper triangle counts as inside its own circumcircle, because the test is inclusive |
| Geometry.RepeatedCornerIsBadTriangle | Assets/Scripts/Math2d.cs:103-140 | a triangle with a repeated corner makes the circumcircle test fail |
| Vertices.AddEdge | Assets/Scripts/Vertex2d.cs:25-31 | the edge is present afterwards; the membership is the old one plus the edge; the old list is a prefix; a duplicate-free list stays duplicate-free with the edge exactly once |
| Vertices.AddEdgeIdempotent | Assets/Scripts/Vertex2d.cs:25-31 | adding the same edge twice is the same as adding it once |
| Vertices.RemoveEdge | Assets/Scripts/Vertex2d.cs:75-78 | one occurrence is removed (multiset difference); on a duplicate-free list the edge is gone and the rest keep their order |
| Vertices.RemoveUndoesAdd | Assets/Scripts/Vertex2d.cs:25-78 | removing a freshly added edge restores the vertex exactly |
| Vertices.RemoveFirstLast | Assets/Scripts/Vertex2d.cs:75-78 | removing an absent-then-appended entry gives back the original list |
| Sequences.SortBy | Assets/Scripts/Vertex2d.cs:54-58 | the ordering used for `OrderBy`: a permutation of its input, sorted non-decreasingly by the key |
| Sequences.SortByStable | Assets/Scripts/Vertex2d.cs:43 | the sort is stable: the elements sharing a key keep their input order |
| Sequences.FilterSortBy | Assets/Scripts/Vertex2d.cs:37-45 | filtering after the sort equals sorting after the filter |
| Sequences.WithoutOrder | Assets/Scripts/Vertex2d.cs:75-78 | removing every copy of an entry keeps the relative order of the others |
| Sequences.RemoveFirstNoDup | Assets/Scripts/Vertex2d.cs:75-78 | on a duplicate-free list, `List.Remove` removes every copy and keeps the list duplicate-free |
| VertexOrdering.SpokesOf | Assets/Scripts/Vertex2d.cs:37-42 | each incident edge seen from the vertex: its far end and its direction away from the vertex |
| VertexOrdering.GetOrderedPotentials | Assets/Scripts/Vertex2d.cs:33-49 | never returns either endpoint of the base edge; element i is the far end of the i-th potential spoke |
| VertexOrdering.PotentialSpokesQualify | Assets/Scripts/Vertex2d.cs:37-45 | every potential spoke is a spoke of the vertex whose direction has dot product above the tolerance with the orthogonal, and its far end is neither endpoint of the edge |
| VertexOrdering.PotentialsComeFromIncidentEdges | Assets/Scripts/Vertex2d.cs:35-44 | each potential is the far end of an incident edge whose direction has dot product above the tolerance with the edge's orthogonal |
| VertexOrdering.PotentialsSorted | Assets/Scripts/Vertex2d.cs:43 | the potentials are in non-decreasing order of the angle key |
| VertexOrdering.PotentialsStable | Assets/Scripts/Vertex2d.cs:43-45 | equal-key potentials keep the order of the incident list, as `OrderBy` does |
| VertexOrdering.PotentialsAsReference | Assets/Scripts/Vertex2d.cs:37-45 | the source's filter, sort, project and filter pipeline equals one filter by both conditions followed by the sort |
| VertexOrdering.PotentialsInGraph | Assets/Scripts/Vertex2d.cs:33-49 | every potential is a vertex of the graph |
| VertexOrdering.GetOrderedEdgesByAngle | Assets/Scripts/Vertex2d.cs:51-61 | a permutation of the incident list, sorted non-decreasingly by the angle to the given edge |
| VertexOrdering.SortedSpokesOrderEdges | Assets/Scripts/Vertex2d.cs:51-61 | spokes sorted by the angle key give edge ids sorted by the angle of their direction |
| VertexOrdering.SpokesProjectToEdges | Assets/Scripts/Vertex2d.cs:51-61 | projecting the spokes back to edge ids gives the incident list |
| VertexOrdering.PermutedSpokes | Assets/Scripts/Vertex2d.cs:51-61 | a permutation of the vertex's spokes is still a list of its spokes |
| Edges.GetAnotherVertex | Assets/Scripts/Edge2d.cs:34-37 | the result is an endpoint: Vertex2 for Vertex1, Vertex1 otherwise |
| Edges.AnotherVertexSwaps | Assets/Scripts/Edge2d.cs:34-37 | on a proper edge it swaps the endpoints and is its own inverse |
| Edges.IsTheSameEdge | Assets/Scripts/Edge2d.cs:39-46 | true exactly when the unordered pair equals the edge's endpoint set |
| Edges.IsTheSameEdgeSymmetric | Assets/Scripts/Edge2d.cs:39-46 | argument order does not matter |
| Edges.SamePairTransitive | Assets/Scripts/Edge2d.cs:39-46 | two edges joining the same pair as a third also join each other's pair |
| Edges.GetVectorFromEdge | Assets/Scripts/Edge2d.cs:48-57 | from Vertex1 the vector points to Vertex2, and from Vertex2 to Vertex1 |
| Edges.SqrLength | Assets/Scripts/Edge2d.cs:16 | never negative, the same measured from either end, and zero when the ends coincide |
| Edges.VectorFromEndpoints | Assets/Scripts/Edge2d.cs:16-57 | the two orientations are opposite, and `SqrLenght` is either one's dot product with itself |
| Edges.NewEdge | Assets/Scripts/Edge2d.cs:20-27 | the constructor appends a fresh id and registers it on both endpoints; no other vertex changes |
| Edges.ClearVertices | Assets/Scripts/Edge2d.cs:140-144 | detaches the edge from both endpoints and leaves other vertices alone; on duplicate-free lists the edge is gone |
| Edges.ClearUndoesNewEdge | Assets/Scripts/Edge2d.cs:20-144 | building an edge and clearing it gives back every incident list |
| Edges.GetOrtogonal | Assets/Scripts/Edge2d.cs:64-138 | the result is one of the two perpendiculars of Vertex1→Vertex2, so its dot product with the edge is zero |
| Edges.PerpOrthogonal | Assets/Scripts/Edge2d.cs:66-68 | both perpendicular candidates are orthogonal to the direction |
| Edges.OrtogonalAwayFromPartner | Assets/Scripts/Edge2d.cs:70-99 | the side rule of `TakesFirstTurn` with a partner: the orthogonal does not point toward the first partner edge, and a tie takes the second turn |
| Edges.OrtogonalWinsVote | Assets/Scripts/Edge2d.cs:101-137 | the side rule of `TakesFirstTurn` without a partner: the orthogonal gets at least the vote of the opposite turn, and a tie takes the second turn |
| Edges.FirstWithPartner | Assets/Scripts/Edge2d.cs:70-100 | the first incident edge at Vertex1, other than the edge, that shares a vertex with an edge at Vertex2: every earlier entry has no such partner; none when no entry has one |
| Edges.HasSameVertexWith | Assets/Scripts/Edge2d.cs:240-267 | some vertex exactly when the edges share an endpoint; it is an endpoint of both, chosen by the rules v1 = v1', then v2 = v2', then v1 = v2', then v2 = v1' |
| Edges.IsCrossedByLine | Assets/Scripts/Edge2d.cs:146-154 | true exactly when the line meets the open edge, at a point strictly inside it |
| Edges.SideScan | Assets/Scripts/Edge2d.cs:176-189 | the scan stops exactly when a spoke overlaps the edge; otherwise the absolute sum bounds the sum |
| Edges.SpokeVectors | Assets/Scripts/Edge2d.cs:167-168 | one vector per incident edge other than the edge itself, in list order: the direction of that edge away from the endpoint |
| Edges.IsConvex | Assets/Scripts/Edge2d.cs:161-221 | convex if and only if neither endpoint has an overlapping spoke, each endpoint's sum is one-signed, and the two endpoint sums do not have strictly opposite signs |
| Edges.OverlapIsNotConvex | Assets/Scripts/Edge2d.cs:176-186 | a spoke at Vertex1 that overlaps the edge makes it non-convex |
| Edges.OneSidedScan | Assets/Scripts/Edge2d.cs:176-194 | spokes all on the orthogonal's side give a non-negative, one-signed sum |
| Edges.OneSidedSide | Assets/Scripts/Edge2d.cs:161-221 | an endpoint whose spokes all lie on one side has a defined, one-signed, non-negative side sum |
| Edges.NeighboursOnOneSideIsConvex | Assets/Scripts/Edge2d.cs:161-221 | an edge whose neighbours at both ends lie on the orthogonal's side is convex |
| Triangles.NewTriangle | Assets/Scripts/Triangle2d.cs:18-43 | keeps the three edges; each corner is a shared endpoint of its two edges, as `HasSameVertexWith` picks it |
| Triangles.CycleCorners | Assets/Scripts/Triangle2d.cs:28-43 | for edges a–b, b–c, c–a, corner 0 is a, corner 1 is b and corner 2 is c |
| Triangles.Indices | Assets/Scripts/Triangle2d.cs:16 | defined exactly when the three corners exist; then three entries, the k-th being corner k's `Index` |
| Triangles.IsSameTriangle | Assets/Scripts/Triangle2d.cs:45-50 | true exactly when each argument is one of the triangle's edges |
| Triangles.IsSameTrianglePermutation | Assets/Scripts/Triangle2d.cs:45-50 | the test is invariant under permuting its arguments |
| Triangles.NewTriangleIsSame | Assets/Scripts/Triangle2d.cs:18-50 | a triangle built from three edges matches those edges, in any rotation |
| Triangles.IsSameTriangleRepeats | Assets/Scripts/Triangle2d.cs:45-50 | a repeated argument matches when it is one of the edges |
| Triangles.IsAbnormal | Assets/Scripts/Triangle2d.cs:58-65 | abnormal exactly when the angle at the edge1/edge2 corner is below 0.01 or above 179.001 |
| Triangles.AbnormalMeasuresCorner | Assets/Scripts/Triangle2d.cs:58-65 | for edges a–b and b–c, the measured angle is the one at b between b→a and b→c |
| Triangles.AbnormalThresholds | Assets/Scripts/Triangle2d.cs:64 | the two thresholds are exclusive; near-zero and near-straight angles are abnormal, and a right angle is not |
| Submesh.CreateVertices | Assets/Scripts/Submesh2d.cs:50-59 | one vertex per point, vertex i with `Index` i, the point's position and no edges |
| Submesh.InitialMeshConsistent | Assets/Scripts/Submesh2d.cs:32-59 | the fresh mesh satisfies the adjacency invariant |
| Submesh.ExtendsTransitive | Assets/Scripts/Submesh2d.cs:166-194 | the arena only grows, and growth composes |
| Submesh.ToleranceCompare | Assets/Scripts/Submesh2d.cs:37-44 | 0 within the tolerance, 1 when a exceeds b by at least it, and −1 otherwise |
| Submesh.ToleranceCompareAntisymmetric | Assets/Scripts/Submesh2d.cs:37-44 | swapping the arguments negates the result |
| Submesh.ToleranceCompareNotTransitive | Assets/Scripts/Submesh2d.cs:37-44 | equality within the tolerance is not transitive, so the comparer is not a consistent order |
| Submesh.FirstJoining | Assets/Scripts/Submesh2d.cs:409-419 | the first list position joining the pair; none exactly when no entry joins it |
| Submesh.TryToGetEdge | Assets/Scripts/Submesh2d.cs:409-419 | a found edge is live, joins the pair and is the first such; none exactly when no live edge joins the pair |
| Submesh.AddEdgeBetween | Assets/Scripts/Submesh2d.cs:401-407 | appends one fresh edge to the arena and the live list, registers it on both endpoints, and keeps the invariant |
| Submesh.AddEdgeBetweenConsistent | Assets/Scripts/Submesh2d.cs:401-407 | building and listing an edge keeps the adjacency invariant |
| Submesh.NewEdgeListedAreActive | Assets/Scripts/Edge2d.cs:20-27 | after a new edge, every listed edge is live and has the vertex as an endpoint |
| Submesh.NewEdgeActiveAreListed | Assets/Scripts/Edge2d.cs:20-27 | after a new edge, every live edge is listed on both endpoints |
| Submesh.RemoveEdge | Assets/Scripts/Submesh2d.cs:299-303 | one occurrence leaves the live list; on a consistent mesh the edge is gone from the live list and from every vertex, and the invariant holds |
| Submesh.RemoveEdgeConsistent | Assets/Scripts/Submesh2d.cs:299-303 | clearing and delisting an edge keeps the invariant and leaves no reference to it |
| Submesh.ClearedLists | Assets/Scripts/Edge2d.cs:140-144 | after clearing, every incident list is the old one without the edge, and stays duplicate-free |
| Submesh.ClearedListedAreActive | Assets/Scripts/Submesh2d.cs:299-303 | after removal, every listed edge is still live |
| Submesh.ClearedActiveAreListed | Assets/Scripts/Submesh2d.cs:299-303 | after removal, every live edge is still listed on both endpoints |
| Submesh.RemoveEdgeBetween | Assets/Scripts/Submesh2d.cs:293-297 | fails with `EdgeNotFound` exactly when no live edge joins the pair; otherwise removes the first one and keeps the invariant |
| Submesh.RemoveEdgeBetweenDisconnects | Assets/Scripts/Submesh2d.cs:293-303 | without duplicate pairs, the pair is no longer joined afterwards |
| Submesh.OnlyOnePair | Assets/Scripts/Submesh2d.cs:366-379 | without duplicate pairs, a second live edge cannot join the same pair |
| Submesh.EnsureEdge | Assets/Scripts/Submesh2d.cs:366-379 | reuses the live edge joining the pair, or appends one; afterwards the pair is joined by a live edge, and no duplicate pair is created |
| Submesh.FreshPairKeepsNoDupPairs | Assets/Scripts/Submesh2d.cs:366-407 | adding an edge for an unjoined pair creates no duplicate pair |
| Submesh.Longest | Assets/Scripts/Submesh2d.cs:383-384 | one of the three edges with the largest `SqrLenght`, the earliest among equals |
| Submesh.PairLengthSymmetric | Assets/Scripts/Edge2d.cs:16 | the squared distance between two vertices is symmetric |
| Submesh.AddEdges | Assets/Scripts/Submesh2d.cs:349-388 | keeps the invariant and creates no duplicate pair; non-collinear corners end up pairwise joined; for collinear distinct corners the longest pair is dropped and the two shorter stay joined |
| Submesh.ConnectThree | Assets/Scripts/Submesh2d.cs:366-379 | keeps the invariant; the three pairs are joined by live edges |
| Submesh.ConnectThreeFrame | Assets/Scripts/Submesh2d.cs:366-379 | each pair already joined in the input reuses the first live edge joining it; every live edge of the input stays live; any live edge added is one of the three returned and a fresh arena entry |
| Submesh.AddEdgesFrame | Assets/Scripts/Submesh2d.cs:349-388 | only the three pairs are touched: a live edge joining none of them stays live, and every live edge of the result is an old live edge or a fresh arena entry joining one of the pairs |
| Submesh.CollinearBranch | Assets/Scripts/Submesh2d.cs:381-387 | removing the longest of the three edges keeps the invariant and drops exactly the longest pair |
| Submesh.CollinearOutcome | Assets/Scripts/Submesh2d.cs:381-387 | with three joined pairs, removing the longest edge leaves the two shorter pairs joined and the longest one not |
| Submesh.SamePairLengths | Assets/Scripts/Submesh2d.cs:381-387 | pair lengths depend only on positions, which growing the arena does not change |
| Submesh.EdgeLengthIsPairLength | Assets/Scripts/Edge2d.cs:16 | an edge's `SqrLenght` is the squared distance between the pair it joins |
| Submesh.PairsDiffer | Assets/Scripts/Submesh2d.cs:366-379 | the edges of three distinct pairs join different pairs |
| Submesh.RemoveJoined | Assets/Scripts/Submesh2d.cs:299-303 | after removing an edge, a pair is joined exactly when it was joined before and was not the removed edge's pair |
| Submesh.ActiveJoinFound | Assets/Scripts/Submesh2d.cs:409-419 | a live edge joining the pair is always found |
| Submesh.RemoveKeepsNoDupPairs | Assets/Scripts/Submesh2d.cs:299-303 | removal creates no duplicate pair |
| Submesh.NoDupPairsWithout | Assets/Scripts/Submesh2d.cs:302 | a sublist of a list without duplicate pairs has none either |
| Submesh.AddEdgeList | Assets/Scripts/Submesh2d.cs:390-399 | always appends a fresh edge between the first two vertices, even when they are already joined |
| Submesh.AddEdgeListDuplicates | Assets/Scripts/Submesh2d.cs:392-398 | when the pair is already joined, the live list ends up with a duplicate pair |
| Submesh.AddTriangle | Assets/Scripts/Submesh2d.cs:159-164 | grows by one exactly when no triangle has the same edges, and then appends the new triangle; afterwards some triangle matches; distinct lists stay distinct |
| Submesh.Flatten | Assets/Scripts/Submesh2d.cs:18-30 | defined exactly when every triangle has indices; then length 3·n, with entry 3i+k being triangle i's k-th index |
| Merge.GeometricOracleErrors | Assets/Scripts/Math2d.cs:112-140 | the model's circumcircle test can only fail with `BadTriangle` |
| Merge.RemoveAll | Assets/Scripts/Submesh2d.cs:278-297 | removing the edges to the skipped potentials keeps the invariant and fails only with `EdgeNotFound` |
| Merge.Scan | Assets/Scripts/Submesh2d.cs:270-287 | stops at the first potential whose successor is not in the circle, or at the last one, or at the first failing test; every earlier test said "inside" |
| Merge.WalkPotentials | Assets/Scripts/Submesh2d.cs:265-290 | no candidate exactly for an empty list; a candidate is a vertex; the invariant holds; a failure is a missing edge or the circumcircle test's own |
| Merge.WalkPotentialsStops | Assets/Scripts/Submesh2d.cs:270-290 | a found candidate is the potential where the walk stops, with the edges to all earlier potentials removed |
| Merge.TryToFindCandidate | Assets/Scripts/Submesh2d.cs:256-291 | keeps the invariant; a candidate is a vertex; a failure is a missing edge or the circumcircle test's own |
| Merge.CandidateStopsWalk | Assets/Scripts/Submesh2d.cs:256-291 | no candidate exactly when there are no potentials; otherwise the candidate is the potential where the walk stops |
| Merge.NextBase | Assets/Scripts/Submesh2d.cs:202-238 | the four-way choice: with both candidates, the circle test picks (Vertex1, candidate2) or (candidate1, Vertex2); with one, advance toward it; with none, stop |
| Merge.Candidates | Assets/Scripts/Submesh2d.cs:202-203 | the candidate searches at both ends keep the invariant and the base edge; each candidate is a vertex; a failure is a missing edge or the circumcircle test's own |
| Merge.MergeStep | Assets/Scripts/Submesh2d.cs:202-241 | keeps the invariant; the next base keeps one endpoint of the current one; a failure is a missing edge or the circumcircle test's own |
| Merge.MergeWithRL | Assets/Scripts/Submesh2d.cs:196-246 | keeps the invariant and never removes triangles; a failure is a missing edge, the circumcircle test's own, or running out of fuel |
| Merge.MergeEndsWithoutPotentials | Assets/Scripts/Submesh2d.cs:235-238 | with no potentials at either end, the merge returns the mesh unchanged |
| Merge.SearchRow | Assets/Scripts/Submesh2d.cs:314-329 | the first convex column from j, with all earlier columns rejected; none when every column is rejected |
| Merge.RejectedTrialLeavesGraph | Assets/Scripts/Submesh2d.cs:320-327 | a rejected trial edge, once cleared, leaves the graph as it was apart from the unreachable arena entry |
| Merge.ConvexTrialSides | Assets/Scripts/Submesh2d.cs:320-327 | a trial edge a–b accepted by `IsConvex` has no overlapping spoke at either end, one-signed side sums at both ends, and no strictly opposite sums |
| Merge.SearchRows | Assets/Scripts/Submesh2d.cs:311-330 | the first convex pair in row-major order from row i; none when every pair is rejected |
| Merge.GetLRBaseEdge | Assets/Scripts/Submesh2d.cs:305-333 | the trial edge of the first convex pair in row-major order, every earlier pair rejected; none when none is convex |
| Merge.Split | Assets/Scripts/Submesh2d.cs:168-172 | the halves concatenate to the input, the left has Count/2 vertices, and both are non-empty and shorter |
| Merge.AddBaseEdge | Assets/Scripts/Submesh2d.cs:178-179 | absent exactly when no pair is convex; otherwise the new base joins a left vertex to a right vertex and is appended as live |
| Merge.ZipHalves | Assets/Scripts/Submesh2d.cs:177-182 | a missing base edge fails with `NullBaseEdge`; with a base edge the merge keeps the invariant and can fail only as `MergeWithRL` does |
| Merge.DivideAndConquer | Assets/Scripts/Submesh2d.cs:166-194 | keeps the invariant; fewer than two vertices change nothing; two vertices add exactly one live edge; three always succeed; a failure is a merge failure or a missing base edge |
| Triangulation.FirstPartner | Assets/Scripts/Submesh2d.cs:115-134 | the first edge at Vertex2, other than the base, that shares a vertex with edge1; every earlier one does not |
| Triangulation.Visit | Assets/Scripts/Submesh2d.cs:115-134 | without a partner nothing changes; an added triangle is (edge, edge1, first partner); failure is `BadTriangle` |
| Triangulation.Close | Assets/Scripts/Submesh2d.cs:123-133 | for a shared vertex: fails with `BadTriangle` on a degenerate circle; otherwise remembers the vertex and appends at most the triangle (edge, edge1, edge2), keeping the list closed and distinct |
| Triangulation.Row | Assets/Scripts/Submesh2d.cs:107-136 | only appends triangles, each a closed fan around a live edge, with no repeated edge set |
| Triangulation.AroundEdge | Assets/Scripts/Submesh2d.cs:101-136 | the same for the triangles picked around one live edge |
| Triangulation.Pass | Assets/Scripts/Submesh2d.cs:99-137 | the same for the pass over all live edges |
| Triangulation.AddPicked | Assets/Scripts/Submesh2d.cs:159-164 | adding a closed triangle keeps the list closed and distinct, and the triangle is then matched |
| Triangulation.ClosedKeepsConsistent | Assets/Scripts/Submesh2d.cs:94-138 | picked triangles keep the adjacency invariant |
| Triangulation.PickOutTriangles | Assets/Scripts/Submesh2d.cs:94-138 | leaves the edges alone; every triangle is closed around a live edge and no two share an edge set; failure is `BadTriangle` |
| Triangulation.ClosedCorners | Assets/Scripts/Triangle2d.cs:28-43 | a picked triangle has all three corners, each a vertex of the graph |
| Triangulation.ClosedTrianglesFlatten | Assets/Scripts/Submesh2d.cs:18-30 | the `Triangles` output of picked triangles is defined and has three entries per triangle |
| Triangulation.FlaggedFrom | Assets/Scripts/Submesh2d.cs:71-78 | exactly the flagged positions from i on, in increasing order |
| Triangulation.CheckForAbnormalTriangles | Assets/Scripts/Submesh2d.cs:70-79 | reports exactly the positions of the triangles `IsAbnormal` flags, in list order |
| Triangulation.Triangulate | Assets/Scripts/Submesh2d.cs:61-67 | keeps the invariant; vertex i keeps its point and `Index` i; the triangles are closed and distinct, with `Triangles` of length 3·n; any failure other than `BadTriangle` comes from the merge of more than three vertices; fewer than two vertices give the bare vertex set |

## Left out

- The vertex sort in the `SubMesh2d` constructor is left out. It sorts by x, then y, with a tolerance comparer that is not transitive (`Submesh.ToleranceCompareNotTransitive`). The result then depends on .NET's sort algorithm, so the processing order is a parameter `order` of `Triangulation.Triangulate`. The anchor point computed there is unused.
- The stepwise animation is left out: `UniTask`, `WaitNextStep` and `NextStep`. The algorithm is modelled as synchronous.
- `Debug.Log`, `Debug.DrawLine` and the debug visualisers are left out. They are logging and rendering only.
- `CheckForAbnormalTriangles` only logs in the source. The model returns the positions it would log.
- IEEE float rounding is left out. Coordinates are exact `real`s with a single tolerance of 1e-6. Unity's approximate `Vector2 ==` is modelled as squared distance below 1e-10.
- `Vector2.Angle` (acos) is left out. The angle is a parameter `angle` of every operation that sorts or measures by it.
- `magnitude` (sqrt) is left out. The circle keeps its squared radius, and the inside test compares squared distances, which is equivalent for non-negative values.
- `IsShortestLineBetweenSegments` (Math2d.cs:142-185) is left out. It is never called.
- Unused helpers are left out: `RemoveAbnormalTriangles`, `IsLineCrossAnyEdges`, `Vertex2d.IsConvex`, `IsAnyVertexInsideEdge`, `IsIn01Segment` and `InitVertices`. Nothing in the triangulation calls them.
- Global Delaunay legality is not proved. Neither is the identity between triangle and edge counts. Both rest on the `GetOrtogonal` voting heuristic and tolerance tie-breaks, which the code does not back with any promise.
- Merge.MergeWithRL: the merge recursion carries a `fuel` bound, and running out is the `OutOfFuel` failure. The source recurses until no candidate remains. That termination rests on geometry the model does not prove, and no lemma relates one fuel bound to a larger one.
- Merge.GetLRBaseEdge: a rejected trial edge stays in the arena as an unreachable entry. The model proves that clearing it restores every incident list. The model then continues from the pre-trial graph, so the arena ids of later edges differ from a run that keeps the garbage entries.
- Merge.ConvexTrial: the merge logic takes convexity as an oracle over (graph, vertex, vertex). The geometric instance builds the trial edge and applies `Edges.IsConvex`.
- Merge.Scan: the model runs the circumcircle tests of the candidate walk first, then removes the skipped edges. The source interleaves the two. The tests do not look at edges, so the outcome is the same, including which failure is reported: the removals for the potentials walked past run before the failing test's result is returned.
- Triangulation.PickOutTriangles: the contract does not say which candidate triangles the circumcircle filter drops, nor that every face of the triangulation is found. It states only the structural facts: every picked triangle is closed around a live edge, the list has no repeated edge set, and failure is `BadTriangle`.
- Triangulation.ClosedCorners: states only that a picked triangle has three corners, each a vertex of the graph. It does not say which vertex each corner is. A duplicate pair of live edges, which `AddEdge(List)` can create, breaks the cyclic description.
- Submesh.AddEdgeList: no global no-duplicate invariant is claimed for this path. The source only logs "same edge" and still appends the duplicate (`Submesh.AddEdgeListDuplicates`).

=== FILE: edge.dfy ===
/** `Edge2d` (Assets/Scripts/Edge2d.cs) over an arena: the graph holds the
    vertices (indexed by vertex id) and every edge ever constructed (indexed
    by edge id, append-only). An edge is an ordered pair of vertex ids; the
    vertices' incident lists hold edge ids, which plays the part of the
    source's object references.
 */
module Edges {
  import opened Outcomes
  import opened Geometry
  import opened Sequences
  import opened Vertices

  datatype Edge = Edge(v1: VertexId, v2: VertexId)

  datatype Graph = Graph(verts: seq<Vertex>, edges: seq<Edge>)

  predicate EdgeIn(g: Graph, e: Edge) {
    e.v1 < |g.verts| && e.v2 < |g.verts|
  }

  predicate EdgeIdsIn(g: Graph, es: seq<EdgeId>) {
    forall k | 0 <= k < |es| :: es[k] < |g.edges|
  }

  /** Every reference in the arena resolves. */
  predicate Valid(g: Graph) {
    && (forall i | 0 <= i < |g.edges| :: EdgeIn(g, g.edges[i]))
    && (forall v | 0 <= v < |g.verts| :: EdgeIdsIn(g, g.verts[v].edges))
  }

  function Pos(g: Graph, v: VertexId): Vec
    requires v < |g.verts|
  {
    g.verts[v].pos
  }

  predicate IsEndpoint(e: Edge, v: VertexId) {
    v == e.v1 || v == e.v2
  }

  /** `GetAnotherVertex`: the endpoint that is not `v` (Vertex1 when `v` is
      not an endpoint at all). */
  function GetAnotherVertex(e: Edge, v: VertexId): (r: VertexId)
    ensures IsEndpoint(e, r)
    ensures v == e.v1 ==> r == e.v2
    ensures v != e.v1 ==> r == e.v1
  {
    if e.v1 == v then e.v2 else e.v1
  }

  /** On a proper edge, GetAnotherVertex swaps the two endpoints. */
  lemma AnotherVertexSwaps(e: Edge, v: VertexId)
    requires e.v1 != e.v2 && IsEndpoint(e, v)
    ensures GetAnotherVertex(e, v) != v
    ensures GetAnotherVertex(e, GetAnotherVertex(e, v)) == v
  {
  }

  /** `IsTheSameEdge`: the edge joins exactly the two given vertices, in
      either order. */
  function IsTheSameEdge(e: Edge, a: VertexId, b: VertexId): (r: bool)
    ensures r <==> {a, b} == {e.v1, e.v2}
  {
    var isSame := (a == e.v1 && b == e.v2) || (a == e.v2 && b == e.v1);
    assert {a, b} == {e.v1, e.v2} ==> isSame by {
      if {a, b} == {e.v1, e.v2} {
        assert a in {e.v1, e.v2} && b in {e.v1, e.v2};
        assert e.v1 in {a, b} && e.v2 in {a, b};
      }
    }
    isSame
  }

  /** The test ignores the order of its two arguments. */
  lemma IsTheSameEdgeSymmetric(e: Edge, a: VertexId, b: VertexId)
    ensures IsTheSameEdge(e, a, b) == IsTheSameEdge(e, b, a)
  {
    assert {a, b} == {b, a};
  }

  /** Two edges joining the same pair as a third join the same pair as
      each other. */
  lemma SamePairTransitive(x: Edge, y: Edge, a: VertexId, b: VertexId)
    requires IsTheSameEdge(x, a, b) && IsTheSameEdge(y, a, b)
    ensures IsTheSameEdge(y, x.v1, x.v2) && IsTheSameEdge(x, y.v1, y.v2)
  {
  }

  /** Vertex1 -> Vertex2. */
  function Direction(g: Graph, e: Edge): Vec
    requires EdgeIn(g, e)
  {
    Sub(Pos(g, e.v2), Pos(g, e.v1))
  }

  /** `GetVectorFromEdge` where the argument may be `null` (`None`): the
      direction is reversed only when the argument is Vertex2. */
  function VectorFromOpt(g: Graph, e: Edge, from: Option<VertexId>): Vec
    requires EdgeIn(g, e)
  {
    if from == Some(e.v2) then Neg(Direction(g, e)) else Direction(g, e)
  }

  /** `GetVectorFromEdge(vertex)`. */
  function GetVectorFromEdge(g: Graph, e: Edge, from: VertexId): (r: Vec)
    requires EdgeIn(g, e)
    ensures from == e.v1 ==> r == Sub(Pos(g, e.v2), Pos(g, e.v1))
    ensures from == e.v2 ==> r == Sub(Pos(g, e.v1), Pos(g, e.v2))
  {
    VectorFromOpt(g, e, Some(from))
  }

  /** `SqrLenght`. */
  function SqrLength(g: Graph, e: Edge): (r: real)
    requires EdgeIn(g, e)
    ensures r >= 0.0
    ensures r == SqrMag(Sub(Pos(g, e.v1), Pos(g, e.v2)))
    ensures Pos(g, e.v1) == Pos(g, e.v2) ==> r == 0.0
  {
    SqrMagNonNegative(Sub(Pos(g, e.v2), Pos(g, e.v1)));
    SqrMag(Sub(Pos(g, e.v2), Pos(g, e.v1)))
  }

  /** The two orientations of an edge are opposite vectors, and both have
      the edge's squared length. */
  lemma VectorFromEndpoints(g: Graph, e: Edge)
    requires EdgeIn(g, e)
    ensures GetVectorFromEdge(g, e, e.v2) == Neg(GetVectorFromEdge(g, e, e.v1))
    ensures SqrLength(g, e) == Dot(GetVectorFromEdge(g, e, e.v1), GetVectorFromEdge(g, e, e.v1))
    ensures SqrLength(g, e) == Dot(GetVectorFromEdge(g, e, e.v2), GetVectorFromEdge(g, e, e.v2))
  {
  }

  /** `HasSameVertexWith`: the shared endpoint, chosen in the order
      v1 = v1', v2 = v2', v1 = v2', v2 = v1'; `None` when the edges are
      disjoint. */
  function HasSameVertexWith(e: Edge, f: Edge): (r: Option<VertexId>)
    ensures r.Some? <==> IsEndpoint(f, e.v1) || IsEndpoint(f, e.v2)
    ensures r.Some? ==> IsEndpoint(e, r.value) && IsEndpoint(f, r.value)
    ensures e.v1 == f.v1 ==> r == Some(e.v1)
    ensures e.v1 != f.v1 && e.v2 == f.v2 ==> r == Some(e.v2)
    ensures e.v1 != f.v1 && e.v2 != f.v2 && e.v1 == f.v2 ==> r == Some(e.v1)
    ensures e.v1 != f.v1 && e.v2 != f.v2 && e.v1 != f.v2 && e.v2 == f.v1 ==> r == Some(e.v2)
  {
    if e.v1 == f.v1 then Some(e.v1)
    else if e.v2 == f.v2 then Some(e.v2)
    else if e.v1 == f.v2 then Some(e.v1)
    else if e.v2 == f.v1 then Some(e.v2)
    else None
  }

  /** `IsCrossedByLine`: the line l1-l2 crosses the open edge. */
  function IsCrossedByLine(g: Graph, e: Edge, l1: Vec, l2: Vec): (r: bool)
    requires EdgeIn(g, e)
    ensures r <==> FindLineSegmentIntersection(l1, l2, Pos(g, e.v1), Pos(g, e.v2)).Some?
    ensures r ==> IsThePointOnSegment(FindLineSegmentIntersection(l1, l2, Pos(g, e.v1), Pos(g, e.v2)).value,
                                      Pos(g, e.v1), Pos(g, e.v2))
  {
    match FindLineSegmentIntersection(l1, l2, Pos(g, e.v1), Pos(g, e.v2))
    case Some(_) => true
    case None => false
  }

  /** Replaces one vertex's incident list by `edges`, which must only hold
      edge ids of the arena. */
  function WithIncident(g: Graph, v: VertexId, edges: seq<EdgeId>): (r: Graph)
    requires Valid(g) && v < |g.verts| && EdgeIdsIn(g, edges)
    ensures Valid(r)
    ensures r.edges == g.edges && |r.verts| == |g.verts|
    ensures r.verts[v] == g.verts[v].(edges := edges)
    ensures forall w | 0 <= w < |g.verts| && w != v :: r.verts[w] == g.verts[w]
  {
    var g' := Graph(g.verts[v := g.verts[v].(edges := edges)], g.edges);
    assert forall w | 0 <= w < |g'.verts| :: EdgeIdsIn(g', g'.verts[w].edges) by {
      forall w | 0 <= w < |g'.verts| ensures EdgeIdsIn(g', g'.verts[w].edges) {
        if w != v {
          assert EdgeIdsIn(g, g.verts[w].edges);
        }
      }
    }
    g'
  }

  /** Appends a fresh edge to the arena, not yet registered anywhere. */
  function Allocate(g: Graph, a: VertexId, b: VertexId): (r: Graph)
    requires Valid(g) && a < |g.verts| && b < |g.verts|
    ensures Valid(r)
    ensures r.verts == g.verts && r.edges == g.edges + [Edge(a, b)]
  {
    var g' := Graph(g.verts, g.edges + [Edge(a, b)]);
    assert forall i | 0 <= i < |g'.edges| :: EdgeIn(g', g'.edges[i]) by {
      forall i | 0 <= i < |g'.edges| ensures EdgeIn(g', g'.edges[i]) {
        if i < |g.edges| {
          assert EdgeIn(g, g.edges[i]);
        }
      }
    }
    assert forall w | 0 <= w < |g'.verts| :: EdgeIdsIn(g', g'.verts[w].edges) by {
      forall w | 0 <= w < |g'.verts| ensures EdgeIdsIn(g', g'.verts[w].edges) {
        assert EdgeIdsIn(g, g.verts[w].edges);
      }
    }
    g'
  }

  /** `Vertex2d.AddEdge` applied inside the arena. */
  function AttachAt(g: Graph, v: VertexId, id: EdgeId): (r: Graph)
    requires Valid(g) && v < |g.verts| && id < |g.edges|
    ensures Valid(r)
    ensures r.edges == g.edges && |r.verts| == |g.verts|
    ensures r.verts[v] == AddEdge(g.verts[v], id)
    ensures forall w | 0 <= w < |g.verts| && w != v :: r.verts[w] == g.verts[w]
  {
    var added := AddEdge(g.verts[v], id);
    assert EdgeIdsIn(g, g.verts[v].edges);
    assert EdgeIdsIn(g, added.edges) by {
      forall k | 0 <= k < |added.edges| ensures added.edges[k] < |g.edges| {
        assert added.edges[k] in added.edges;
      }
    }
    WithIncident(g, v, added.edges)
  }

  /** `Vertex2d.RemoveEdge` applied inside the arena. */
  function DetachAt(g: Graph, v: VertexId, id: EdgeId): (r: Graph)
    requires Valid(g) && v < |g.verts|
    ensures Valid(r)
    ensures r.edges == g.edges && |r.verts| == |g.verts|
    ensures r.verts[v] == RemoveEdge(g.verts[v], id)
    ensures forall w | 0 <= w < |g.verts| && w != v :: r.verts[w] == g.verts[w]
  {
    var removed := RemoveEdge(g.verts[v], id);
    assert EdgeIdsIn(g, g.verts[v].edges);
    assert EdgeIdsIn(g, removed.edges) by {
      forall k | 0 <= k < |removed.edges| ensures removed.edges[k] < |g.edges| {
        assert removed.edges[k] in multiset(removed.edges);
        assert removed.edges[k] in multiset(g.verts[v].edges);
        assert removed.edges[k] in g.verts[v].edges;
      }
    }
    WithIncident(g, v, removed.edges)
  }

  /** The `Edge2d` constructor: allocates a fresh edge id and registers it
      on both endpoints. */
  function NewEdge(g: Graph, a: VertexId, b: VertexId): (r: (Graph, EdgeId))
    requires Valid(g) && a < |g.verts| && b < |g.verts|
    ensures Valid(r.0)
    ensures r.1 == |g.edges| && r.0.edges == g.edges + [Edge(a, b)]
    ensures |r.0.verts| == |g.verts|
    ensures r.1 in r.0.verts[a].edges && r.1 in r.0.verts[b].edges
    ensures forall v | 0 <= v < |g.verts| && v != a && v != b :: r.0.verts[v] == g.verts[v]
    ensures forall v | 0 <= v < |g.verts| :: r.0.verts[v].pos == g.verts[v].pos && r.0.verts[v].index == g.verts[v].index
    ensures forall v | 0 <= v < |g.verts| && (v == a || v == b) :: r.0.verts[v] == AddEdge(g.verts[v], r.1)
  {
    var id := |g.edges|;
    var g1 := Allocate(g, a, b);
    var g2 := AttachAt(g1, a, id);
    var g3 := AttachAt(g2, b, id);
    assert a == b ==> g3.verts[a] == AddEdge(g.verts[a], id) by {
      if a == b {
        AddEdgeIdempotent(g.verts[a], id);
      }
    }
    (g3, id)
  }

  /** `ClearVertices`: detaches the edge from both endpoints. */
  function ClearVertices(g: Graph, id: EdgeId): (r: Graph)
    requires Valid(g) && id < |g.edges|
    ensures Valid(r)
    ensures r.edges == g.edges && |r.verts| == |g.verts|
    ensures forall v | 0 <= v < |g.verts| :: r.verts[v].pos == g.verts[v].pos && r.verts[v].index == g.verts[v].index
    ensures forall v | 0 <= v < |g.verts| && !IsEndpoint(g.edges[id], v) :: r.verts[v] == g.verts[v]
    ensures forall v | 0 <= v < |g.verts| && IsEndpoint(g.edges[id], v) && NoDup(g.verts[v].edges)
              :: r.verts[v].edges == Without(g.verts[v].edges, id) && NoDup(r.verts[v].edges)
  {
    var e := g.edges[id];
    assert EdgeIn(g, e);
    var g1 := DetachAt(g, e.v1, id);
    var g2 := DetachAt(g1, e.v2, id);
    WithoutTwice(g.verts[e.v1].edges, id);
    WithoutNoDupIf(g.verts[e.v1].edges, id);
    g2
  }

  lemma {:induction false} WithoutTwice(s: seq<EdgeId>, x: EdgeId)
    ensures Without(Without(s, x), x) == Without(s, x)
  {
    WithoutAbsent(Without(s, x), x);
  }

  lemma WithoutNoDupIf(s: seq<EdgeId>, x: EdgeId)
    ensures NoDup(s) ==> NoDup(Without(s, x))
  {
    if NoDup(s) {
      WithoutNoDup(s, x);
    }
  }

  /** A trial edge that is built and then cleared leaves every vertex's
      incident list exactly as it was: the rejected edge becomes
      unreachable. */
  lemma ClearUndoesNewEdge(g: Graph, a: VertexId, b: VertexId)
    requires Valid(g) && a < |g.verts| && b < |g.verts|
    ensures ClearVertices(NewEdge(g, a, b).0, NewEdge(g, a, b).1).verts == g.verts
  {
    var (g1, id) := NewEdge(g, a, b);
    var g2 := ClearVertices(g1, id);
    assert g1.edges[id] == Edge(a, b);
    assert g2 == DetachAt(DetachAt(g1, a, id), b, id);
    forall v | 0 <= v < |g.verts| ensures g2.verts[v] == g.verts[v] {
      if v == a || v == b {
        assert EdgeIdsIn(g, g.verts[v].edges);
        assert id !in g.verts[v].edges;
        RemoveUndoesAdd(g.verts[v], id);
        assert g1.verts[v] == AddEdge(g.verts[v], id);
        if a == b {
          assert id !in RemoveEdge(g1.verts[v], id).edges;
        }
      }
    }
  }

  // ---------------------------------------------------------------------
  // GetOrtogonal

  /** The quarter turn (-y, x) of a vector. */
  function Perp(v: Vec): Vec { Vec(-v.y, v.x) }

  /** True when some edge of `es` other than `self` shares an endpoint
      with edge `x`. */
  predicate HasPartner(g: Graph, self: EdgeId, x: EdgeId, es: seq<EdgeId>)
    requires x < |g.edges| && EdgeIdsIn(g, es)
  {
    exists j | 0 <= j < |es| :: es[j] != self && HasSameVertexWith(g.edges[x], g.edges[es[j]]).Some?
  }

  /** The first edge at Vertex1 (other than the edge itself) that shares a
      vertex with some edge at Vertex2 (other than the edge itself): the
      row-major double loop of `GetOrtogonal`. */
  function FirstWithPartner(g: Graph, self: EdgeId, es1: seq<EdgeId>, es2: seq<EdgeId>): (r: Option<EdgeId>)
    requires EdgeIdsIn(g, es1) && EdgeIdsIn(g, es2)
    ensures r.Some? ==> r.value in es1 && r.value != self && HasPartner(g, self, r.value, es2)
    ensures r.None? ==> forall i | 0 <= i < |es1| && es1[i] != self :: !HasPartner(g, self, es1[i], es2)
    ensures r.Some? ==> exists k | 0 <= k < |es1| :: es1[k] == r.value && NoPartnerBefore(g, self, es1, es2, k)
  {
    if |es1| == 0 then None
    else if es1[0] != self && HasPartner(g, self, es1[0], es2) then
      assert NoPartnerBefore(g, self, es1, es2, 0);
      Some(es1[0])
    else
      var r := FirstWithPartner(g, self, es1[1..], es2);
      assert forall i | 1 <= i < |es1| :: es1[i] == es1[1..][i - 1];
      if r.Some? then
        var k :| 0 <= k < |es1[1..]| && es1[1..][k] == r.value && NoPartnerBefore(g, self, es1[1..], es2, k);
        assert es1[k + 1] == r.value && NoPartnerBefore(g, self, es1, es2, k + 1);
        r
      else r
  }

  /** No entry of `es1` before position `k`, other than `self`, has a
      partner in `es2`. */
  predicate NoPartnerBefore(g: Graph, self: EdgeId, es1: seq<EdgeId>, es2: seq<EdgeId>, k: nat)
    requires EdgeIdsIn(g, es1) && EdgeIdsIn(g, es2) && k <= |es1|
  {
    forall i | 0 <= i < k :: es1[i] == self || !HasPartner(g, self, es1[i], es2)
  }

  /** Sum of the dot products of `dir` with every edge of `es` other than
      `self`, each oriented away from `from`. */
  function SumDots(g: Graph, es: seq<EdgeId>, self: EdgeId, from: VertexId, dir: Vec): real
    requires Valid(g) && EdgeIdsIn(g, es)
  {
    if |es| == 0 then 0.0
    else
      assert EdgeIn(g, g.edges[es[0]]);
      var rest := SumDots(g, es[1..], self, from, dir);
      if es[0] == self then rest
      else Dot(GetVectorFromEdge(g, g.edges[es[0]], from), dir) + rest
  }

  /** A quarter turn is orthogonal to the vector it turns, either way. */
  lemma PerpOrthogonal(d: Vec)
    ensures Dot(Perp(d), d) == 0.0 && Dot(Neg(Perp(d)), d) == 0.0
  {
  }

  /** The vote of direction `dir` in `GetOrtogonal`: the dot products of
      `dir` with the other edges at both ends, each oriented away from its
      end. */
  function Vote(g: Graph, self: EdgeId, dir: Vec): real
    requires Valid(g) && self < |g.edges|
  {
    var e := g.edges[self];
    assert EdgeIn(g, e);
    SumDots(g, g.verts[e.v1].edges, self, e.v1, dir) + SumDots(g, g.verts[e.v2].edges, self, e.v2, dir)
  }

  /** The partner of `GetOrtogonal`'s first loop: the first edge at
      Vertex1 sharing a vertex with an edge at Vertex2, if any. */
  function Partner(g: Graph, self: EdgeId): (r: Option<EdgeId>)
    requires Valid(g) && self < |g.edges|
    ensures r.Some? ==> r.value < |g.edges| && r.value != self
  {
    var e := g.edges[self];
    assert EdgeIn(g, e);
    var es1 := g.verts[e.v1].edges;
    assert EdgeIdsIn(g, es1) && EdgeIdsIn(g, g.verts[e.v2].edges);
    var r := FirstWithPartner(g, self, es1, g.verts[e.v2].edges);
    assert r.Some? ==> exists k | 0 <= k < |es1| :: es1[k] == r.value;
    r
  }

  /** The side choice of `GetOrtogonal`: true when the quarter turn
      (-y, x) of Vertex1 -> Vertex2 is taken. If an edge at Vertex1 and an
      edge at Vertex2 share a vertex (a triangle already sits on one side),
      the turn pointing away from that edge is taken; otherwise the side
      with the larger vote of neighbouring edge directions wins, ties going
      to the other turn. */
  predicate TakesFirstTurn(g: Graph, self: EdgeId)
    requires Valid(g) && self < |g.edges|
  {
    var e := g.edges[self];
    assert EdgeIn(g, e);
    var vector1 := Perp(GetVectorFromEdge(g, e, e.v1));
    var vector2 := Neg(vector1);
    match Partner(g, self)
    case Some(edge1) =>
      assert EdgeIn(g, g.edges[edge1]);
      var ourVertex := HasSameVertexWith(g.edges[edge1], e);
      Dot(VectorFromOpt(g, g.edges[edge1], ourVertex), vector1) < 0.0
    case None =>
      Vote(g, self, vector1) > Vote(g, self, vector2)
  }

  /** `GetOrtogonal`: one of the two quarter turns of Vertex1 -> Vertex2,
      picked by `TakesFirstTurn`. */
  function GetOrtogonal(g: Graph, self: EdgeId): (r: Vec)
    requires Valid(g) && self < |g.edges|
    ensures EdgeIn(g, g.edges[self])
    ensures r == Perp(Direction(g, g.edges[self])) || r == Neg(Perp(Direction(g, g.edges[self])))
    ensures Dot(r, Direction(g, g.edges[self])) == 0.0
  {
    var e := g.edges[self];
    assert EdgeIn(g, e);
    var d := Direction(g, e);
    PerpOrthogonal(d);
    if TakesFirstTurn(g, self) then Perp(d) else Neg(Perp(d))
  }

  /** When the edge has a partner, `GetOrtogonal` does not point toward it
      (seen from the vertex the partner shares with the edge); a tie goes
      to the second turn. */
  lemma OrtogonalAwayFromPartner(g: Graph, self: EdgeId)
    requires Valid(g) && self < |g.edges| && Partner(g, self).Some?
    ensures EdgeIn(g, g.edges[self]) && EdgeIn(g, g.edges[Partner(g, self).value])
    ensures var e := g.edges[self];
            var p := g.edges[Partner(g, self).value];
            var w := VectorFromOpt(g, p, HasSameVertexWith(p, e));
            && Dot(w, GetOrtogonal(g, self)) <= 0.0
            && (Dot(w, GetOrtogonal(g, self)) == 0.0 ==> GetOrtogonal(g, self) == Neg(Perp(Direction(g, e))))
  {
    var e := g.edges[self];
    assert EdgeIn(g, e);
    var d := Direction(g, e);
    assert Perp(GetVectorFromEdge(g, e, e.v1)) == Perp(d);
    var p := g.edges[Partner(g, self).value];
    assert EdgeIn(g, p);
    var w := VectorFromOpt(g, p, HasSameVertexWith(p, e));
    assert TakesFirstTurn(g, self) <==> Dot(w, Perp(d)) < 0.0;
    assert Dot(w, Neg(Perp(d))) == -Dot(w, Perp(d));
  }

  /** When the edge has no partner, `GetOrtogonal` collects at least the
      vote of the opposite turn; a tie goes to the second turn. */
  lemma OrtogonalWinsVote(g: Graph, self: EdgeId)
    requires Valid(g) && self < |g.edges| && Partner(g, self).None?
    ensures EdgeIn(g, g.edges[self])
    ensures Vote(g, self, GetOrtogonal(g, self)) >= Vote(g, self, Neg(GetOrtogonal(g, self)))
    ensures Vote(g, self, GetOrtogonal(g, self)) == Vote(g, self, Neg(GetOrtogonal(g, self)))
            ==> GetOrtogonal(g, self) == Neg(Perp(Direction(g, g.edges[self])))
  {
    var e := g.edges[self];
    assert EdgeIn(g, e);
    var d := Direction(g, e);
    assert Perp(GetVectorFromEdge(g, e, e.v1)) == Perp(d);
    assert Neg(Neg(Perp(d))) == Perp(d);
    assert TakesFirstTurn(g, self) <==> Vote(g, self, Perp(d)) > Vote(g, self, Neg(Perp(d)));
  }

  // ---------------------------------------------------------------------
  // IsConvex

  /** The directions, away from `from`, of the edges of `es` other than
      `self` (the `Where(a => a != this).Select(...)` of `IsConvex`). */
  function SpokeVectors(g: Graph, es: seq<EdgeId>, self: EdgeId, from: VertexId): (r: seq<Vec>)
    requires Valid(g) && EdgeIdsIn(g, es)
    ensures |r| == |Without(es, self)|
    ensures forall k | 0 <= k < |r| :: r[k] == GetVectorFromEdge(g, g.edges[Without(es, self)[k]], from)
  {
    if |es| == 0 then []
    else
      assert EdgeIn(g, g.edges[es[0]]);
      var rest := SpokeVectors(g, es[1..], self, from);
      if es[0] == self then rest
      else [GetVectorFromEdge(g, g.edges[es[0]], from)] + rest
  }

  /** A neighbour lies along the edge itself (dot with the orthogonal below
      tolerance) and points into it: the two edges overlap. */
  predicate Overlaps(v: Vec, orth: Vec, along: Vec) {
    Abs(Dot(orth, v)) < Tolerance && Dot(along, v) > 0.0
  }

  /** A dot product below tolerance counts as zero. */
  function Clamp(d: real): real {
    if Abs(d) < Tolerance then 0.0 else d
  }

  datatype SideSums = SideSums(sum: real, absSum: real)

  /** One endpoint's loop of `IsConvex`: `None` on an overlapping
      neighbour, otherwise the signed and absolute sums of the clamped dot
      products with the orthogonal. */
  function SideScan(vs: seq<Vec>, orth: Vec, along: Vec): (r: Option<SideSums>)
    ensures r.None? <==> exists i | 0 <= i < |vs| :: Overlaps(vs[i], orth, along)
    ensures r.Some? ==> Abs(r.value.sum) <= r.value.absSum
  {
    if |vs| == 0 then Some(SideSums(0.0, 0.0))
    else
      var dot := Dot(orth, vs[0]);
      assert forall i | 1 <= i < |vs| :: vs[i] == vs[1..][i - 1];
      if Abs(dot) < Tolerance && Dot(along, vs[0]) > 0.0 then None
      else
        match SideScan(vs[1..], orth, along)
        case None => None
        case Some(rest) =>
          var d := Clamp(dot);
          Some(SideSums(d + rest.sum, Abs(d) + rest.absSum))
  }

  /** The consistency test: all clamped dot products of one side have the
      same sign (up to tolerance). */
  predicate OneSigned(s: SideSums) {
    !(Abs(Abs(s.sum) - s.absSum) > Tolerance)
  }

  function SideOf(g: Graph, self: EdgeId, at: VertexId, toward: VertexId): Option<SideSums>
    requires Valid(g) && self < |g.edges| && at < |g.verts| && toward < |g.verts|
  {
    assert EdgeIdsIn(g, g.verts[at].edges);
    SideScan(SpokeVectors(g, g.verts[at].edges, self, at), GetOrtogonal(g, self), Sub(Pos(g, toward), Pos(g, at)))
  }

  /** `Edge2d.IsConvex`: no neighbour overlaps the edge, the neighbours at
      each endpoint lie on one side of it, and the two endpoints do not
      lie on strictly opposite sides. */
  function IsConvex(g: Graph, self: EdgeId): (r: bool)
    requires Valid(g) && self < |g.edges|
    ensures EdgeIn(g, g.edges[self])
    ensures r ==> SideOf(g, self, g.edges[self].v1, g.edges[self].v2).Some?
    ensures r ==> SideOf(g, self, g.edges[self].v2, g.edges[self].v1).Some?
    ensures r ==> OneSigned(SideOf(g, self, g.edges[self].v1, g.edges[self].v2).value)
                  && OneSigned(SideOf(g, self, g.edges[self].v2, g.edges[self].v1).value)
    ensures r ==> !(SideOf(g, self, g.edges[self].v1, g.edges[self].v2).value.sum > 0.0
                    && SideOf(g, self, g.edges[self].v2, g.edges[self].v1).value.sum < 0.0)
    ensures r ==> !(SideOf(g, self, g.edges[self].v1, g.edges[self].v2).value.sum < 0.0
                    && SideOf(g, self, g.edges[self].v2, g.edges[self].v1).value.sum > 0.0)
    ensures (SideOf(g, self, g.edges[self].v1, g.edges[self].v2).Some?
            && SideOf(g, self, g.edges[self].v2, g.edges[self].v1).Some?
            && OneSigned(SideOf(g, self, g.edges[self].v1, g.edges[self].v2).value)
            && OneSigned(SideOf(g, self, g.edges[self].v2, g.edges[self].v1).value)
            && !(SideOf(g, self, g.edges[self].v1, g.edges[self].v2).value.sum > 0.0
                 && SideOf(g, self, g.edges[self].v2, g.edges[self].v1).value.sum < 0.0)
            && !(SideOf(g, self, g.edges[self].v1, g.edges[self].v2).value.sum < 0.0
                 && SideOf(g, self, g.edges[self].v2, g.edges[self].v1).value.sum > 0.0)) ==> r
  {
    var e := g.edges[self];
    assert EdgeIn(g, e);
    match SideOf(g, self, e.v1, e.v2)
    case None => false
    case Some(s1) =>
      if !OneSigned(s1) then false
      else
        match SideOf(g, self, e.v2, e.v1)
        case None => false
        case Some(s2) =>
          if !OneSigned(s2) then false
          else (s1.sum >= 0.0 && s2.sum >= 0.0) || (s1.sum <= 0.0 && s2.sum <= 0.0)
  }

  /** An overlapping neighbour at Vertex1 makes the edge non-convex. */
  lemma OverlapIsNotConvex(g: Graph, self: EdgeId, i: nat)
    requires Valid(g) && self < |g.edges|
    requires EdgeIn(g, g.edges[self]) && EdgeIdsIn(g, g.verts[g.edges[self].v1].edges)
    requires
      var e := g.edges[self];
      var vs := SpokeVectors(g, g.verts[e.v1].edges, self, e.v1);
      i < |vs| && Overlaps(vs[i], GetOrtogonal(g, self), Sub(Pos(g, e.v2), Pos(g, e.v1)))
    ensures !IsConvex(g, self)
  {
  }

  /** A scan over neighbours that all lie clearly on the orthogonal's side
      succeeds with equal signed and absolute sums. */
  lemma {:induction false} OneSidedScan(vs: seq<Vec>, orth: Vec, along: Vec)
    requires forall i | 0 <= i < |vs| :: Dot(orth, vs[i]) >= Tolerance
    ensures SideScan(vs, orth, along).Some?
    ensures SideScan(vs, orth, along).value.sum == SideScan(vs, orth, along).value.absSum
    ensures SideScan(vs, orth, along).value.sum >= 0.0
    decreases |vs|
  {
    if |vs| > 0 {
      OneSidedScan(vs[1..], orth, along);
    }
  }

  /** Every neighbour at `at` lies clearly on the orthogonal's side. */
  predicate AllOnOrthSide(g: Graph, self: EdgeId, at: VertexId)
    requires Valid(g) && self < |g.edges| && at < |g.verts|
  {
    assert EdgeIdsIn(g, g.verts[at].edges);
    var vs := SpokeVectors(g, g.verts[at].edges, self, at);
    forall i | 0 <= i < |vs| :: Dot(GetOrtogonal(g, self), vs[i]) >= Tolerance
  }

  lemma OneSidedSide(g: Graph, self: EdgeId, at: VertexId, toward: VertexId)
    requires Valid(g) && self < |g.edges| && at < |g.verts| && toward < |g.verts|
    requires AllOnOrthSide(g, self, at)
    ensures SideOf(g, self, at, toward).Some?
    ensures OneSigned(SideOf(g, self, at, toward).value)
    ensures SideOf(g, self, at, toward).value.sum >= 0.0
  {
    assert EdgeIdsIn(g, g.verts[at].edges);
    OneSidedScan(SpokeVectors(g, g.verts[at].edges, self, at), GetOrtogonal(g, self), Sub(Pos(g, toward), Pos(g, at)));
  }

  /** If every neighbour at both endpoints lies clearly on the orthogonal's
      side, the edge is convex. */
  lemma NeighboursOnOneSideIsConvex(g: Graph, self: EdgeId)
    requires Valid(g) && self < |g.edges|
    requires EdgeIn(g, g.edges[self])
    requires AllOnOrthSide(g, self, g.edges[self].v1) && AllOnOrthSide(g, self, g.edges[self].v2)
    ensures IsConvex(g, self)
  {
    var e := g.edges[self];
    OneSidedSide(g, self, e.v1, e.v2);
    OneSidedSide(g, self, e.v2, e.v1);
  }
}

=== FILE: geometry.dfy ===
/** The polynomial predicates of `Math2d` (Assets/Scripts/Math2d.cs), over
    exact reals. Every tolerance test uses the single constant `Tolerance`.
    Radii are kept squared: the source takes a square root and squares it
    again before comparing, which over the reals is the identity.
 */
module Geometry {
  import opened Outcomes

  datatype Vec = Vec(x: real, y: real)

  function Add(a: Vec, b: Vec): Vec { Vec(a.x + b.x, a.y + b.y) }
  function Sub(a: Vec, b: Vec): Vec { Vec(a.x - b.x, a.y - b.y) }
  function Scale(k: real, a: Vec): Vec { Vec(k * a.x, k * a.y) }
  function Neg(a: Vec): Vec { Vec(-a.x, -a.y) }
  function Dot(a: Vec, b: Vec): real { a.x * b.x + a.y * b.y }
  /** The z component of the 3D cross product. */
  function Cross(a: Vec, b: Vec): real { a.x * b.y - a.y * b.x }
  function SqrMag(a: Vec): real { Dot(a, a) }
  function Abs(r: real): real { if r < 0.0 then -r else r }

  /** The shared absolute tolerance (1e-6). */
  const Tolerance: real := 0.000001

  /** UnityEngine.Vector2's `==` is approximate: two vectors are equal when
      the magnitude of their difference is below 1e-5. */
  const VectorEqualityEpsilon: real := 0.00001

  predicate SameVec(a: Vec, b: Vec) {
    SqrMag(Sub(a, b)) < VectorEqualityEpsilon * VectorEqualityEpsilon
  }

  lemma SameVecReflexive(a: Vec)
    ensures SameVec(a, a)
  {
  }

  /** The denominator of the 2x2 system of `FindIntersectionPointBetweenLines2D`. */
  function LinesDenominator(l11: Vec, l12: Vec, l21: Vec, l22: Vec): real {
    (l22.y - l21.y) * (l12.x - l11.x) - (l22.x - l21.x) * (l12.y - l11.y)
  }

  /** Intersection of line l11-l12 with line l21-l22; `None` models the
      `false` return (the out parameter is then ignored by every caller). */
  function FindIntersectionPointBetweenLines(l11: Vec, l12: Vec, l21: Vec, l22: Vec): (r: Option<Vec>)
    ensures r.None? <==> Abs(Cross(Sub(l12, l11), Sub(l22, l21))) < Tolerance
    ensures r.Some? ==> Cross(Sub(r.value, l11), Sub(l12, l11)) == 0.0
    ensures r.Some? ==> Cross(Sub(r.value, l21), Sub(l22, l21)) == 0.0
  {
    var denom := LinesDenominator(l11, l12, l21, l22);
    assert denom == Cross(Sub(l12, l11), Sub(l22, l21));
    if Abs(denom) < Tolerance then None
    else
      var num := (l22.x - l21.x) * (l11.y - l21.y) - (l22.y - l21.y) * (l11.x - l21.x);
      var t := num / denom;
      var p := Add(l11, Scale(t, Sub(l12, l11)));
      LinesSolution(l11, l12, l21, l22, denom, num, t);
      Some(p)
  }

  lemma LinesSolution(l11: Vec, l12: Vec, l21: Vec, l22: Vec, denom: real, num: real, t: real)
    requires denom == Cross(Sub(l12, l11), Sub(l22, l21)) && denom != 0.0
    requires num == (l22.x - l21.x) * (l11.y - l21.y) - (l22.y - l21.y) * (l11.x - l21.x)
    requires t == num / denom
    ensures Cross(Sub(Add(l11, Scale(t, Sub(l12, l11))), l11), Sub(l12, l11)) == 0.0
    ensures Cross(Sub(Add(l11, Scale(t, Sub(l12, l11))), l21), Sub(l22, l21)) == 0.0
  {
    var d1 := Sub(l12, l11);
    var d2 := Sub(l22, l21);
    var w := Sub(l11, l21);
    var p := Add(l11, Scale(t, d1));
    assert t * denom == num;
    assert Sub(p, l11) == Vec(t * d1.x, t * d1.y);
    assert Cross(Vec(t * d1.x, t * d1.y), d1) == t * (d1.x * d1.y - d1.y * d1.x);
    assert Sub(p, l21) == Vec(w.x + t * d1.x, w.y + t * d1.y);
    calc {
      Cross(Vec(w.x + t * d1.x, w.y + t * d1.y), d2);
      (w.x + t * d1.x) * d2.y - (w.y + t * d1.y) * d2.x;
      Cross(w, d2) + t * Cross(d1, d2);
      Cross(w, d2) + num;
      0.0;
    }
  }

  /** `IsVectorsCollinear`: the cross product vanishes within tolerance.
      Reversing a vector does not change the test, exactly parallel
      vectors qualify, and so does the zero vector with anything. */
  predicate IsVectorsCollinear(v1: Vec, v2: Vec): (r: bool)
    ensures r == (Abs(Cross(Vec(-v1.x, -v1.y), v2)) < Tolerance)
    ensures Cross(v1, v2) == 0.0 ==> r
    ensures v1 == Vec(0.0, 0.0) || v2 == Vec(0.0, 0.0) ==> r
  {
    assert Cross(Vec(-v1.x, -v1.y), v2) == -Cross(v1, v2) by {
      assert (-v1.x) * v2.y == -(v1.x * v2.y) && (-v1.y) * v2.x == -(v1.y * v2.x);
    }
    Abs(Cross(v1, v2)) < Tolerance
  }

  /** The order of the two vectors does not matter. */
  lemma VectorsCollinearSymmetric(v1: Vec, v2: Vec)
    ensures IsVectorsCollinear(v1, v2) == IsVectorsCollinear(v2, v1)
  {
    assert Cross(v2, v1) == -Cross(v1, v2);
  }

  /** `IsThePointOnSegment`: p is collinear with s1-s2 and its projection
      falls strictly between the two endpoints. */
  function IsThePointOnSegment(p: Vec, s1: Vec, s2: Vec): (r: bool)
    ensures r ==> p != s1 && p != s2 && s1 != s2
    ensures r ==> Dot(Sub(p, s1), Sub(s2, s1)) > 0.0 && Dot(Sub(p, s2), Sub(s1, s2)) > 0.0
    ensures r ==> IsVectorsCollinear(Sub(p, s1), Sub(s2, s1))
    ensures (&& IsVectorsCollinear(Sub(p, s1), Sub(s2, s1))
             && Dot(Sub(p, s1), Sub(s2, s1)) > 0.0
             && Dot(Sub(p, s2), Sub(s1, s2)) > 0.0) ==> r
  {
    var s1p := Sub(p, s1);
    var s1s2 := Sub(s2, s1);
    if !IsVectorsCollinear(s1p, s1s2) then false
    else
      var dotS1PS1S2 := Dot(s1p, s1s2);
      var dotS1S2 := Dot(s1s2, s1s2);
      assert Dot(Sub(p, s2), Sub(s1, s2)) == dotS1S2 - dotS1PS1S2;
      dotS1PS1S2 > 0.0 && dotS1PS1S2 < dotS1S2
  }

  /** The segment test does not depend on the segment's orientation. */
  lemma OnSegmentSymmetric(p: Vec, s1: Vec, s2: Vec)
    ensures IsThePointOnSegment(p, s1, s2) == IsThePointOnSegment(p, s2, s1)
  {
    var d := Sub(s2, s1);
    var u := Sub(p, s1);
    assert Sub(p, s2) == Vec(u.x - d.x, u.y - d.y);
    assert Sub(s1, s2) == Vec(-d.x, -d.y);
    calc {
      Cross(Vec(u.x - d.x, u.y - d.y), Vec(-d.x, -d.y));
      (u.x - d.x) * (-d.y) - (u.y - d.y) * (-d.x);
      -Cross(u, d);
    }
    assert Dot(Sub(p, s2), Sub(s1, s2)) == Dot(d, d) - Dot(Sub(p, s1), d);
    assert Dot(Sub(s1, s2), Sub(s1, s2)) == Dot(d, d);
  }

  /** `IsThePointOnEndsOfSegment`, with Unity's approximate `==`: an end
      itself qualifies, and a qualifying point is within the epsilon of an
      end in each coordinate. */
  predicate IsThePointOnEndsOfSegment(p: Vec, s1: Vec, s2: Vec): (r: bool)
    ensures p == s1 || p == s2 ==> r
    ensures r ==> NearInBothCoordinates(p, s1) || NearInBothCoordinates(p, s2)
  {
    if SameVec(p, s1) then
      SameVecIsNear(p, s1);
      true
    else if SameVec(p, s2) then
      SameVecIsNear(p, s2);
      true
    else
      false
  }

  predicate NearInBothCoordinates(a: Vec, b: Vec) {
    Abs(a.x - b.x) < VectorEqualityEpsilon && Abs(a.y - b.y) < VectorEqualityEpsilon
  }

  lemma SameVecIsNear(a: Vec, b: Vec)
    requires SameVec(a, b)
    ensures NearInBothCoordinates(a, b)
  {
    var d := Sub(a, b);
    SquareBelow(d.x, d.y * d.y, VectorEqualityEpsilon);
    SquareBelow(d.y, d.x * d.x, VectorEqualityEpsilon);
  }

  /** A number whose square, plus something non-negative, is below `e`
      squared is below `e` in absolute value. */
  lemma SquareBelow(a: real, rest: real, e: real)
    requires e > 0.0 && rest >= 0.0 && a * a + rest < e * e
    ensures Abs(a) < e
  {
    var b := Abs(a);
    assert b * b == a * a;
  }

  /** A squared magnitude is never negative. */
  lemma SqrMagNonNegative(v: Vec)
    ensures SqrMag(v) >= 0.0
  {
    SquarePositive(v.x);
    SquarePositive(v.y);
  }

  lemma SquarePositive(a: real)
    ensures a * a >= 0.0
  {
    if a < 0.0 {
      assert a * a == (-a) * (-a);
    }
  }

  /** `FindLineSegmentIntersection`: the line l1-l2 crosses the open segment
      s1-s2 at a point that is not (approximately) one of its ends. */
  function FindLineSegmentIntersection(l1: Vec, l2: Vec, s1: Vec, s2: Vec): (r: Option<Vec>)
    ensures r.Some? ==> IsThePointOnSegment(r.value, s1, s2)
    ensures r.Some? ==> r.value != s1 && r.value != s2
    ensures r.Some? ==> !SameVec(r.value, s1) && !SameVec(r.value, s2)
    ensures r.Some? ==> Cross(Sub(r.value, l1), Sub(l2, l1)) == 0.0
    ensures r.Some? ==> FindIntersectionPointBetweenLines(l1, l2, s1, s2).Some?
                        && r.value == FindIntersectionPointBetweenLines(l1, l2, s1, s2).value
    ensures r.None? ==> FindIntersectionPointBetweenLines(l1, l2, s1, s2).None?
                        || IsThePointOnEndsOfSegment(FindIntersectionPointBetweenLines(l1, l2, s1, s2).value, s1, s2)
                        || !IsThePointOnSegment(FindIntersectionPointBetweenLines(l1, l2, s1, s2).value, s1, s2)
  {
    match FindIntersectionPointBetweenLines(l1, l2, s1, s2)
    case None => None
    case Some(p) =>
      if !IsThePointOnEndsOfSegment(p, s1, s2) && IsThePointOnSegment(p, s1, s2) then Some(p) else None
  }

  /** `IsPointInsideCircle2D` with the radius given squared: inclusive, so a
      point on the circle counts as inside. */
  function IsPointInsideCircle(point: Vec, center: Vec, sqrRadius: real): (r: bool)
    ensures SqrMag(Sub(point, center)) == sqrRadius ==> r
    ensures SqrMag(Sub(point, center)) < sqrRadius ==> r
    ensures SqrMag(Sub(point, center)) > sqrRadius ==> !r
  {
    SqrMag(Sub(point, center)) <= sqrRadius
  }

  /** `IsPointsCollinear`. */
  function IsPointsCollinear(p1: Vec, p2: Vec, p3: Vec): (r: bool)
    ensures r == IsVectorsCollinear(Sub(p2, p1), Sub(p3, p1))
    ensures p1 == p2 || p1 == p3 || p2 == p3 ==> r
  {
    var p21 := Sub(p2, p1);
    var p31 := Sub(p3, p1);
    var collinearValue := p21.x * p31.y - p31.x * p21.y;
    assert collinearValue == Cross(p21, p31);
    assert p2 == p3 ==> Cross(p21, p31) == 0.0;
    Abs(collinearValue) < Tolerance
  }

  function FindMiddlePoint(a: Vec, b: Vec): Vec {
    Add(a, Scale(0.5, Sub(b, a)))
  }

  function FindPerpendicularForLineOnPoint(a: Vec, b: Vec, p: Vec): Vec {
    var ba := Sub(b, a);
    Add(Vec(-ba.y, ba.x), p)
  }

  datatype Circle = Circle(center: Vec, sqrRadius: real)

  /** `GetCircumferenceAroundTriangle`: intersects the perpendicular
      bisectors of t1-t2 and t2-t3; throws ("Bad triangle") exactly when the
      three points are collinear within tolerance, otherwise the centre is
      equidistant from the three corners. */
  function GetCircumferenceAroundTriangle(t1: Vec, t2: Vec, t3: Vec): (r: Result<Circle>)
    ensures r.Failure? <==> IsPointsCollinear(t1, t2, t3)
    ensures r.Failure? ==> r.error == BadTriangle
    ensures r.Success? ==> SqrMag(Sub(t1, r.value.center)) == r.value.sqrRadius
    ensures r.Success? ==> SqrMag(Sub(t2, r.value.center)) == r.value.sqrRadius
    ensures r.Success? ==> SqrMag(Sub(t3, r.value.center)) == r.value.sqrRadius
  {
    var middle1 := FindMiddlePoint(t1, t2);
    var middle2 := FindMiddlePoint(t2, t3);
    var perpendicular1 := FindPerpendicularForLineOnPoint(t1, t2, middle1);
    var perpendicular2 := FindPerpendicularForLineOnPoint(t2, t3, middle2);
    BisectorsDenominator(t1, t2, t3);
    match FindIntersectionPointBetweenLines(middle1, perpendicular1, middle2, perpendicular2)
    case None => Failure(BadTriangle)
    case Some(center) =>
      OnBisectorEquidistant(t1, t2, center);
      OnBisectorEquidistant(t2, t3, center);
      Success(Circle(center, SqrMag(Sub(center, t1))))
  }

  /** The bisector system is singular exactly when the corners are
      collinear: its determinant is the triangle's cross product. */
  lemma BisectorsDenominator(t1: Vec, t2: Vec, t3: Vec)
    ensures
      var m1 := FindMiddlePoint(t1, t2);
      var m2 := FindMiddlePoint(t2, t3);
      Cross(Sub(FindPerpendicularForLineOnPoint(t1, t2, m1), m1),
            Sub(FindPerpendicularForLineOnPoint(t2, t3, m2), m2))
      == Cross(Sub(t2, t1), Sub(t3, t1))
  {
    var a := Sub(t2, t1);
    var b := Sub(t3, t2);
    var m1 := FindMiddlePoint(t1, t2);
    var m2 := FindMiddlePoint(t2, t3);
    assert Sub(FindPerpendicularForLineOnPoint(t1, t2, m1), m1) == Vec(-a.y, a.x);
    assert Sub(FindPerpendicularForLineOnPoint(t2, t3, m2), m2) == Vec(-b.y, b.x);
    assert Sub(t3, t1) == Vec(a.x + b.x, a.y + b.y);
  }

  /** A point on the perpendicular bisector of a-b is equidistant from a
      and b. */
  lemma OnBisectorEquidistant(a: Vec, b: Vec, c: Vec)
    requires
      var m := FindMiddlePoint(a, b);
      Cross(Sub(c, m), Sub(FindPerpendicularForLineOnPoint(a, b, m), m)) == 0.0
    ensures SqrMag(Sub(a, c)) == SqrMag(Sub(c, a)) == SqrMag(Sub(b, c))
  {
    var d := Sub(b, a);
    var m := FindMiddlePoint(a, b);
    var w := Sub(c, m);
    assert Sub(FindPerpendicularForLineOnPoint(a, b, m), m) == Vec(-d.y, d.x);
    assert Dot(w, d) == 0.0;
    assert Sub(c, a) == Vec(w.x + 0.5 * d.x, w.y + 0.5 * d.y);
    assert Sub(c, b) == Vec(w.x - 0.5 * d.x, w.y - 0.5 * d.y);
    assert SqrMag(Sub(c, a)) - SqrMag(Sub(c, b)) == 2.0 * Dot(w, d);
  }

  /** `IsPointInTriangCircum`: p lies in the closed circumcircle of
      t1, t2, t3; fails as the circumcircle does. */
  function IsPointInTriangCircum(p: Vec, t1: Vec, t2: Vec, t3: Vec): (r: Result<bool>)
    ensures r.Failure? <==> IsPointsCollinear(t1, t2, t3)
    ensures r.Failure? ==> r.error == BadTriangle
    ensures r.Success? ==> (r.value <==> SqrMag(Sub(p, GetCircumferenceAroundTriangle(t1, t2, t3).value.center))
                                         <= SqrMag(Sub(t1, GetCircumferenceAroundTriangle(t1, t2, t3).value.center)))
  {
    var circle :- GetCircumferenceAroundTriangle(t1, t2, t3);
    Success(IsPointInsideCircle(p, circle.center, circle.sqrRadius))
  }

  /** The boundary is inclusive: every corner of a non-degenerate triangle
      is reported inside its own circumcircle. */
  lemma CornersInsideOwnCircumcircle(t1: Vec, t2: Vec, t3: Vec)
    requires !IsPointsCollinear(t1, t2, t3)
    ensures IsPointInTriangCircum(t1, t1, t2, t3) == Success(true)
    ensures IsPointInTriangCircum(t2, t1, t2, t3) == Success(true)
    ensures IsPointInTriangCircum(t3, t1, t2, t3) == Success(true)
  {
  }

  /** If two corners coincide the circumcircle test always fails. */
  lemma RepeatedCornerIsBadTriangle(p: Vec, t1: Vec, t3: Vec)
    ensures IsPointInTriangCircum(p, t1, t1, t3) == Failure(BadTriangle)
    ensures IsPointInTriangCircum(p, t1, t3, t3) == Failure(BadTriangle)
  {
  }
}

=== FILE: merge.dfy ===
/** The divide-and-conquer driver of `SubMesh2d`
    (Assets/Scripts/Submesh2d.cs): the split, the search for the lower
    base edge between two halves, and the zipper that merges them.

    The numeric tests are parameters (`Oracles`): the angle between two
    vectors, the in-circumcircle test and the convexity test. The control
    rules are verified for every choice of them; `GeometricOracles` plugs
    in the model's own circumcircle and convexity tests.
 */
module Merge {
  import opened Outcomes
  import opened Geometry
  import opened Sequences
  import opened Vertices
  import opened Edges
  import opened VertexOrdering
  import opened Submesh

  datatype Oracles = Oracles(
    angle: (Vec, Vec) -> real,
    inCircle: (Vec, Vec, Vec, Vec) -> Result<bool>,
    convex: (Graph, VertexId, VertexId) -> bool)

  /** The tests the source uses: `IsPointInTriangCircum` and
      `Edge2d.IsConvex`; only the angle stays abstract. */
  function GeometricOracles(angle: (Vec, Vec) -> real): Oracles {
    Oracles(angle, IsPointInTriangCircum, ConvexTrial)
  }

  /** `err` is a failure the circumcircle oracle can report. */
  ghost predicate OracleError(o: Oracles, err: Error) {
    exists p, a, b, c :: o.inCircle(p, a, b, c) == Failure(err)
  }

  /** The failures of the candidate walk: a missing edge on removal, or
      the circumcircle oracle's own. */
  ghost predicate WalkError(o: Oracles, err: Error) {
    err == EdgeNotFound || OracleError(o, err)
  }

  /** The failures of the zipper: the walk's, or running out of fuel. */
  ghost predicate MergeError(o: Oracles, err: Error) {
    WalkError(o, err) || err == OutOfFuel
  }

  /** The failures the driver can end with: the zipper's, or a missing
      base edge. */
  ghost predicate DriverError(o: Oracles, err: Error) {
    MergeError(o, err) || err == NullBaseEdge
  }

  /** With the model's own circumcircle test, the oracle fails only on a
      degenerate triangle. */
  lemma GeometricOracleErrors(angle: (Vec, Vec) -> real, err: Error)
    requires OracleError(GeometricOracles(angle), err)
    ensures err == BadTriangle
  {
    var p, a, b, c :| GeometricOracles(angle).inCircle(p, a, b, c) == Failure(err);
    assert IsPointInTriangCircum(p, a, b, c) == Failure(err);
  }

  predicate AllIn(g: Graph, ws: seq<VertexId>) {
    forall k | 0 <= k < |ws| :: ws[k] < |g.verts|
  }

  function PositionsOf(g: Graph, ws: seq<VertexId>): (r: seq<Vec>)
    requires AllIn(g, ws)
    ensures |r| == |ws| && forall k | 0 <= k < |ws| :: r[k] == Pos(g, ws[k])
  {
    seq(|ws|, (k: int) requires 0 <= k < |ws| && AllIn(g, ws) => Pos(g, ws[k]))
  }

  // ---------------------------------------------------------------------
  // TryToFindCandidate

  /** The test of step `j` of the walk: is the next potential inside the
      circle through the edge's endpoints and potential `j`? */
  function CircleTest(o: Oracles, pts: seq<Vec>, p1: Vec, p2: Vec, j: nat): Result<bool>
    requires j + 1 < |pts|
  {
    o.inCircle(pts[j + 1], p1, p2, pts[j])
  }

  /** Removes, one after the other, the live edge from `v` to each vertex
      of `ws`. */
  function RemoveAll(m: Mesh, v: VertexId, ws: seq<VertexId>): (r: Result<Mesh>)
    requires Consistent(m)
    ensures r.Success? ==> Consistent(r.value) && Extends(m, r.value) && r.value.tris == m.tris
    ensures r.Failure? ==> r.error == EdgeNotFound
    decreases |ws|
  {
    if |ws| == 0 then Success(m)
    else
      var m1 :- RemoveEdgeBetween(m, v, ws[0]);
      var r := RemoveAll(m1, v, ws[1..]);
      if r.Success? then
        ExtendsTransitive(m, m1, r.value);
        r
      else r
  }

  /** The tests of the loop of `TryToFindCandidate` from step `i`: the
      walk goes on while the next potential lies in the circle and stops
      at the first potential whose successor is outside, or at the last
      one. The result is the index reached and, when the test there
      failed, its error. */
  function Scan(o: Oracles, pts: seq<Vec>, p1: Vec, p2: Vec, i: nat): (r: (nat, Option<Error>))
    requires i < |pts|
    ensures i <= r.0 < |pts|
    ensures forall j | i <= j < r.0 :: CircleTest(o, pts, p1, p2, j) == Success(true)
    ensures r.1.None? ==> r.0 == |pts| - 1 || CircleTest(o, pts, p1, p2, r.0) == Success(false)
    ensures r.1.Some? ==> r.0 < |pts| - 1 && CircleTest(o, pts, p1, p2, r.0) == Failure(r.1.value)
    decreases |pts| - i
  {
    if i == |pts| - 1 then (i, None)
    else
      match CircleTest(o, pts, p1, p2, i)
      case Failure(err) => (i, Some(err))
      case Success(false) => (i, None)
      case Success(true) => Scan(o, pts, p1, p2, i + 1)
  }

  /** The walk over `ws` stops at index `k` leaving mesh `m1`: every test
      before `k` was inside the circle, `k` is the last potential or its
      successor is outside, and the edges from `v` to the potentials
      before `k` are the ones removed. */
  predicate WalkStopsAt(m: Mesh, v: VertexId, ws: seq<VertexId>, pts: seq<Vec>, p1: Vec, p2: Vec, o: Oracles, k: nat, m1: Mesh)
    requires Consistent(m) && |pts| == |ws|
  {
    && k < |ws|
    && (forall j | 0 <= j < k :: CircleTest(o, pts, p1, p2, j) == Success(true))
    && (k == |ws| - 1 || CircleTest(o, pts, p1, p2, k) == Success(false))
    && RemoveAll(m, v, ws[..k]) == Success(m1)
  }

  /** `TryToFindCandidate`: `None` when the vertex has no potentials;
      otherwise the potential where the walk stopped, after removing the
      edges from the vertex to every potential walked past
      (`CandidateStopsWalk`). Each removal happens before the next test,
      so a failed removal is reported ahead of a later failed test. */
  function TryToFindCandidate(m: Mesh, self: EdgeId, v: VertexId, o: Oracles): (r: Result<(Mesh, Option<VertexId>)>)
    requires Consistent(m) && self < |m.g.edges| && v < |m.g.verts|
    ensures r.Success? ==> Consistent(r.value.0) && Extends(m, r.value.0) && r.value.0.tris == m.tris
    ensures r.Success? && r.value.1.Some? ==> r.value.1.value < |m.g.verts|
    ensures r.Failure? ==> WalkError(o, r.error)
  {
    var e := m.g.edges[self];
    assert EdgeIn(m.g, e);
    PotentialsInGraph(m.g, v, self, o.angle);
    WalkPotentials(m, v, GetOrderedPotentials(m.g, v, self, o.angle), Pos(m.g, e.v1), Pos(m.g, e.v2), o)
  }

  /** The body of `TryToFindCandidate` over the ordered potentials `ws` of
      `v`, for the edge with endpoints at `p1` and `p2`. Each removal
      happens before the next test, so a failed removal is reported ahead
      of a later failed test. */
  function WalkPotentials(m: Mesh, v: VertexId, ws: seq<VertexId>, p1: Vec, p2: Vec, o: Oracles): (r: Result<(Mesh, Option<VertexId>)>)
    requires Consistent(m) && AllIn(m.g, ws)
    ensures |ws| == 0 ==> r == Success((m, None))
    ensures r.Success? && r.value.1.None? ==> |ws| == 0
    ensures r.Success? ==> Consistent(r.value.0) && Extends(m, r.value.0) && r.value.0.tris == m.tris
    ensures r.Success? && r.value.1.Some? ==> r.value.1.value < |m.g.verts|
    ensures r.Failure? ==> WalkError(o, r.error)
  {
    if |ws| == 0 then Success((m, None))
    else
      var pts := PositionsOf(m.g, ws);
      var (k, err) := Scan(o, pts, p1, p2, 0);
      var m1 :- RemoveAll(m, v, ws[..k]);
      match err
      case Some(x) =>
        assert o.inCircle(pts[k + 1], p1, p2, pts[k]) == Failure(x);
        Failure(x)
      case None => Success((m1, Some(ws[k])))
  }

  /** A walk that finds a candidate stops as `WalkStopsAt` describes. */
  lemma WalkPotentialsStops(m: Mesh, v: VertexId, ws: seq<VertexId>, p1: Vec, p2: Vec, o: Oracles)
    requires Consistent(m) && AllIn(m.g, ws)
    requires WalkPotentials(m, v, ws, p1, p2, o).Success? && WalkPotentials(m, v, ws, p1, p2, o).value.1.Some?
    ensures
      var r := WalkPotentials(m, v, ws, p1, p2, o).value;
      exists k | 0 <= k < |ws| :: r.1.value == ws[k] && WalkStopsAt(m, v, ws, PositionsOf(m.g, ws), p1, p2, o, k, r.0)
  {
    var pts := PositionsOf(m.g, ws);
    var (k, err) := Scan(o, pts, p1, p2, 0);
    assert WalkStopsAt(m, v, ws, pts, p1, p2, o, k, WalkPotentials(m, v, ws, p1, p2, o).value.0);
  }

  /** What `TryToFindCandidate` finds: nothing exactly when the vertex has
      no potentials; otherwise the potential at the index where the walk
      over the ordered potentials stopped, with the edges to the
      potentials before it removed. */
  lemma CandidateStopsWalk(m: Mesh, self: EdgeId, v: VertexId, o: Oracles)
    requires Consistent(m) && self < |m.g.edges| && v < |m.g.verts|
    ensures EdgeIn(m.g, m.g.edges[self])
    ensures AllIn(m.g, GetOrderedPotentials(m.g, v, self, o.angle))
    ensures |GetOrderedPotentials(m.g, v, self, o.angle)| == 0 ==> TryToFindCandidate(m, self, v, o) == Success((m, None))
    ensures
      var r := TryToFindCandidate(m, self, v, o);
      r.Success? && r.value.1.None? ==> |GetOrderedPotentials(m.g, v, self, o.angle)| == 0
    ensures
      var r := TryToFindCandidate(m, self, v, o);
      var e := m.g.edges[self];
      var ws := GetOrderedPotentials(m.g, v, self, o.angle);
      r.Success? && r.value.1.Some? ==>
        exists k | 0 <= k < |ws| ::
          && r.value.1.value == ws[k]
          && WalkStopsAt(m, v, ws, PositionsOf(m.g, ws), Pos(m.g, e.v1), Pos(m.g, e.v2), o, k, r.value.0)
  {
    var e := m.g.edges[self];
    assert EdgeIn(m.g, e);
    var ws := GetOrderedPotentials(m.g, v, self, o.angle);
    PotentialsInGraph(m.g, v, self, o.angle);
    var r := WalkPotentials(m, v, ws, Pos(m.g, e.v1), Pos(m.g, e.v2), o);
    if r.Success? && r.value.1.Some? {
      WalkPotentialsStops(m, v, ws, Pos(m.g, e.v1), Pos(m.g, e.v2), o);
    }
  }

  // ---------------------------------------------------------------------
  // MergeWithRL

  /** The four-way choice of `MergeWithRL`. With both candidates, the right
      one wins (the new base keeps Vertex1) exactly when it lies in the
      circle through the left candidate and the base; with one candidate
      the base advances toward it; with none the merge ends. */
  function NextBase(o: Oracles, g: Graph, e: Edge, c1: Option<VertexId>, c2: Option<VertexId>): (r: Result<Option<(VertexId, VertexId)>>)
    requires EdgeIn(g, e)
    requires c1.Some? ==> c1.value < |g.verts|
    requires c2.Some? ==> c2.value < |g.verts|
    ensures r.Success? && r.value.None? <==> c1.None? && c2.None?
    ensures r.Success? && r.value.Some? ==>
              || (r.value.value.0 == e.v1 && Some(r.value.value.1) == c2)
              || (Some(r.value.value.0) == c1 && r.value.value.1 == e.v2)
    ensures c1.Some? && c2.Some? ==>
              var test := o.inCircle(Pos(g, c2.value), Pos(g, c1.value), Pos(g, e.v1), Pos(g, e.v2));
              && (r.Failure? <==> test.Failure?)
              && (test == Success(true) ==> r == Success(Some((e.v1, c2.value))))
              && (test == Success(false) ==> r == Success(Some((c1.value, e.v2))))
    ensures c1.Some? && c2.None? ==> r == Success(Some((c1.value, e.v2)))
    ensures c1.None? && c2.Some? ==> r == Success(Some((e.v1, c2.value)))
    ensures r.Failure? ==> OracleError(o, r.error)
  {
    match (c1, c2)
    case (Some(a), Some(b)) =>
      var inside :- o.inCircle(Pos(g, b), Pos(g, a), Pos(g, e.v1), Pos(g, e.v2));
      if inside then Success(Some((e.v1, b))) else Success(Some((a, e.v2)))
    case (Some(a), None) => Success(Some((a, e.v2)))
    case (None, Some(b)) => Success(Some((e.v1, b)))
    case (None, None) => Success(None)
  }

  /** The two candidate searches of `MergeWithRL`, at Vertex1 and then at
      Vertex2 of the base; the second runs on the mesh the first leaves. */
  function Candidates(m: Mesh, base: EdgeId, o: Oracles): (r: Result<(Mesh, Option<VertexId>, Option<VertexId>)>)
    requires Consistent(m) && base < |m.g.edges|
    ensures r.Success? ==> Consistent(r.value.0) && Extends(m, r.value.0) && r.value.0.tris == m.tris
    ensures r.Success? ==> r.value.0.g.edges[base] == m.g.edges[base]
    ensures r.Success? && r.value.1.Some? ==> r.value.1.value < |m.g.verts|
    ensures r.Success? && r.value.2.Some? ==> r.value.2.value < |m.g.verts|
    ensures r.Failure? ==> WalkError(o, r.error)
  {
    var e := m.g.edges[base];
    assert EdgeIn(m.g, e);
    var (m1, c1) :- TryToFindCandidate(m, base, e.v1, o);
    var (m2, c2) :- TryToFindCandidate(m1, base, e.v2, o);
    ExtendsTransitive(m, m1, m2);
    assert m2.g.edges[..|m.g.edges|][base] == m2.g.edges[base];
    Success((m2, c1, c2))
  }

  /** One step of `MergeWithRL`: a candidate at each end of the base,
      then the choice of the next base, which keeps one endpoint of the
      current one; `None` when neither end has a candidate. */
  function MergeStep(m: Mesh, base: EdgeId, o: Oracles): (r: Result<(Mesh, Option<(VertexId, VertexId)>)>)
    requires Consistent(m) && base < |m.g.edges|
    ensures r.Success? ==> Consistent(r.value.0) && Extends(m, r.value.0) && r.value.0.tris == m.tris
    ensures r.Success? && r.value.1.Some? ==>
              var (x, y) := r.value.1.value;
              && x < |r.value.0.g.verts| && y < |r.value.0.g.verts|
              && (x == m.g.edges[base].v1 || y == m.g.edges[base].v2)
    ensures r.Failure? ==> WalkError(o, r.error)
  {
    var (m2, c1, c2) :- Candidates(m, base, o);
    var e := m.g.edges[base];
    assert EdgeIn(m2.g, e);
    var next :- NextBase(o, m2.g, e, c1, c2);
    Success((m2, next))
  }

  /** `MergeWithRL`: steps from base to base, adding each new base as a
      live edge, until neither end has a candidate. The recursion runs on
      `fuel`; running out is the `OutOfFuel` failure. */
  function MergeWithRL(m: Mesh, base: EdgeId, o: Oracles, fuel: nat): (r: Result<Mesh>)
    requires Consistent(m) && base < |m.g.edges|
    ensures r.Success? ==> Consistent(r.value) && Extends(m, r.value) && r.value.tris == m.tris
    ensures r.Failure? ==> MergeError(o, r.error)
    decreases fuel
  {
    match MergeStep(m, base, o)
    case Failure(err) => Failure(err)
    case Success((m1, None)) => Success(m1)
    case Success((m1, Some((x, y)))) =>
      if fuel == 0 then Failure(OutOfFuel)
      else
        var (m2, id) := AddEdgeBetween(m1, x, y);
        var r := MergeWithRL(m2, id, o, fuel - 1);
        if r.Success? then
          ExtendsTransitive(m, m1, m2);
          ExtendsTransitive(m, m2, r.value);
          r
        else r
  }

  /** When neither end of the base has a potential, the merge stops at
      once and adds nothing. */
  lemma MergeEndsWithoutPotentials(m: Mesh, base: EdgeId, o: Oracles, fuel: nat)
    requires Consistent(m) && base < |m.g.edges|
    requires EdgeIn(m.g, m.g.edges[base])
    requires |GetOrderedPotentials(m.g, m.g.edges[base].v1, base, o.angle)| == 0
    requires |GetOrderedPotentials(m.g, m.g.edges[base].v2, base, o.angle)| == 0
    ensures MergeWithRL(m, base, o, fuel) == Success(m)
  {
  }

  // ---------------------------------------------------------------------
  // GetLRBaseEdge

  /** The test `GetLRBaseEdge` applies to each pair: the edge between
      `a` and `b`, added to `g`, is convex. */
  predicate ConvexTrial(g: Graph, a: VertexId, b: VertexId) {
    && Valid(g) && a < |g.verts| && b < |g.verts|
    && var trial := NewEdge(g, a, b);
       IsConvex(trial.0, trial.1)
  }

  /** What a successful trial means: on the graph with the trial edge
      a–b added, neither end has a spoke overlapping it, each end's side sum
      is one-signed, and the two ends' sums do not have strictly opposite
      signs. */
  lemma ConvexTrialSides(g: Graph, a: VertexId, b: VertexId)
    requires ConvexTrial(g, a, b)
    ensures var (g1, id) := NewEdge(g, a, b);
            && id < |g1.edges| && g1.edges[id] == Edge(a, b)
            && SideOf(g1, id, a, b).Some? && SideOf(g1, id, b, a).Some?
            && OneSigned(SideOf(g1, id, a, b).value) && OneSigned(SideOf(g1, id, b, a).value)
            && !(SideOf(g1, id, a, b).value.sum > 0.0 && SideOf(g1, id, b, a).value.sum < 0.0)
            && !(SideOf(g1, id, a, b).value.sum < 0.0 && SideOf(g1, id, b, a).value.sum > 0.0)
  {
    var (g1, id) := NewEdge(g, a, b);
    assert g1.edges[id] == Edge(a, b);
  }

  /** The inner loop of `GetLRBaseEdge` from column `j`: the first column
      whose trial edge is convex. A rejected trial edge is cleared from its
      endpoints and the search goes on from the graph that clearing
      leaves, which is the graph before the trial. */
  function SearchRow(g: Graph, a: VertexId, right: seq<VertexId>, j: nat, o: Oracles): (r: Option<nat>)
    requires Valid(g) && a < |g.verts| && AllIn(g, right) && j <= |right|
    ensures r.Some? ==> j <= r.value < |right| && o.convex(g, a, right[r.value])
    ensures r.Some? ==> forall jj | j <= jj < r.value :: !o.convex(g, a, right[jj])
    ensures r.None? ==> forall jj | j <= jj < |right| :: !o.convex(g, a, right[jj])
    decreases |right| - j
  {
    if j == |right| then None
    else
      if o.convex(g, a, right[j]) then Some(j)
      else SearchRow(g, a, right, j + 1, o)
  }

  /** Clearing a trial edge from its endpoints gives back the graph the
      trial started from, apart from the edge left in the arena. */
  lemma RejectedTrialLeavesGraph(g: Graph, a: VertexId, b: VertexId)
    requires Valid(g) && a < |g.verts| && b < |g.verts|
    ensures Graph(ClearVertices(NewEdge(g, a, b).0, NewEdge(g, a, b).1).verts, g.edges) == g
  {
    ClearUndoesNewEdge(g, a, b);
  }

  /** The outer loop of `GetLRBaseEdge` from row `i`: the first pair in
      row-major order whose trial edge is convex. */
  function SearchRows(g: Graph, left: seq<VertexId>, right: seq<VertexId>, i: nat, o: Oracles): (r: Option<(nat, nat)>)
    requires Valid(g) && AllIn(g, left) && AllIn(g, right) && i <= |left|
    ensures r.Some? ==> i <= r.value.0 < |left| && r.value.1 < |right|
    ensures r.Some? ==> o.convex(g, left[r.value.0], right[r.value.1])
    ensures r.Some? ==> forall ii, jj | i <= ii < r.value.0 && 0 <= jj < |right| :: !o.convex(g, left[ii], right[jj])
    ensures r.Some? ==> forall jj | 0 <= jj < r.value.1 :: !o.convex(g, left[r.value.0], right[jj])
    ensures r.None? ==> forall ii, jj | i <= ii < |left| && 0 <= jj < |right| :: !o.convex(g, left[ii], right[jj])
    decreases |left| - i
  {
    if i == |left| then None
    else
      match SearchRow(g, left[i], right, 0, o)
      case Some(j) => Some((i, j))
      case None => SearchRows(g, left, right, i + 1, o)
  }

  /** `GetLRBaseEdge`: the trial edge of the first pair (left[i], right[j])
      in row-major order that passes the convexity test, registered on
      both endpoints; `None` (the source's `null`) when no pair passes. */
  function GetLRBaseEdge(g: Graph, left: seq<VertexId>, right: seq<VertexId>, o: Oracles): (r: Option<(Graph, EdgeId)>)
    requires Valid(g) && AllIn(g, left) && AllIn(g, right)
    ensures r.Some? ==> exists i, j | 0 <= i < |left| && 0 <= j < |right| ::
              && r.value == NewEdge(g, left[i], right[j])
              && o.convex(g, left[i], right[j])
              && (forall ii, jj | 0 <= ii < |left| && 0 <= jj < |right| && (ii < i || (ii == i && jj < j)) ::
                    !o.convex(g, left[ii], right[jj]))
    ensures r.None? ==> forall i, j | 0 <= i < |left| && 0 <= j < |right| :: !o.convex(g, left[i], right[j])
  {
    match SearchRows(g, left, right, 0, o)
    case None => None
    case Some((i, j)) => Some(NewEdge(g, left[i], right[j]))
  }

  // ---------------------------------------------------------------------
  // DivideAndConquer

  /** The split of `DivideAndConquer`: the first half (rounded down) and
      the rest. */
  function Split(vs: seq<VertexId>): (r: (seq<VertexId>, seq<VertexId>))
    requires |vs| > 3
    ensures r.0 + r.1 == vs
    ensures |r.0| == |vs| / 2
    ensures 0 < |r.0| < |vs| && 0 < |r.1| < |vs|
  {
    var half := |vs| / 2;
    assert vs[..half] + vs[half..] == vs;
    (vs[..half], vs[half..])
  }

  /** `GetLRBaseEdge` followed by `_edges.Add`: the base edge found
      between the halves becomes a live edge; `None` when there is none. */
  function AddBaseEdge(m: Mesh, left: seq<VertexId>, right: seq<VertexId>, o: Oracles): (r: Option<(Mesh, EdgeId)>)
    requires Consistent(m) && AllIn(m.g, left) && AllIn(m.g, right)
    ensures r.None? <==> GetLRBaseEdge(m.g, left, right, o).None?
    ensures r.Some? ==> r.value.0.g == GetLRBaseEdge(m.g, left, right, o).value.0
    ensures r.Some? ==> r.value.1 == |m.g.edges| && r.value.0.active == m.active + [r.value.1]
    ensures r.Some? ==> Consistent(r.value.0) && Extends(m, r.value.0) && r.value.0.tris == m.tris
    ensures r.Some? ==> r.value.0.g.edges[r.value.1].v1 in left && r.value.0.g.edges[r.value.1].v2 in right
  {
    match SearchRows(m.g, left, right, 0, o)
    case None => None
    case Some((i, j)) =>
      var added := AddEdgeBetween(m, left[i], right[j]);
      assert added.0.g == NewEdge(m.g, left[i], right[j]).0;
      Some(added)
  }

  /** The merge of two triangulated halves: the base edge between them,
      then the zipper from it; a missing base edge is `NullBaseEdge`. */
  function ZipHalves(m: Mesh, left: seq<VertexId>, right: seq<VertexId>, o: Oracles, fuel: nat): (r: Result<Mesh>)
    requires Consistent(m) && AllIn(m.g, left) && AllIn(m.g, right)
    ensures r.Success? ==> Consistent(r.value) && Extends(m, r.value) && r.value.tris == m.tris
    ensures GetLRBaseEdge(m.g, left, right, o).None? ==> r == Failure(NullBaseEdge)
    ensures GetLRBaseEdge(m.g, left, right, o).Some? && r.Failure? ==> MergeError(o, r.error)
  {
    match AddBaseEdge(m, left, right, o)
    case None => Failure(NullBaseEdge)
    case Some((m1, id)) =>
      var r := MergeWithRL(m1, id, o, fuel);
      if r.Success? then
        ExtendsTransitive(m, m1, r.value);
        r
      else r
  }

  /** `DivideAndConquer`: more than three vertices are split, each half
      triangulated, a base edge found between them and the halves zipped
      together; three vertices are connected by `AddEdges`, two by one
      edge, fewer by nothing. A missing base edge is the `NullBaseEdge`
      failure: the source adds `null` and dereferences it. */
  function DivideAndConquer(m: Mesh, vs: seq<VertexId>, o: Oracles, fuel: nat): (r: Result<Mesh>)
    requires Consistent(m) && AllIn(m.g, vs)
    ensures r.Success? ==> Consistent(r.value) && Extends(m, r.value) && r.value.tris == m.tris
    ensures |vs| < 2 ==> r == Success(m)
    ensures |vs| == 2 ==> r.Success? && |r.value.active| == |m.active| + 1
    ensures |vs| == 3 ==> r.Success?
    ensures r.Failure? ==> DriverError(o, r.error)
    decreases |vs|
  {
    if |vs| > 3 then
      var (left, right) := Split(vs);
      assert forall k | 0 <= k < |left| :: left[k] == vs[k];
      assert forall k | 0 <= k < |right| :: right[k] == vs[|left| + k];
      var m1 :- DivideAndConquer(m, left, o, fuel);
      var m2 :- DivideAndConquer(m1, right, o, fuel);
      var r := ZipHalves(m2, left, right, o, fuel);
      if r.Success? then
        ExtendsTransitive(m, m1, m2);
        ExtendsTransitive(m, m2, r.value);
        r
      else r
    else if |vs| == 3 then
      Success(AddEdges(m, vs))
    else if |vs| == 2 then
      Success(AddEdgeList(m, vs))
    else
      Success(m)
  }
}

=== FILE: outcomes.dfy ===
/** Failure-compatible wrappers used throughout the model.

    The triangulator signals failure in three ways: a `bool` result with an
    `out` parameter (modelled as `Option`), a thrown exception (modelled as a
    `Result` failure carrying an `Error`), and a `null` reference (modelled as
    `Option.None`).
 */
module Outcomes {

  datatype Option<+T> = None | Some(value: T) {
    predicate IsFailure() { None? }

    function PropagateFailure<U>(): Option<U>
      requires None?
    {
      None
    }

    function Extract(): T
      requires Some?
    {
      value
    }
  }

  /** The exceptions the triangulator can raise. */
  datatype Error =
    | BadTriangle      // GetCircumferenceAroundTriangle: the bisectors do not meet
    | EdgeNotFound     // List.First found no edge joining the two vertices
    | NullBaseEdge     // GetLRBaseEdge found no convex base, MergeWithRL dereferences null
    | OutOfFuel        // the merge zipper ran longer than the model's step bound

  datatype Result<+T> = Success(value: T) | Failure(error: Error) {
    predicate IsFailure() { Failure? }

    function PropagateFailure<U>(): Result<U>
      requires Failure?
    {
      Failure(error)
    }

    function Extract(): T
      requires Success?
    {
      value
    }
  }
}

=== FILE: sequences.dfy ===
/** Sequence helpers standing in for the LINQ and List<T> operations the
    triangulator uses: `Where` (Filter), `Select` (Map), the stable
    `OrderBy` (SortBy), `List.Remove` (RemoveFirst).
 */
module Sequences {

  /** LINQ `Where`: the elements satisfying `p`, in their original order. */
  function Filter<T(==)>(s: seq<T>, p: T -> bool): (r: seq<T>)
    ensures |r| <= |s|
    ensures forall i | 0 <= i < |r| :: r[i] in s && p(r[i])
    ensures forall i | 0 <= i < |s| && p(s[i]) :: s[i] in r
  {
    if |s| == 0 then []
    else if p(s[0]) then [s[0]] + Filter(s[1..], p)
    else Filter(s[1..], p)
  }

  /** LINQ `Select`. */
  function Map<T(==), U(==)>(s: seq<T>, f: T -> U): (r: seq<U>)
    ensures |r| == |s|
    ensures forall i :: 0 <= i < |s| ==> r[i] == f(s[i])
  {
    if |s| == 0 then [] else [f(s[0])] + Map(s[1..], f)
  }

  predicate SortedBy<T(==)>(s: seq<T>, key: T -> real) {
    forall i, j | 0 <= i < j < |s| :: key(s[i]) <= key(s[j])
  }

  /** Inserts `x` in front of the first element whose key is not smaller,
      so that among equal keys `x` comes first. */
  function Insert<T(==)>(x: T, s: seq<T>, key: T -> real): (r: seq<T>)
    ensures |r| == |s| + 1
    ensures multiset(r) == multiset(s) + multiset{x}
    decreases |s|
  {
    if |s| == 0 then [x]
    else if key(x) <= key(s[0]) then [x] + s
    else
      assert s == [s[0]] + s[1..];
      [s[0]] + Insert(x, s[1..], key)
  }

  lemma {:induction false} InsertSorted<T>(x: T, s: seq<T>, key: T -> real)
    requires SortedBy(s, key)
    ensures SortedBy(Insert(x, s, key), key)
    ensures |s| > 0 ==> Insert(x, s, key)[0] == x || Insert(x, s, key)[0] == s[0]
    decreases |s|
  {
    if |s| > 0 && key(s[0]) < key(x) {
      InsertSorted(x, s[1..], key);
      var rest := Insert(x, s[1..], key);
      if |s| > 1 {
        assert key(s[0]) <= key(rest[0]);
      }
    }
  }

  /** LINQ `OrderBy`: a stable insertion sort on a real-valued key. */
  function SortBy<T(==)>(s: seq<T>, key: T -> real): (r: seq<T>)
    ensures |r| == |s|
    ensures multiset(r) == multiset(s)
    ensures SortedBy(r, key)
  {
    if |s| == 0 then []
    else
      assert s == [s[0]] + s[1..];
      InsertSorted(s[0], SortBy(s[1..], key), key);
      Insert(s[0], SortBy(s[1..], key), key)
  }

  /** The elements of `s` whose key is exactly `k`, in order. */
  function KeyClass<T(==)>(s: seq<T>, key: T -> real, k: real): seq<T> {
    Filter(s, (x: T) => key(x) == k)
  }

  /** The position of an element of a sequence. */
  lemma IndexOf<T>(s: seq<T>, y: T) returns (k: nat)
    requires y in s
    ensures k < |s| && s[k] == y
  {
    k :| 0 <= k < |s| && s[k] == y;
  }

  /** A sorted sequence stays sorted behind a first element whose key is
      not above any of its keys. */
  lemma ConsSorted<T>(a: T, t: seq<T>, key: T -> real)
    requires SortedBy(t, key)
    requires forall j | 0 <= j < |t| :: key(a) <= key(t[j])
    ensures SortedBy([a] + t, key)
  {
    forall i, j | 0 <= i < j < |[a] + t| ensures key(([a] + t)[i]) <= key(([a] + t)[j]) {
      assert ([a] + t)[j] == t[j - 1];
    }
  }

  lemma {:induction false} FilterOfSorted<T>(s: seq<T>, key: T -> real, p: T -> bool)
    requires SortedBy(s, key)
    ensures SortedBy(Filter(s, p), key)
    decreases |s|
  {
    if |s| > 0 {
      FilterOfSorted(s[1..], key, p);
      var tail := Filter(s[1..], p);
      FilterCons(s[0], s[1..], p);
      assert s == [s[0]] + s[1..];
      if p(s[0]) {
        forall j | 0 <= j < |tail| ensures key(s[0]) <= key(tail[j]) {
          var k := IndexOf(s[1..], tail[j]);
          assert s[k + 1] == tail[j];
        }
        ConsSorted(s[0], tail, key);
      }
    }
  }

  /** `Filter` of a sequence with a first element. */
  lemma FilterCons<T>(a: T, s: seq<T>, p: T -> bool)
    ensures Filter([a] + s, p) == if p(a) then [a] + Filter(s, p) else Filter(s, p)
  {
    assert ([a] + s)[1..] == s;
  }

  /** `Insert` behind a first element with a smaller key. */
  lemma InsertBehind<T>(x: T, a: T, s: seq<T>, key: T -> real)
    requires key(a) < key(x)
    ensures Insert(x, [a] + s, key) == [a] + Insert(x, s, key)
  {
    assert ([a] + s)[1..] == s;
  }

  /** In a sorted sequence, a key not above the first one is not above any. */
  lemma FilterFront<T>(x: T, t: seq<T>, key: T -> real, p: T -> bool)
    requires SortedBy(t, key) && |t| > 0 && key(x) <= key(t[0])
    ensures |Filter(t, p)| > 0 ==> key(x) <= key(Filter(t, p)[0])
  {
    var ft := Filter(t, p);
    if |ft| > 0 {
      assert ft[0] in t;
      var j :| 0 <= j < |t| && t[j] == ft[0];
      assert key(t[0]) <= key(t[j]);
    }
  }

  /** Filtering commutes with one insertion step. */
  lemma {:induction false} FilterInsert<T>(x: T, t: seq<T>, key: T -> real, p: T -> bool)
    requires SortedBy(t, key)
    ensures Filter(Insert(x, t, key), p)
         == if p(x) then Insert(x, Filter(t, p), key) else Filter(t, p)
    decreases |t|
  {
    if |t| == 0 {
      FilterCons(x, [], p);
    } else if key(x) <= key(t[0]) {
      FilterCons(x, t, p);
      FilterFront(x, t, key, p);
    } else {
      var t' := t[1..];
      FilterInsert(x, t', key, p);
      assert t == [t[0]] + t';
      InsertBehind(x, t[0], t', key);
      FilterCons(t[0], Insert(x, t', key), p);
      FilterCons(t[0], t', p);
      if p(t[0]) {
        InsertBehind(x, t[0], Filter(t', p), key);
      }
    }
  }

  /** Filtering after the stable sort is the stable sort of the filtered
      sequence. */
  lemma {:induction false} FilterSortBy<T>(s: seq<T>, key: T -> real, p: T -> bool)
    ensures Filter(SortBy(s, key), p) == SortBy(Filter(s, p), key)
    decreases |s|
  {
    if |s| > 0 {
      FilterSortBy(s[1..], key, p);
      FilterInsert(s[0], SortBy(s[1..], key), key, p);
      if p(s[0]) {
        assert ([s[0]] + Filter(s[1..], p))[1..] == Filter(s[1..], p);
      }
    }
  }

  /** Sorting a sequence whose keys are all equal leaves it unchanged. */
  lemma {:induction false} SortByConstantKey<T>(s: seq<T>, key: T -> real, k: real)
    requires forall i | 0 <= i < |s| :: key(s[i]) == k
    ensures SortBy(s, key) == s
    decreases |s|
  {
    if |s| > 0 {
      SortByConstantKey(s[1..], key, k);
      assert s == [s[0]] + s[1..];
    }
  }

  /** Stability: the elements sharing a key keep their original relative
      order. */
  lemma SortByStable<T>(s: seq<T>, key: T -> real, k: real)
    ensures KeyClass(SortBy(s, key), key, k) == KeyClass(s, key, k)
  {
    var c := KeyClass(s, key, k);
    FilterSortBy(s, key, (x: T) => key(x) == k);
    forall i | 0 <= i < |c| ensures key(c[i]) == k {
      assert c[i] in c;
    }
    SortByConstantKey(c, key, k);
  }

  /** Each element of the sorted filter is an element of the original
      sequence that passes the filter. */
  lemma SortedFilterMember<T>(s: seq<T>, p: T -> bool, key: T -> real, i: nat) returns (k: nat)
    requires i < |SortBy(Filter(s, p), key)|
    ensures k < |s| && s[k] == SortBy(Filter(s, p), key)[i] && p(s[k])
  {
    var q := Filter(s, p);
    var x := SortBy(q, key)[i];
    assert x in multiset(SortBy(q, key));
    assert x in q;
    var j :| 0 <= j < |q| && q[j] == x;
    k :| 0 <= k < |s| && s[k] == x;
  }

  /** `Map` of a sequence with a first element. */
  lemma MapCons<T, U>(a: T, s: seq<T>, f: T -> U)
    ensures Map([a] + s, f) == [f(a)] + Map(s, f)
  {
    assert ([a] + s)[1..] == s;
  }

  /** `Map` distributes over concatenation. */
  lemma {:induction false} MapConcat<T, U>(a: seq<T>, b: seq<T>, f: T -> U)
    ensures Map(a + b, f) == Map(a, f) + Map(b, f)
    decreases |a|
  {
    if |a| > 0 {
      MapConcat(a[1..], b, f);
      assert (a + b)[1..] == a[1..] + b;
    }
  }

  /** `Insert` puts `x` at some position and leaves the rest in order. */
  lemma {:induction false} InsertSplits<T>(x: T, t: seq<T>, key: T -> real) returns (k: nat)
    ensures k <= |t| && Insert(x, t, key) == t[..k] + [x] + t[k..]
    decreases |t|
  {
    if |t| == 0 || key(x) <= key(t[0]) {
      k := 0;
    } else {
      var k' := InsertSplits(x, t[1..], key);
      k := k' + 1;
      assert t[..k] == [t[0]] + t[1..][..k'];
      assert t[k..] == t[1..][k'..];
    }
  }

  lemma MapInsert<T, U>(x: T, t: seq<T>, key: T -> real, f: T -> U)
    ensures multiset(Map(Insert(x, t, key), f)) == multiset(Map(t, f)) + multiset{f(x)}
  {
    var k := InsertSplits(x, t, key);
    var a, b := t[..k], t[k..];
    MapConcat(a + [x], b, f);
    MapConcat(a, [x], f);
    assert t == a + b;
    MapConcat(a, b, f);
    assert Map([x], f) == [f(x)];
  }

  /** Projecting the sorted sequence gives a permutation of the projection. */
  lemma {:induction false} MapSortBy<T, U>(s: seq<T>, key: T -> real, f: T -> U)
    ensures multiset(Map(SortBy(s, key), f)) == multiset(Map(s, f))
    decreases |s|
  {
    if |s| > 0 {
      MapSortBy(s[1..], key, f);
      MapInsert(s[0], SortBy(s[1..], key), key, f);
      assert Map(s, f) == [f(s[0])] + Map(s[1..], f);
    }
  }

  /** Filtering a projection is projecting the sequence filtered by the
      composed predicate `pf`. */
  lemma {:induction false} FilterMap<T, U>(s: seq<T>, f: T -> U, q: U -> bool, pf: T -> bool)
    requires forall i | 0 <= i < |s| :: pf(s[i]) == q(f(s[i]))
    ensures Filter(Map(s, f), q) == Map(Filter(s, pf), f)
    decreases |s|
  {
    if |s| > 0 {
      FilterMap(s[1..], f, q, pf);
      assert Map(s, f)[1..] == Map(s[1..], f);
    }
  }

  /** Two filters in a row are one filter by the conjunction `pq`. */
  lemma {:induction false} FilterFilter<T>(s: seq<T>, p: T -> bool, q: T -> bool, pq: T -> bool)
    requires forall i | 0 <= i < |s| :: pq(s[i]) == (p(s[i]) && q(s[i]))
    ensures Filter(Filter(s, p), q) == Filter(s, pq)
    decreases |s|
  {
    if |s| > 0 {
      FilterFilter(s[1..], p, q, pq);
      if p(s[0]) {
        assert ([s[0]] + Filter(s[1..], p))[1..] == Filter(s[1..], p);
      }
    }
  }

  predicate NoDup<T(==)>(s: seq<T>) {
    forall i, j | 0 <= i < j < |s| :: s[i] != s[j]
  }

  /** `s` without any occurrence of `x`, order kept. */
  function Without<T(==)>(s: seq<T>, x: T): (r: seq<T>)
    ensures forall i | 0 <= i < |r| :: r[i] in s && r[i] != x
    ensures forall i | 0 <= i < |s| && s[i] != x :: s[i] in r
  {
    if |s| == 0 then []
    else if s[0] == x then Without(s[1..], x)
    else [s[0]] + Without(s[1..], x)
  }

  /** Two positions of `Without(s, x)` come from two positions of `s` in
      the same order. */
  lemma {:induction false} WithoutOrder<T>(s: seq<T>, x: T, i: nat, j: nat) returns (i': nat, j': nat)
    requires i < j < |Without(s, x)|
    ensures i' < j' < |s| && s[i'] == Without(s, x)[i] && s[j'] == Without(s, x)[j]
    decreases |s|
  {
    var w := Without(s, x);
    var rest := Without(s[1..], x);
    WithoutCons(s, x);
    if s[0] == x {
      i', j' := WithoutOrder(s[1..], x, i, j);
      i', j' := i' + 1, j' + 1;
    } else if i == 0 {
      var k := WithoutIndex(s[1..], x, j - 1);
      assert w[j] == rest[j - 1];
      i', j' := 0, k + 1;
    } else {
      assert w[i] == rest[i - 1] && w[j] == rest[j - 1];
      i', j' := WithoutOrder(s[1..], x, i - 1, j - 1);
      i', j' := i' + 1, j' + 1;
    }
  }

  /** One step of `Without`. */
  lemma WithoutCons<T>(s: seq<T>, x: T)
    requires |s| > 0
    ensures Without(s, x) == if s[0] == x then Without(s[1..], x) else [s[0]] + Without(s[1..], x)
  {
  }

  /** Each position of `Without(s, x)` holds an element of `s`. */
  lemma WithoutIndex<T>(s: seq<T>, x: T, k: nat) returns (k': nat)
    requires k < |Without(s, x)|
    ensures k' < |s| && s[k'] == Without(s, x)[k]
  {
    assert Without(s, x)[k] in s;
    k' :| 0 <= k' < |s| && s[k'] == Without(s, x)[k];
  }

  /** `List<T>.Remove`: deletes the first occurrence of `x`, if any. */
  function RemoveFirst<T(==)>(s: seq<T>, x: T): (r: seq<T>)
    ensures multiset(r) == multiset(s) - multiset{x}
    ensures x !in s ==> r == s
  {
    if |s| == 0 then []
    else if s[0] == x then
      assert s == [s[0]] + s[1..];
      s[1..]
    else
      assert s == [s[0]] + s[1..];
      [s[0]] + RemoveFirst(s[1..], x)
  }

  lemma HeadTailNoDup<T>(s: seq<T>)
    requires NoDup(s) && |s| > 0
    ensures NoDup(s[1..])
    ensures s[0] !in s[1..]
  {
    forall j | 0 <= j < |s[1..]| ensures s[1..][j] != s[0] {
      assert s[0] != s[j + 1];
    }
  }

  /** In a duplicate-free sequence every element occurs exactly once. */
  lemma {:induction false} NoDupMultiplicity<T>(s: seq<T>, x: T)
    requires NoDup(s)
    ensures multiset(s)[x] == if x in s then 1 else 0
    decreases |s|
  {
    if |s| > 0 {
      HeadTailNoDup(s);
      NoDupMultiplicity(s[1..], x);
      assert s == [s[0]] + s[1..];
    }
  }

  lemma {:induction false} WithoutNoDup<T>(s: seq<T>, x: T)
    requires NoDup(s)
    ensures NoDup(Without(s, x))
    decreases |s|
  {
    if |s| > 0 {
      HeadTailNoDup(s);
      WithoutNoDup(s[1..], x);
      var w := Without(s[1..], x);
      assert s[0] !in w;
      if s[0] != x {
        forall i, j | 0 <= i < j < |[s[0]] + w| ensures ([s[0]] + w)[i] != ([s[0]] + w)[j] {
          if i == 0 {
            assert ([s[0]] + w)[j] == w[j - 1];
          }
        }
      }
    }
  }

  /** On a duplicate-free sequence, removing the first occurrence removes
      the element entirely, keeps the others in their relative order and
      keeps the sequence duplicate-free. */
  lemma {:induction false} RemoveFirstNoDup<T>(s: seq<T>, x: T)
    requires NoDup(s)
    ensures RemoveFirst(s, x) == Without(s, x)
    ensures x !in RemoveFirst(s, x)
    ensures NoDup(RemoveFirst(s, x))
    decreases |s|
  {
    if |s| > 0 {
      HeadTailNoDup(s);
      RemoveFirstNoDup(s[1..], x);
      if s[0] == x {
        WithoutAbsent(s[1..], x);
      }
    }
    WithoutNoDup(s, x);
  }

  lemma {:induction false} WithoutAbsent<T>(s: seq<T>, x: T)
    requires x !in s
    ensures Without(s, x) == s
    decreases |s|
  {
    if |s| > 0 {
      WithoutAbsent(s[1..], x);
      assert s == [s[0]] + s[1..];
    }
  }
}

=== FILE: submesh.dfy ===
/** The edge and triangle bookkeeping of `SubMesh2d`
    (Assets/Scripts/Submesh2d.cs): the list of live edges (`_edges`), the
    list of triangles (`_triangles`), and the operations that add and
    remove edges while keeping every vertex's incident list in step.
 */
module Submesh {
  import opened Outcomes
  import opened Geometry
  import opened Sequences
  import opened Vertices
  import opened Edges
  import opened Triangles

  /** `g` is the arena, `active` the live edges `_edges` in insertion
      order, `tris` the `_triangles` list. */
  datatype Mesh = Mesh(g: Graph, active: seq<EdgeId>, tris: seq<Triangle>)

  // ---------------------------------------------------------------------
  // The adjacency invariant

  /** Every edge a vertex lists is live and has that vertex as an
      endpoint. */
  predicate ListedAreActive(m: Mesh) {
    forall v, id | 0 <= v < |m.g.verts| && id in m.g.verts[v].edges ::
      id < |m.g.edges| && IsEndpoint(m.g.edges[id], v) && id in m.active
  }

  /** Every live edge is listed by both its endpoints. */
  predicate ActiveAreListed(m: Mesh) {
    forall id | id in m.active ::
      && id < |m.g.edges| && EdgeIn(m.g, m.g.edges[id])
      && id in m.g.verts[m.g.edges[id].v1].edges
      && id in m.g.verts[m.g.edges[id].v2].edges
  }

  predicate TrisIn(m: Mesh) {
    forall i | 0 <= i < |m.tris| :: EdgesIn(m.g, m.tris[i])
  }

  /** The vertices and the live edges agree: a vertex lists exactly the
      live edges it is an endpoint of, each once, and no edge is live
      twice. */
  predicate Consistent(m: Mesh) {
    && Valid(m.g)
    && NoDup(m.active)
    && (forall v | 0 <= v < |m.g.verts| :: NoDup(m.g.verts[v].edges))
    && ListedAreActive(m)
    && ActiveAreListed(m)
    && TrisIn(m)
  }

  /** Nothing but incident lists and live edges changes: positions,
      indices and triangles stay, the arena only grows. */
  predicate Extends(m: Mesh, r: Mesh) {
    && |r.g.verts| == |m.g.verts|
    && (forall v | 0 <= v < |m.g.verts| :: r.g.verts[v].pos == m.g.verts[v].pos && r.g.verts[v].index == m.g.verts[v].index)
    && |m.g.edges| <= |r.g.edges| && r.g.edges[..|m.g.edges|] == m.g.edges
  }

  lemma ExtendsTransitive(m1: Mesh, m2: Mesh, m3: Mesh)
    requires Extends(m1, m2) && Extends(m2, m3)
    ensures Extends(m1, m3)
  {
    assert m3.g.edges[..|m1.g.edges|] == m3.g.edges[..|m2.g.edges|][..|m1.g.edges|];
  }

  /** Two live edges never join the same pair of vertices. */
  predicate NoDupPairs(m: Mesh) {
    forall i, j | 0 <= i < j < |m.active| && m.active[i] < |m.g.edges| && m.active[j] < |m.g.edges| ::
      !IsTheSameEdge(m.g.edges[m.active[j]], m.g.edges[m.active[i]].v1, m.g.edges[m.active[i]].v2)
  }

  /** The `SubMesh2d` constructor's state before triangulating: vertex i is
      point i, nothing is connected. */
  function CreateVertices(points: seq<Vec>): (r: seq<Vertex>)
    ensures |r| == |points|
    ensures forall i | 0 <= i < |points| :: r[i].index == i && r[i].pos == points[i] && r[i].edges == []
  {
    seq(|points|, (i: int) requires 0 <= i < |points| => Vertex(i, points[i], []))
  }

  function InitialMesh(points: seq<Vec>): Mesh {
    Mesh(Graph(CreateVertices(points), []), [], [])
  }

  lemma InitialMeshConsistent(points: seq<Vec>)
    ensures Consistent(InitialMesh(points))
  {
  }

  // ---------------------------------------------------------------------
  // The vertex comparator of the constructor

  /** The comparer handed to `OrderBy`/`ThenBy`: values closer than the
      tolerance compare equal. */
  function ToleranceCompare(a: real, b: real): (r: int)
    ensures r == 0 <==> Abs(a - b) < Tolerance
    ensures r == 1 <==> a - b >= Tolerance
    ensures r == -1 <==> b - a >= Tolerance
  {
    var diff := a - b;
    if Abs(diff) < Tolerance then 0
    else if a > b then 1 else -1
  }

  lemma ToleranceCompareAntisymmetric(a: real, b: real)
    ensures ToleranceCompare(a, b) == -ToleranceCompare(b, a)
  {
  }

  /** The comparer is not transitive: "equal" does not chain, so the
      order it induces depends on the sort algorithm. */
  lemma ToleranceCompareNotTransitive()
    ensures ToleranceCompare(0.0, 0.0000006) == 0
    ensures ToleranceCompare(0.0000006, 0.0000012) == 0
    ensures ToleranceCompare(0.0, 0.0000012) == -1
  {
  }

  // ---------------------------------------------------------------------
  // Finding, adding and removing edges

  /** The first edge of `es` joining `a` and `b`. */
  function FirstJoining(g: Graph, es: seq<EdgeId>, a: VertexId, b: VertexId): (r: Option<nat>)
    requires EdgeIdsIn(g, es)
    ensures r.Some? ==> r.value < |es| && IsTheSameEdge(g.edges[es[r.value]], a, b)
    ensures r.Some? ==> forall k | 0 <= k < r.value :: !IsTheSameEdge(g.edges[es[k]], a, b)
    ensures r.None? <==> forall k | 0 <= k < |es| :: !IsTheSameEdge(g.edges[es[k]], a, b)
  {
    if |es| == 0 then None
    else if IsTheSameEdge(g.edges[es[0]], a, b) then Some(0)
    else
      assert forall k | 1 <= k < |es| :: es[k] == es[1..][k - 1];
      match FirstJoining(g, es[1..], a, b)
      case None => None
      case Some(k) => Some(k + 1)
  }

  /** `TryToGetEdge` (`FirstOrDefault`): the first live edge joining the two
      vertices, in either orientation. */
  function TryToGetEdge(m: Mesh, a: VertexId, b: VertexId): (r: Option<EdgeId>)
    requires EdgeIdsIn(m.g, m.active)
    ensures r.Some? ==> r.value in m.active && IsTheSameEdge(m.g.edges[r.value], a, b)
    ensures r.Some? ==> exists k | 0 <= k < |m.active| :: m.active[k] == r.value
                          && forall j | 0 <= j < k :: !IsTheSameEdge(m.g.edges[m.active[j]], a, b)
    ensures r.None? <==> forall k | 0 <= k < |m.active| :: !IsTheSameEdge(m.g.edges[m.active[k]], a, b)
  {
    match FirstJoining(m.g, m.active, a, b)
    case None => None
    case Some(k) => Some(m.active[k])
  }

  lemma ConsistentActiveIn(m: Mesh)
    requires Consistent(m)
    ensures EdgeIdsIn(m.g, m.active)
  {
    forall k | 0 <= k < |m.active| ensures m.active[k] < |m.g.edges| {
      assert m.active[k] in m.active;
    }
  }

  /** `AddEdge(Vertex2d, Vertex2d)`: a new edge, registered on both
      endpoints and appended to the live edges. */
  function AddEdgeBetween(m: Mesh, a: VertexId, b: VertexId): (r: (Mesh, EdgeId))
    requires Valid(m.g) && a < |m.g.verts| && b < |m.g.verts|
    ensures r.1 == |m.g.edges| && r.0.g.edges == m.g.edges + [Edge(a, b)]
    ensures r.0.active == m.active + [r.1] && r.0.tris == m.tris
    ensures Valid(r.0.g) && Extends(m, r.0)
    ensures r.1 in r.0.g.verts[a].edges && r.1 in r.0.g.verts[b].edges
    ensures Consistent(m) ==> Consistent(r.0)
  {
    var (g1, id) := NewEdge(m.g, a, b);
    var r := Mesh(g1, m.active + [id], m.tris);
    assert Extends(m, r) by {
      assert g1.edges[..|m.g.edges|] == m.g.edges;
    }
    AddEdgeBetweenConsistent(m, a, b);
    (r, id)
  }

  lemma AddEdgeBetweenConsistent(m: Mesh, a: VertexId, b: VertexId)
    requires Valid(m.g) && a < |m.g.verts| && b < |m.g.verts|
    ensures Consistent(m) ==> Consistent(Mesh(NewEdge(m.g, a, b).0, m.active + [NewEdge(m.g, a, b).1], m.tris))
  {
    if Consistent(m) {
      var (g1, id) := NewEdge(m.g, a, b);
      var r := Mesh(g1, m.active + [id], m.tris);
      assert id !in m.active;
      assert NoDup(r.active) by {
        forall i, j | 0 <= i < j < |r.active| ensures r.active[i] != r.active[j] {
          if j == |m.active| {
            assert r.active[i] in m.active;
          }
        }
      }
      forall v | 0 <= v < |g1.verts| ensures NoDup(g1.verts[v].edges) {
        assert NoDup(m.g.verts[v].edges);
      }
      NewEdgeListedAreActive(m, a, b);
      NewEdgeActiveAreListed(m, a, b);
      assert TrisIn(r) by {
        assert forall i | 0 <= i < |r.tris| :: EdgesIn(m.g, m.tris[i]);
      }
    }
  }

  lemma NewEdgeListedAreActive(m: Mesh, a: VertexId, b: VertexId)
    requires Valid(m.g) && ListedAreActive(m) && a < |m.g.verts| && b < |m.g.verts|
    ensures ListedAreActive(Mesh(NewEdge(m.g, a, b).0, m.active + [NewEdge(m.g, a, b).1], m.tris))
  {
    var (g1, id) := NewEdge(m.g, a, b);
    forall v, x | 0 <= v < |g1.verts| && x in g1.verts[v].edges
      ensures x < |g1.edges| && IsEndpoint(g1.edges[x], v) && x in m.active + [id]
    {
      NewEdgeListedAt(m, a, b, v, x);
    }
  }

  /** One vertex and one listed id of `NewEdgeListedAreActive`. */
  lemma NewEdgeListedAt(m: Mesh, a: VertexId, b: VertexId, v: VertexId, x: EdgeId)
    requires Valid(m.g) && ListedAreActive(m) && a < |m.g.verts| && b < |m.g.verts|
    requires v < |m.g.verts| && x in NewEdge(m.g, a, b).0.verts[v].edges
    ensures x < |NewEdge(m.g, a, b).0.edges| && IsEndpoint(NewEdge(m.g, a, b).0.edges[x], v)
    ensures x in m.active + [NewEdge(m.g, a, b).1]
  {
    var g1 := NewEdge(m.g, a, b).0;
    if x != NewEdge(m.g, a, b).1 {
      VertexListingFrom(m.g, g1, a, b, v, x);
      assert g1.edges[x] == m.g.edges[x];
    }
  }

  lemma NewEdgeActiveAreListed(m: Mesh, a: VertexId, b: VertexId)
    requires Valid(m.g) && ActiveAreListed(m) && a < |m.g.verts| && b < |m.g.verts|
    ensures ActiveAreListed(Mesh(NewEdge(m.g, a, b).0, m.active + [NewEdge(m.g, a, b).1], m.tris))
  {
    var (g1, id) := NewEdge(m.g, a, b);
    forall x | x in m.active + [id]
      ensures x < |g1.edges| && EdgeIn(g1, g1.edges[x])
      ensures x in g1.verts[g1.edges[x].v1].edges && x in g1.verts[g1.edges[x].v2].edges
    {
      if x != id {
        NewEdgeKeepsListing(m, a, b, x);
      }
    }
  }

  /** An old live edge stays listed by its endpoints after `NewEdge`. */
  lemma NewEdgeKeepsListing(m: Mesh, a: VertexId, b: VertexId, x: EdgeId)
    requires Valid(m.g) && ActiveAreListed(m) && a < |m.g.verts| && b < |m.g.verts|
    requires x in m.active
    ensures x < |m.g.edges| && NewEdge(m.g, a, b).0.edges[x] == m.g.edges[x]
    ensures EdgeIn(NewEdge(m.g, a, b).0, m.g.edges[x])
    ensures x in NewEdge(m.g, a, b).0.verts[m.g.edges[x].v1].edges
    ensures x in NewEdge(m.g, a, b).0.verts[m.g.edges[x].v2].edges
  {
    var g1 := NewEdge(m.g, a, b).0;
    var e := m.g.edges[x];
    assert g1.edges[x] == e;
    VertexKeepsListing(m.g, g1, a, b, e.v1, x);
    VertexKeepsListing(m.g, g1, a, b, e.v2, x);
  }

  lemma VertexListingFrom(g: Graph, g1: Graph, a: VertexId, b: VertexId, v: VertexId, x: EdgeId)
    requires Valid(g) && a < |g.verts| && b < |g.verts| && g1 == NewEdge(g, a, b).0
    requires v < |g.verts| && x in g1.verts[v].edges && x != NewEdge(g, a, b).1
    ensures x in g.verts[v].edges
  {
    if v == a || v == b {
      assert g1.verts[v] == AddEdge(g.verts[v], NewEdge(g, a, b).1);
    } else {
      assert g1.verts[v] == g.verts[v];
    }
  }

  lemma VertexKeepsListing(g: Graph, g1: Graph, a: VertexId, b: VertexId, v: VertexId, x: EdgeId)
    requires Valid(g) && a < |g.verts| && b < |g.verts| && g1 == NewEdge(g, a, b).0
    requires v < |g.verts| && x in g.verts[v].edges
    ensures x in g1.verts[v].edges
  {
    if v == a || v == b {
      assert g1.verts[v] == AddEdge(g.verts[v], NewEdge(g, a, b).1);
    } else {
      assert g1.verts[v] == g.verts[v];
    }
  }

  /** `RemoveEdge(Edge2d)`: `ClearVertices` and `_edges.Remove`. */
  function RemoveEdge(m: Mesh, id: EdgeId): (r: Mesh)
    requires Valid(m.g) && id < |m.g.edges|
    ensures r.g.edges == m.g.edges && r.tris == m.tris && Valid(r.g) && Extends(m, r)
    ensures multiset(r.active) == multiset(m.active) - multiset{id}
    ensures Consistent(m) ==> Consistent(r)
    ensures Consistent(m) ==> r.active == Without(m.active, id)
    ensures Consistent(m) ==> id !in r.active
    ensures Consistent(m) ==> forall v | 0 <= v < |r.g.verts| :: id !in r.g.verts[v].edges
  {
    var r := Mesh(ClearVertices(m.g, id), RemoveFirst(m.active, id), m.tris);
    RemoveEdgeConsistent(m, id);
    r
  }

  lemma RemoveEdgeConsistent(m: Mesh, id: EdgeId)
    requires Valid(m.g) && id < |m.g.edges|
    ensures
      var r := Mesh(ClearVertices(m.g, id), RemoveFirst(m.active, id), m.tris);
      Consistent(m) ==> (&& Consistent(r) && r.active == Without(m.active, id) && id !in r.active
                         && forall v | 0 <= v < |r.g.verts| :: id !in r.g.verts[v].edges)
  {
    if Consistent(m) {
      var g1 := ClearVertices(m.g, id);
      var r := Mesh(g1, RemoveFirst(m.active, id), m.tris);
      RemoveFirstNoDup(m.active, id);
      ClearedLists(m, id);
      ClearedListedAreActive(m, id);
      ClearedActiveAreListed(m, id);
      assert TrisIn(r) by {
        assert forall i | 0 <= i < |r.tris| :: EdgesIn(m.g, m.tris[i]);
      }
    }
  }

  /** After clearing, every incident list is still duplicate-free, no
      longer holds the edge, and is the old list without it. */
  lemma ClearedLists(m: Mesh, id: EdgeId)
    requires Consistent(m) && id < |m.g.edges|
    ensures forall v | 0 <= v < |m.g.verts| ::
              && NoDup(ClearVertices(m.g, id).verts[v].edges)
              && id !in ClearVertices(m.g, id).verts[v].edges
              && ClearVertices(m.g, id).verts[v].edges == Without(m.g.verts[v].edges, id)
  {
    var g1 := ClearVertices(m.g, id);
    var e := m.g.edges[id];
    forall v | 0 <= v < |m.g.verts|
      ensures NoDup(g1.verts[v].edges) && id !in g1.verts[v].edges && g1.verts[v].edges == Without(m.g.verts[v].edges, id)
    {
      assert NoDup(m.g.verts[v].edges);
      if !IsEndpoint(e, v) {
        assert id !in m.g.verts[v].edges;
        WithoutAbsent(m.g.verts[v].edges, id);
      }
    }
  }

  lemma ClearedListedAreActive(m: Mesh, id: EdgeId)
    requires Consistent(m) && id < |m.g.edges|
    ensures ListedAreActive(Mesh(ClearVertices(m.g, id), Without(m.active, id), m.tris))
  {
    var g1 := ClearVertices(m.g, id);
    ClearedLists(m, id);
    forall v, x | 0 <= v < |g1.verts| && x in g1.verts[v].edges
      ensures x < |g1.edges| && IsEndpoint(g1.edges[x], v) && x in Without(m.active, id)
    {
      var k :| 0 <= k < |Without(m.g.verts[v].edges, id)| && Without(m.g.verts[v].edges, id)[k] == x;
      assert x in m.g.verts[v].edges && x != id;
      assert x in m.active;
      var i :| 0 <= i < |m.active| && m.active[i] == x;
    }
  }

  lemma ClearedActiveAreListed(m: Mesh, id: EdgeId)
    requires Consistent(m) && id < |m.g.edges|
    ensures ActiveAreListed(Mesh(ClearVertices(m.g, id), Without(m.active, id), m.tris))
  {
    var g1 := ClearVertices(m.g, id);
    ClearedLists(m, id);
    forall x | x in Without(m.active, id)
      ensures x < |g1.edges| && EdgeIn(g1, g1.edges[x])
      ensures x in g1.verts[g1.edges[x].v1].edges && x in g1.verts[g1.edges[x].v2].edges
    {
      var k :| 0 <= k < |Without(m.active, id)| && Without(m.active, id)[k] == x;
      assert x in m.active && x != id;
      var f := m.g.edges[x];
      var i :| 0 <= i < |m.g.verts[f.v1].edges| && m.g.verts[f.v1].edges[i] == x;
      var j :| 0 <= j < |m.g.verts[f.v2].edges| && m.g.verts[f.v2].edges[j] == x;
    }
  }

  /** `RemoveEdge(Vertex2d, Vertex2d)`: removes the first live edge joining
      the two vertices; `List.First` throws when there is none. */
  function RemoveEdgeBetween(m: Mesh, a: VertexId, b: VertexId): (r: Result<Mesh>)
    requires Consistent(m)
    ensures EdgeIdsIn(m.g, m.active)
    ensures r.Failure? <==> TryToGetEdge(m, a, b).None?
    ensures r.Failure? ==> r.error == EdgeNotFound
    ensures r.Success? ==> Consistent(r.value) && Extends(m, r.value) && r.value.tris == m.tris
    ensures r.Success? ==> r.value.active == Without(m.active, TryToGetEdge(m, a, b).value)
  {
    ConsistentActiveIn(m);
    match TryToGetEdge(m, a, b)
    case None => Failure(EdgeNotFound)
    case Some(id) => Success(RemoveEdge(m, id))
  }

  /** With no duplicate pairs, removing the edge between two vertices
      leaves them unconnected. */
  lemma RemoveEdgeBetweenDisconnects(m: Mesh, a: VertexId, b: VertexId)
    requires Consistent(m) && NoDupPairs(m)
    requires RemoveEdgeBetween(m, a, b).Success?
    ensures EdgeIdsIn(m.g, m.active)
    ensures TryToGetEdge(RemoveEdgeBetween(m, a, b).value, a, b).None?
  {
    ConsistentActiveIn(m);
    var id := TryToGetEdge(m, a, b).value;
    var r := RemoveEdgeBetween(m, a, b).value;
    var k :| 0 <= k < |m.active| && m.active[k] == id;
    ConsistentActiveIn(r);
    forall j | 0 <= j < |r.active| ensures !IsTheSameEdge(r.g.edges[r.active[j]], a, b) {
      var x := r.active[j];
      assert x in Without(m.active, id);
      var i :| 0 <= i < |m.active| && m.active[i] == x;
      OnlyOnePair(m, a, b, i, k);
      assert r.g.edges[x] == m.g.edges[x];
    }
  }

  /** With no duplicate pairs, a live edge joining `a` and `b` is the only
      one. */
  lemma OnlyOnePair(m: Mesh, a: VertexId, b: VertexId, i: nat, k: nat)
    requires NoDupPairs(m) && EdgeIdsIn(m.g, m.active)
    requires i < |m.active| && k < |m.active| && m.active[i] != m.active[k]
    requires IsTheSameEdge(m.g.edges[m.active[k]], a, b)
    ensures !IsTheSameEdge(m.g.edges[m.active[i]], a, b)
  {
    var ex, ek := m.g.edges[m.active[i]], m.g.edges[m.active[k]];
    if i < k {
      assert !IsTheSameEdge(ek, ex.v1, ex.v2);
    } else {
      assert !IsTheSameEdge(ex, ek.v1, ek.v2);
    }
  }

  /** `r` keeps every live edge of `m`, and each other live edge of `r` is
      a fresh arena entry among `added`. */
  predicate GrowsBy(m: Mesh, r: Mesh, added: set<EdgeId>) {
    && (forall id | id in m.active :: id in r.active)
    && (forall id | id in r.active :: id in m.active || (|m.g.edges| <= id && id in added))
  }

  /** The first joining position in `s` is still the first one in a list
      that extends `s`, over an arena that agrees on the entries of `s`. */
  lemma {:induction false} FirstJoiningPrefix(g: Graph, s: seq<EdgeId>, g1: Graph, s1: seq<EdgeId>, a: VertexId, b: VertexId)
    requires EdgeIdsIn(g, s) && EdgeIdsIn(g1, s1)
    requires |s| <= |s1| && forall j | 0 <= j < |s| :: s1[j] == s[j] && g1.edges[s[j]] == g.edges[s[j]]
    ensures FirstJoining(g, s, a, b).Some? ==> FirstJoining(g1, s1, a, b) == FirstJoining(g, s, a, b)
    decreases |s|
  {
    if |s| > 0 && !IsTheSameEdge(g.edges[s[0]], a, b) {
      assert forall k | 1 <= k < |s| :: s[k] == s[1..][k - 1];
      assert forall k | 1 <= k < |s1| :: s1[k] == s1[1..][k - 1];
      FirstJoiningPrefix(g, s[1..], g1, s1[1..], a, b);
    }
  }

  /** A joined pair keeps its first live edge when live edges are only
      appended and the arena only grows. */
  lemma JoinSurvivesGrowth(m: Mesh, m1: Mesh, a: VertexId, b: VertexId)
    requires EdgeIdsIn(m.g, m.active) && EdgeIdsIn(m1.g, m1.active)
    requires |m.active| <= |m1.active| && m1.active[..|m.active|] == m.active
    requires |m.g.edges| <= |m1.g.edges| && m1.g.edges[..|m.g.edges|] == m.g.edges
    ensures TryToGetEdge(m, a, b).Some? ==> TryToGetEdge(m1, a, b) == TryToGetEdge(m, a, b)
  {
    forall j | 0 <= j < |m.active|
      ensures m1.active[j] == m.active[j] && m1.g.edges[m.active[j]] == m.g.edges[m.active[j]]
    {
      assert m1.active[..|m.active|][j] == m1.active[j];
      assert m1.g.edges[..|m.g.edges|][m.active[j]] == m1.g.edges[m.active[j]];
    }
    FirstJoiningPrefix(m.g, m.active, m1.g, m1.active, a, b);
  }

  /** The edge of `AddEdges` for one pair: the live one if there is one,
      otherwise a new one. */
  function EnsureEdge(m: Mesh, a: VertexId, b: VertexId): (r: (Mesh, EdgeId))
    requires Consistent(m) && a < |m.g.verts| && b < |m.g.verts|
    ensures Consistent(r.0) && Extends(m, r.0) && r.0.tris == m.tris
    ensures r.1 in r.0.active && r.1 < |r.0.g.edges| && IsTheSameEdge(r.0.g.edges[r.1], a, b)
    ensures EdgeIdsIn(m.g, m.active)
    ensures TryToGetEdge(m, a, b).Some? ==> r.0 == m
    ensures TryToGetEdge(m, a, b).None? ==> r.0.active == m.active + [r.1] && r.0.g.edges == m.g.edges + [Edge(a, b)]
    ensures NoDupPairs(m) ==> NoDupPairs(r.0)
    ensures forall id | id in m.active :: id in r.0.active
    ensures TryToGetEdge(m, a, b).Some? ==> r.1 == TryToGetEdge(m, a, b).value
    ensures TryToGetEdge(m, a, b).None? ==> r.1 == |m.g.edges|
  {
    ConsistentActiveIn(m);
    match TryToGetEdge(m, a, b)
    case Some(id) =>
      assert id < |m.g.edges|;
      (m, id)
    case None =>
      var r := AddEdgeBetween(m, a, b);
      assert IsTheSameEdge(r.0.g.edges[r.1], a, b);
      FreshPairKeepsNoDupPairs(m, a, b);
      r
  }

  /** One `EnsureEdge` step, seen from the live list: nothing changes, or
      the next arena entry is appended. */
  lemma StepGrows(m: Mesh, r: Mesh, id: EdgeId)
    requires r.active == m.active || (r.active == m.active + [id] && id == |m.g.edges|)
    ensures |m.active| <= |r.active| && r.active[..|m.active|] == m.active
    ensures GrowsBy(m, r, {id})
  {
  }

  lemma GrowsByCompose(m: Mesh, m1: Mesh, m2: Mesh, s1: set<EdgeId>, s2: set<EdgeId>)
    requires GrowsBy(m, m1, s1) && GrowsBy(m1, m2, s2) && |m.g.edges| <= |m1.g.edges|
    ensures GrowsBy(m, m2, s1 + s2)
  {
  }

  lemma FreshPairKeepsNoDupPairs(m: Mesh, a: VertexId, b: VertexId)
    requires Consistent(m) && a < |m.g.verts| && b < |m.g.verts|
    requires EdgeIdsIn(m.g, m.active) && TryToGetEdge(m, a, b).None?
    ensures NoDupPairs(m) ==> NoDupPairs(AddEdgeBetween(m, a, b).0)
  {
    var (r, id) := AddEdgeBetween(m, a, b);
    if NoDupPairs(m) {
      forall i, j | 0 <= i < j < |r.active| && r.active[i] < |r.g.edges| && r.active[j] < |r.g.edges|
        ensures !IsTheSameEdge(r.g.edges[r.active[j]], r.g.edges[r.active[i]].v1, r.g.edges[r.active[i]].v2)
      {
        var ei, ej := r.g.edges[r.active[i]], r.g.edges[r.active[j]];
        assert ei == m.g.edges[m.active[i]];
        if j == |m.active| {
          assert ej == Edge(a, b);
          assert !IsTheSameEdge(ei, a, b);
          IsTheSameEdgeSymmetric(ej, ei.v1, ei.v2);
        } else {
          assert ej == m.g.edges[m.active[j]];
        }
      }
    }
  }

  /** The longest of three edges; among equally long ones the first, as
      the stable `OrderByDescending(...).First()` picks. */
  function Longest(g: Graph, a: EdgeId, b: EdgeId, c: EdgeId): (r: EdgeId)
    requires Valid(g) && a < |g.edges| && b < |g.edges| && c < |g.edges|
    ensures EdgeIn(g, g.edges[a]) && EdgeIn(g, g.edges[b]) && EdgeIn(g, g.edges[c])
    ensures r == a || r == b || r == c
    ensures SqrLength(g, g.edges[r]) >= SqrLength(g, g.edges[a])
    ensures SqrLength(g, g.edges[r]) >= SqrLength(g, g.edges[b])
    ensures SqrLength(g, g.edges[r]) >= SqrLength(g, g.edges[c])
    ensures r != a ==> SqrLength(g, g.edges[a]) < SqrLength(g, g.edges[r])
    ensures r != a && r != b ==> SqrLength(g, g.edges[b]) < SqrLength(g, g.edges[r])
  {
    assert EdgeIn(g, g.edges[a]) && EdgeIn(g, g.edges[b]) && EdgeIn(g, g.edges[c]);
    var la, lb, lc := SqrLength(g, g.edges[a]), SqrLength(g, g.edges[b]), SqrLength(g, g.edges[c]);
    if la >= lb && la >= lc then a
    else if lb >= lc then b
    else c
  }

  /** Squared distance between two vertices. */
  function PairLength(g: Graph, x: VertexId, y: VertexId): real
    requires x < |g.verts| && y < |g.verts|
  {
    SqrMag(Sub(Pos(g, y), Pos(g, x)))
  }

  lemma PairLengthSymmetric(g: Graph, x: VertexId, y: VertexId)
    requires x < |g.verts| && y < |g.verts|
    ensures PairLength(g, x, y) == PairLength(g, y, x)
  {
  }

  /** Some live edge joins the two vertices. */
  predicate Joined(m: Mesh, x: VertexId, y: VertexId)
    requires EdgeIdsIn(m.g, m.active)
  {
    TryToGetEdge(m, x, y).Some?
  }

  /** After a collinear `AddEdges` on distinct vertices a, b, c: exactly
      one of the three pairs is left unconnected, and it is the longest
      pair, the first one in the order ab, bc, ca among equally long
      pairs. */
  predicate LongestPairDropped(g: Graph, r: Mesh, a: VertexId, b: VertexId, c: VertexId)
    requires a < |g.verts| && b < |g.verts| && c < |g.verts| && EdgeIdsIn(r.g, r.active)
  {
    var lab, lbc, lca := PairLength(g, a, b), PairLength(g, b, c), PairLength(g, c, a);
    || (!Joined(r, a, b) && Joined(r, b, c) && Joined(r, c, a) && lab >= lbc && lab >= lca)
    || (Joined(r, a, b) && !Joined(r, b, c) && Joined(r, c, a) && lbc > lab && lbc >= lca)
    || (Joined(r, a, b) && Joined(r, b, c) && !Joined(r, c, a) && lca > lab && lca > lbc)
  }

  /** `AddEdges`: connects three vertices pairwise, reusing live edges; if
      the three points are collinear, the longest of the three edges is
      removed again. */
  function AddEdges(m: Mesh, vs: seq<VertexId>): (r: Mesh)
    requires Consistent(m) && |vs| >= 3
    requires vs[0] < |m.g.verts| && vs[1] < |m.g.verts| && vs[2] < |m.g.verts|
    ensures Consistent(r) && Extends(m, r) && r.tris == m.tris
    ensures NoDupPairs(m) ==> NoDupPairs(r)
    ensures EdgeIdsIn(r.g, r.active)
    ensures !IsPointsCollinear(Pos(m.g, vs[0]), Pos(m.g, vs[1]), Pos(m.g, vs[2])) ==>
              Joined(r, vs[0], vs[1]) && Joined(r, vs[1], vs[2]) && Joined(r, vs[2], vs[0])
    ensures IsPointsCollinear(Pos(m.g, vs[0]), Pos(m.g, vs[1]), Pos(m.g, vs[2]))
            && NoDupPairs(m) && vs[0] != vs[1] && vs[1] != vs[2] && vs[2] != vs[0] ==>
              LongestPairDropped(m.g, r, vs[0], vs[1], vs[2])
  {
    var (m3, e1, e2, e3) := ConnectThree(m, vs[0], vs[1], vs[2]);
    if IsPointsCollinear(Pos(m.g, vs[0]), Pos(m.g, vs[1]), Pos(m.g, vs[2])) then
      CollinearBranch(m, vs[0], vs[1], vs[2]);
      RemoveEdge(m3, Longest(m3.g, e1, e2, e3))
    else
      ActiveJoinFound(m3, e1, vs[0], vs[1]);
      ActiveJoinFound(m3, e2, vs[1], vs[2]);
      ActiveJoinFound(m3, e3, vs[2], vs[0]);
      m3
  }

  /** The edge joins one of the three pairs of `AddEdges`. */
  predicate OnPairs(e: Edge, a: VertexId, b: VertexId, c: VertexId) {
    IsTheSameEdge(e, a, b) || IsTheSameEdge(e, b, c) || IsTheSameEdge(e, c, a)
  }

  /** `AddEdges` touches only the three pairs: every live edge of `m` off
      them stays live, and every live edge it did not find is a fresh
      arena entry joining one of them. */
  lemma AddEdgesFrame(m: Mesh, vs: seq<VertexId>)
    requires Consistent(m) && |vs| >= 3
    requires vs[0] < |m.g.verts| && vs[1] < |m.g.verts| && vs[2] < |m.g.verts|
    ensures forall id | id in m.active && !OnPairs(m.g.edges[id], vs[0], vs[1], vs[2]) :: id in AddEdges(m, vs).active
    ensures var r := AddEdges(m, vs);
            forall id | id in r.active ::
              || id in m.active
              || (|m.g.edges| <= id < |r.g.edges| && OnPairs(r.g.edges[id], vs[0], vs[1], vs[2]))
  {
    var a, b, c := vs[0], vs[1], vs[2];
    var (m3, e1, e2, e3) := ConnectThree(m, a, b, c);
    ConsistentActiveIn(m);
    ConnectThreeFrame(m, a, b, c);
    if IsPointsCollinear(Pos(m.g, a), Pos(m.g, b), Pos(m.g, c)) {
      var longest := Longest(m3.g, e1, e2, e3);
      assert AddEdges(m, vs) == RemoveEdge(m3, longest);
      LongestFrame(m, m3, e1, e2, e3, longest, AddEdges(m, vs), a, b, c);
    } else {
      assert AddEdges(m, vs) == m3;
      GrownFrame(m, m3, e1, e2, e3, a, b, c);
    }
  }

  /** After `ConnectThree`, a live edge is an old one or a fresh one
      joining one of the pairs. */
  lemma GrownFrame(m: Mesh, m3: Mesh, e1: EdgeId, e2: EdgeId, e3: EdgeId, a: VertexId, b: VertexId, c: VertexId)
    requires GrowsBy(m, m3, {e1, e2, e3})
    requires e1 < |m3.g.edges| && e2 < |m3.g.edges| && e3 < |m3.g.edges|
    requires IsTheSameEdge(m3.g.edges[e1], a, b) && IsTheSameEdge(m3.g.edges[e2], b, c) && IsTheSameEdge(m3.g.edges[e3], c, a)
    ensures forall id | id in m.active :: id in m3.active
    ensures forall id | id in m3.active :: id in m.active || (|m.g.edges| <= id < |m3.g.edges| && OnPairs(m3.g.edges[id], a, b, c))
  {
  }

  /** The collinear branch of `AddEdges`: the longest of the three
      edges joins one of the pairs. */
  lemma LongestFrame(m: Mesh, m3: Mesh, e1: EdgeId, e2: EdgeId, e3: EdgeId, longest: EdgeId, r: Mesh, a: VertexId, b: VertexId, c: VertexId)
    requires EdgeIdsIn(m.g, m.active) && Extends(m, m3) && Valid(m3.g)
    requires e1 < |m3.g.edges| && e2 < |m3.g.edges| && e3 < |m3.g.edges|
    requires IsTheSameEdge(m3.g.edges[e1], a, b) && IsTheSameEdge(m3.g.edges[e2], b, c) && IsTheSameEdge(m3.g.edges[e3], c, a)
    requires GrowsBy(m, m3, {e1, e2, e3})
    requires longest == e1 || longest == e2 || longest == e3
    requires r.active == Without(m3.active, longest) && r.g.edges == m3.g.edges
    ensures forall id | id in m.active && id < |m.g.edges| && !OnPairs(m.g.edges[id], a, b, c) :: id in r.active
    ensures forall id | id in r.active ::
              || id in m.active
              || (|m.g.edges| <= id < |r.g.edges| && OnPairs(r.g.edges[id], a, b, c))
  {
    GrownFrame(m, m3, e1, e2, e3, a, b, c);
    assert OnPairs(m3.g.edges[longest], a, b, c);
    RemovedFrame(m, m3, longest, r, a, b, c);
  }

  /** Removing an edge joining one of the pairs from a mesh that grew from
      `m` by edges joining the pairs keeps the frame of `AddEdges`. */
  lemma RemovedFrame(m: Mesh, m3: Mesh, longest: EdgeId, r: Mesh, a: VertexId, b: VertexId, c: VertexId)
    requires EdgeIdsIn(m.g, m.active) && Extends(m, m3) && Valid(m3.g)
    requires longest < |m3.g.edges| && OnPairs(m3.g.edges[longest], a, b, c)
    requires r.active == Without(m3.active, longest) && r.g.edges == m3.g.edges
    requires forall id | id in m.active :: id in m3.active
    requires forall id | id in m3.active :: id in m.active || (|m.g.edges| <= id < |m3.g.edges| && OnPairs(m3.g.edges[id], a, b, c))
    ensures forall id | id in m.active && id < |m.g.edges| && !OnPairs(m.g.edges[id], a, b, c) :: id in r.active
    ensures forall id | id in r.active ::
              || id in m.active
              || (|m.g.edges| <= id < |r.g.edges| && OnPairs(r.g.edges[id], a, b, c))
  {
    forall id | id in m.active && id < |m.g.edges| && !OnPairs(m.g.edges[id], a, b, c)
      ensures id in r.active
    {
      assert m3.g.edges[..|m.g.edges|][id] == m3.g.edges[id];
      assert id != longest;
      var i :| 0 <= i < |m3.active| && m3.active[i] == id;
    }
    forall id | id in r.active
      ensures id in m3.active
    {
      var i :| 0 <= i < |r.active| && r.active[i] == id;
    }
  }

  lemma CollinearBranch(m: Mesh, a: VertexId, b: VertexId, c: VertexId)
    requires Consistent(m) && a < |m.g.verts| && b < |m.g.verts| && c < |m.g.verts|
    ensures
      var (m3, e1, e2, e3) := ConnectThree(m, a, b, c);
      var r := RemoveEdge(m3, Longest(m3.g, e1, e2, e3));
      && Consistent(r) && Extends(m, r) && r.tris == m.tris && EdgeIdsIn(r.g, r.active)
      && (NoDupPairs(m) ==> NoDupPairs(r))
      && (NoDupPairs(m) && a != b && b != c && c != a ==> LongestPairDropped(m.g, r, a, b, c))
  {
    var (m3, e1, e2, e3) := ConnectThree(m, a, b, c);
    var longest := Longest(m3.g, e1, e2, e3);
    var r := RemoveEdge(m3, longest);
    ExtendsTransitive(m, m3, r);
    ConsistentActiveIn(r);
    RemoveKeepsNoDupPairs(m3, longest);
    if NoDupPairs(m) && a != b && b != c && c != a {
      CollinearOutcome(m3, a, b, c, e1, e2, e3);
      SamePairLengths(m, m3, a, b, c, r);
    }
  }

  /** The three `TryToGetEdge`-or-`AddEdge` steps of `AddEdges`. */
  function ConnectThree(m: Mesh, a: VertexId, b: VertexId, c: VertexId): (r: (Mesh, EdgeId, EdgeId, EdgeId))
    requires Consistent(m) && a < |m.g.verts| && b < |m.g.verts| && c < |m.g.verts|
    ensures Consistent(r.0) && Extends(m, r.0) && r.0.tris == m.tris && EdgeIdsIn(r.0.g, r.0.active)
    ensures NoDupPairs(m) ==> NoDupPairs(r.0)
    ensures r.1 in r.0.active && r.2 in r.0.active && r.3 in r.0.active
    ensures r.1 < |r.0.g.edges| && r.2 < |r.0.g.edges| && r.3 < |r.0.g.edges|
    ensures IsTheSameEdge(r.0.g.edges[r.1], a, b)
    ensures IsTheSameEdge(r.0.g.edges[r.2], b, c)
    ensures IsTheSameEdge(r.0.g.edges[r.3], c, a)
  {
    var (m1, e1) := EnsureEdge(m, a, b);
    var (m2, e2) := EnsureEdge(m1, b, c);
    var (m3, e3) := EnsureEdge(m2, c, a);
    ExtendsTransitive(m, m1, m2);
    ExtendsTransitive(m, m2, m3);
    ConsistentActiveIn(m3);
    assert e1 < |m3.g.edges| && m3.g.edges[e1] == m1.g.edges[e1];
    assert e2 < |m3.g.edges| && m3.g.edges[e2] == m2.g.edges[e2];
    assert e1 in m2.active;
    (m3, e1, e2, e3)
  }

  /** `ConnectThree` reuses the first live edge of every pair already
      joined in `m`, keeps every live edge of `m`, and adds no live edge
      but the three it returns. */
  lemma ConnectThreeFrame(m: Mesh, a: VertexId, b: VertexId, c: VertexId)
    requires Consistent(m) && a < |m.g.verts| && b < |m.g.verts| && c < |m.g.verts| && EdgeIdsIn(m.g, m.active)
    ensures var (r, e1, e2, e3) := ConnectThree(m, a, b, c);
            && GrowsBy(m, r, {e1, e2, e3})
            && (TryToGetEdge(m, a, b).Some? ==> e1 == TryToGetEdge(m, a, b).value)
            && (TryToGetEdge(m, b, c).Some? ==> e2 == TryToGetEdge(m, b, c).value)
            && (TryToGetEdge(m, c, a).Some? ==> e3 == TryToGetEdge(m, c, a).value)
  {
    var (m1, e1) := EnsureEdge(m, a, b);
    var (m2, e2) := EnsureEdge(m1, b, c);
    var (m3, e3) := EnsureEdge(m2, c, a);
    assert ConnectThree(m, a, b, c) == (m3, e1, e2, e3);
    ConsistentActiveIn(m1);
    ConsistentActiveIn(m2);
    ThreeSteps(m, m1, m2, m3, e1, e2, e3, a, b, c);
  }

  /** The frame of three `EnsureEdge` steps, from what each step states. */
  lemma ThreeSteps(m: Mesh, m1: Mesh, m2: Mesh, m3: Mesh, e1: EdgeId, e2: EdgeId, e3: EdgeId, a: VertexId, b: VertexId, c: VertexId)
    requires EdgeIdsIn(m.g, m.active) && EdgeIdsIn(m1.g, m1.active) && EdgeIdsIn(m2.g, m2.active)
    requires Extends(m, m1) && Extends(m1, m2)
    requires m1.active == m.active || (m1.active == m.active + [e1] && e1 == |m.g.edges|)
    requires m2.active == m1.active || (m2.active == m1.active + [e2] && e2 == |m1.g.edges|)
    requires m3.active == m2.active || (m3.active == m2.active + [e3] && e3 == |m2.g.edges|)
    requires TryToGetEdge(m, a, b).Some? ==> e1 == TryToGetEdge(m, a, b).value
    requires TryToGetEdge(m1, b, c).Some? ==> e2 == TryToGetEdge(m1, b, c).value
    requires TryToGetEdge(m2, c, a).Some? ==> e3 == TryToGetEdge(m2, c, a).value
    ensures GrowsBy(m, m3, {e1, e2, e3})
    ensures TryToGetEdge(m, a, b).Some? ==> e1 == TryToGetEdge(m, a, b).value
    ensures TryToGetEdge(m, b, c).Some? ==> e2 == TryToGetEdge(m, b, c).value
    ensures TryToGetEdge(m, c, a).Some? ==> e3 == TryToGetEdge(m, c, a).value
  {
    ThreeStepsGrow(m, m1, m2, m3, e1, e2, e3);
    StepGrows(m, m1, e1);
    StepGrows(m1, m2, e2);
    ExtendsTransitive(m, m1, m2);
    assert m2.active[..|m.active|] == m2.active[..|m1.active|][..|m.active|];
    JoinSurvivesGrowth(m, m1, b, c);
    JoinSurvivesGrowth(m, m2, c, a);
  }

  lemma ThreeStepsGrow(m: Mesh, m1: Mesh, m2: Mesh, m3: Mesh, e1: EdgeId, e2: EdgeId, e3: EdgeId)
    requires |m.g.edges| <= |m1.g.edges| <= |m2.g.edges|
    requires m1.active == m.active || (m1.active == m.active + [e1] && e1 == |m.g.edges|)
    requires m2.active == m1.active || (m2.active == m1.active + [e2] && e2 == |m1.g.edges|)
    requires m3.active == m2.active || (m3.active == m2.active + [e3] && e3 == |m2.g.edges|)
    ensures GrowsBy(m, m3, {e1, e2, e3})
  {
    StepGrows(m, m1, e1);
    StepGrows(m1, m2, e2);
    StepGrows(m2, m3, e3);
    GrowsByCompose(m, m1, m2, {e1}, {e2});
    GrowsByCompose(m, m2, m3, {e1} + {e2}, {e3});
    assert {e1} + {e2} + {e3} == {e1, e2, e3};
  }

  lemma SamePairLengths(m: Mesh, m3: Mesh, a: VertexId, b: VertexId, c: VertexId, r: Mesh)
    requires Extends(m, m3) && a < |m.g.verts| && b < |m.g.verts| && c < |m.g.verts| && EdgeIdsIn(r.g, r.active)
    ensures LongestPairDropped(m3.g, r, a, b, c) ==> LongestPairDropped(m.g, r, a, b, c)
  {
    assert Pos(m3.g, a) == Pos(m.g, a) && Pos(m3.g, b) == Pos(m.g, b) && Pos(m3.g, c) == Pos(m.g, c);
  }

  /** The case analysis behind the collinear clause of `AddEdges`. */
  lemma CollinearOutcome(m: Mesh, a: VertexId, b: VertexId, c: VertexId, e1: EdgeId, e2: EdgeId, e3: EdgeId)
    requires Consistent(m) && NoDupPairs(m)
    requires a != b && b != c && c != a && a < |m.g.verts| && b < |m.g.verts| && c < |m.g.verts|
    requires e1 in m.active && e2 in m.active && e3 in m.active
    requires e1 < |m.g.edges| && e2 < |m.g.edges| && e3 < |m.g.edges|
    requires IsTheSameEdge(m.g.edges[e1], a, b)
    requires IsTheSameEdge(m.g.edges[e2], b, c)
    requires IsTheSameEdge(m.g.edges[e3], c, a)
    ensures
      var r := RemoveEdge(m, Longest(m.g, e1, e2, e3));
      EdgeIdsIn(r.g, r.active) && LongestPairDropped(m.g, r, a, b, c)
  {
    var longest := Longest(m.g, e1, e2, e3);
    var r := RemoveEdge(m, longest);
    ConsistentActiveIn(m);
    ConsistentActiveIn(r);
    EdgeLengthIsPairLength(m.g, e1, a, b);
    EdgeLengthIsPairLength(m.g, e2, b, c);
    EdgeLengthIsPairLength(m.g, e3, c, a);
    PairsDiffer(m.g.edges[e1], m.g.edges[e2], m.g.edges[e3], a, b, c);
    ActiveJoinFound(m, e1, a, b);
    ActiveJoinFound(m, e2, b, c);
    ActiveJoinFound(m, e3, c, a);
    RemoveJoined(m, longest, a, b);
    RemoveJoined(m, longest, b, c);
    RemoveJoined(m, longest, c, a);
  }

  /** An edge joining x and y is as long as the pair. */
  lemma EdgeLengthIsPairLength(g: Graph, id: EdgeId, x: VertexId, y: VertexId)
    requires Valid(g) && id < |g.edges| && IsTheSameEdge(g.edges[id], x, y)
    ensures EdgeIn(g, g.edges[id]) && x < |g.verts| && y < |g.verts|
    ensures SqrLength(g, g.edges[id]) == PairLength(g, x, y)
  {
    var e := g.edges[id];
    assert EdgeIn(g, e);
    if e.v1 != x {
      PairLengthSymmetric(g, x, y);
    }
  }

  /** The three edges of three distinct vertices join three different
      pairs. */
  lemma PairsDiffer(f1: Edge, f2: Edge, f3: Edge, a: VertexId, b: VertexId, c: VertexId)
    requires a != b && b != c && c != a
    requires IsTheSameEdge(f1, a, b) && IsTheSameEdge(f2, b, c) && IsTheSameEdge(f3, c, a)
    ensures !IsTheSameEdge(f1, b, c) && !IsTheSameEdge(f1, c, a)
    ensures !IsTheSameEdge(f2, a, b) && !IsTheSameEdge(f2, c, a)
    ensures !IsTheSameEdge(f3, a, b) && !IsTheSameEdge(f3, b, c)
  {
    assert a in {f1.v1, f1.v2} && b in {f1.v1, f1.v2};
    assert b in {f2.v1, f2.v2} && c in {f2.v1, f2.v2};
    assert c in {f3.v1, f3.v2} && a in {f3.v1, f3.v2};
  }

  /** Removing one live edge disconnects exactly the pair it joins, when
      no two live edges share a pair. */
  lemma RemoveJoined(m: Mesh, id: EdgeId, x: VertexId, y: VertexId)
    requires Consistent(m) && NoDupPairs(m) && id in m.active && id < |m.g.edges|
    ensures EdgeIdsIn(m.g, m.active) && EdgeIdsIn(RemoveEdge(m, id).g, RemoveEdge(m, id).active)
    ensures Joined(RemoveEdge(m, id), x, y) <==> Joined(m, x, y) && !IsTheSameEdge(m.g.edges[id], x, y)
  {
    ConsistentActiveIn(m);
    var r := RemoveEdge(m, id);
    ConsistentActiveIn(r);
    var k :| 0 <= k < |m.active| && m.active[k] == id;
    if Joined(r, x, y) {
      var f := TryToGetEdge(r, x, y).value;
      assert f in Without(m.active, id);
      var i :| 0 <= i < |m.active| && m.active[i] == f;
      assert f != id && i != k;
      ActiveJoinFound(m, f, x, y);
      if IsTheSameEdge(m.g.edges[id], x, y) {
        SamePairTransitive(m.g.edges[f], m.g.edges[id], x, y);
        assert false;
      }
    }
    if Joined(m, x, y) && !IsTheSameEdge(m.g.edges[id], x, y) {
      var f := TryToGetEdge(m, x, y).value;
      assert f != id;
      var i :| 0 <= i < |m.active| && m.active[i] == f;
      assert f in r.active;
      ActiveJoinFound(r, f, x, y);
    }
  }

  lemma ActiveJoinFound(m: Mesh, id: EdgeId, a: VertexId, b: VertexId)
    requires EdgeIdsIn(m.g, m.active) && id in m.active && id < |m.g.edges|
    requires IsTheSameEdge(m.g.edges[id], a, b)
    ensures TryToGetEdge(m, a, b).Some?
  {
    var k :| 0 <= k < |m.active| && m.active[k] == id;
  }

  lemma RemoveKeepsNoDupPairs(m: Mesh, id: EdgeId)
    requires Consistent(m) && id < |m.g.edges|
    ensures NoDupPairs(m) ==> NoDupPairs(RemoveEdge(m, id))
  {
    var r := RemoveEdge(m, id);
    NoDupPairsWithout(m, r, id);
  }

  /** Dropping a live edge keeps live pairs distinct. */
  lemma NoDupPairsWithout(m: Mesh, r: Mesh, id: EdgeId)
    requires r.g.edges == m.g.edges && r.active == Without(m.active, id)
    ensures NoDupPairs(m) ==> NoDupPairs(r)
  {
    if NoDupPairs(m) {
      forall i, j | 0 <= i < j < |r.active| && r.active[i] < |r.g.edges| && r.active[j] < |r.g.edges|
        ensures !IsTheSameEdge(r.g.edges[r.active[j]], r.g.edges[r.active[i]].v1, r.g.edges[r.active[i]].v2)
      {
        var i', j' := WithoutOrder(m.active, id, i, j);
      }
    }
  }

  /** `AddEdge(List<Vertex2d>)`: always appends a new edge between the
      first two vertices, even when a live edge already joins them (the
      source only logs that case). */
  function AddEdgeList(m: Mesh, vs: seq<VertexId>): (r: Mesh)
    requires Consistent(m) && |vs| >= 2 && vs[0] < |m.g.verts| && vs[1] < |m.g.verts|
    ensures Consistent(r) && Extends(m, r) && r.tris == m.tris
    ensures |r.active| == |m.active| + 1 && r.active[..|m.active|] == m.active
    ensures r.active[|m.active|] < |r.g.edges| && r.g.edges[r.active[|m.active|]] == Edge(vs[0], vs[1])
  {
    var r := AddEdgeBetween(m, vs[0], vs[1]).0;
    assert r.active[..|m.active|] == m.active;
    r
  }

  /** The logged-only duplicate: when the two vertices are already joined,
      the result holds two live edges for the same pair. */
  lemma AddEdgeListDuplicates(m: Mesh, vs: seq<VertexId>)
    requires Consistent(m) && |vs| >= 2 && vs[0] < |m.g.verts| && vs[1] < |m.g.verts|
    requires EdgeIdsIn(m.g, m.active) && TryToGetEdge(m, vs[0], vs[1]).Some?
    ensures !NoDupPairs(AddEdgeList(m, vs))
  {
    var r := AddEdgeList(m, vs);
    var id := TryToGetEdge(m, vs[0], vs[1]).value;
    var k :| 0 <= k < |m.active| && m.active[k] == id;
    var f := m.g.edges[id];
    assert r.active[k] == id && r.g.edges[id] == f;
    assert {vs[0], vs[1]} == {f.v1, f.v2};
    assert IsTheSameEdge(r.g.edges[r.active[|m.active|]], f.v1, f.v2);
  }

  // ---------------------------------------------------------------------
  // Triangles

  /** No later triangle's edges are all edges of an earlier one: the
      condition `AddTriangle` checks before appending. */
  predicate TrisDistinct(ts: seq<Triangle>) {
    forall i, j | 0 <= i < j < |ts| :: !IsSameTriangle(ts[i], ts[j].e1, ts[j].e2, ts[j].e3)
  }

  /** `AddTriangle`: appends the triangle unless an existing one already
      contains all three edges. */
  function AddTriangle(m: Mesh, e1: EdgeId, e2: EdgeId, e3: EdgeId): (r: Mesh)
    requires e1 < |m.g.edges| && e2 < |m.g.edges| && e3 < |m.g.edges|
    ensures r.g == m.g && r.active == m.active
    ensures |m.tris| <= |r.tris| <= |m.tris| + 1 && r.tris[..|m.tris|] == m.tris
    ensures exists i | 0 <= i < |r.tris| :: IsSameTriangle(r.tris[i], e1, e2, e3)
    ensures |r.tris| == |m.tris| + 1 <==> forall i | 0 <= i < |m.tris| :: !IsSameTriangle(m.tris[i], e1, e2, e3)
    ensures |r.tris| == |m.tris| + 1 ==> r.tris[|m.tris|] == NewTriangle(m.g, e1, e2, e3)
    ensures TrisDistinct(m.tris) ==> TrisDistinct(r.tris)
    ensures Consistent(m) ==> Consistent(r)
  {
    if exists i | 0 <= i < |m.tris| :: IsSameTriangle(m.tris[i], e1, e2, e3) then
      assert m.tris[..|m.tris|] == m.tris;
      m
    else
      var t := NewTriangle(m.g, e1, e2, e3);
      NewTriangleIsSame(m.g, e1, e2, e3);
      var r := m.(tris := m.tris + [t]);
      assert r.tris[..|m.tris|] == m.tris;
      assert IsSameTriangle(r.tris[|m.tris|], e1, e2, e3);
      r
  }

  // ---------------------------------------------------------------------
  // The `Triangles` output

  /** `Triangles`: the corner indices of every triangle, three per
      triangle, in triangle order; `None` when some triangle has a missing
      corner. */
  function Flatten(g: Graph, ts: seq<Triangle>): (r: Option<seq<int>>)
    ensures r.None? <==> exists i | 0 <= i < |ts| :: Indices(g, ts[i]).None?
    ensures r.Some? ==> |r.value| == 3 * |ts|
    ensures r.Some? ==> forall i, k | 0 <= i < |ts| && 0 <= k < 3 :: r.value[3 * i + k] == Indices(g, ts[i]).value[k]
  {
    if |ts| == 0 then Some([])
    else
      assert forall i | 1 <= i < |ts| :: ts[i] == ts[1..][i - 1];
      match Indices(g, ts[0])
      case None => None
      case Some(head) =>
        match Flatten(g, ts[1..])
        case None => None
        case Some(rest) =>
          var r := head + rest;
          assert forall j | 3 <= j < |r| :: r[j] == rest[j - 3];
          Some(r)
  }

  function TrianglesOf(m: Mesh): Option<seq<int>> {
    Flatten(m.g, m.tris)
  }
}

=== FILE: triangle.dfy ===
/** `Triangle2d` (Assets/Scripts/Triangle2d.cs): three edge ids and the
    three corners derived from them. A corner is `None` where the source's
    `HasSameVertexWith` leaves its `out` vertex `null`.
 */
module Triangles {
  import opened Outcomes
  import opened Geometry
  import opened Vertices
  import opened Edges

  datatype Triangle = Triangle(e1: EdgeId, e2: EdgeId, e3: EdgeId, c0: Option<VertexId>, c1: Option<VertexId>, c2: Option<VertexId>)

  predicate EdgesIn(g: Graph, t: Triangle) {
    t.e1 < |g.edges| && t.e2 < |g.edges| && t.e3 < |g.edges|
  }

  /** The corners are the ones the constructor derives from the edges. */
  predicate WellFormed(g: Graph, t: Triangle) {
    && EdgesIn(g, t)
    && t.c1 == HasSameVertexWith(g.edges[t.e1], g.edges[t.e2])
    && t.c2 == HasSameVertexWith(g.edges[t.e2], g.edges[t.e3])
    && t.c0 == HasSameVertexWith(g.edges[t.e3], g.edges[t.e1])
  }

  /** The constructor with `CreateVertices`: corner 1 is shared by edges 1
      and 2, corner 2 by edges 2 and 3, corner 0 by edges 3 and 1. */
  function NewTriangle(g: Graph, e1: EdgeId, e2: EdgeId, e3: EdgeId): (r: Triangle)
    requires e1 < |g.edges| && e2 < |g.edges| && e3 < |g.edges|
    ensures r.e1 == e1 && r.e2 == e2 && r.e3 == e3
    ensures r.c1.Some? ==> IsEndpoint(g.edges[e1], r.c1.value) && IsEndpoint(g.edges[e2], r.c1.value)
    ensures r.c2.Some? ==> IsEndpoint(g.edges[e2], r.c2.value) && IsEndpoint(g.edges[e3], r.c2.value)
    ensures r.c0.Some? ==> IsEndpoint(g.edges[e3], r.c0.value) && IsEndpoint(g.edges[e1], r.c0.value)
    ensures r.c1.None? <==> !IsEndpoint(g.edges[e2], g.edges[e1].v1) && !IsEndpoint(g.edges[e2], g.edges[e1].v2)
    ensures WellFormed(g, r)
  {
    Triangle(e1, e2, e3,
             HasSameVertexWith(g.edges[e3], g.edges[e1]),
             HasSameVertexWith(g.edges[e1], g.edges[e2]),
             HasSameVertexWith(g.edges[e2], g.edges[e3]))
  }

  /** For edges that go round a proper triangle a -> b -> c -> a, in either
      orientation each, the corners are a, b and c in order. */
  lemma CycleCorners(g: Graph, e1: EdgeId, e2: EdgeId, e3: EdgeId, a: VertexId, b: VertexId, c: VertexId)
    requires e1 < |g.edges| && e2 < |g.edges| && e3 < |g.edges|
    requires a != b && b != c && c != a
    requires IsTheSameEdge(g.edges[e1], a, b) && IsTheSameEdge(g.edges[e2], b, c) && IsTheSameEdge(g.edges[e3], c, a)
    ensures NewTriangle(g, e1, e2, e3).c0 == Some(a)
    ensures NewTriangle(g, e1, e2, e3).c1 == Some(b)
    ensures NewTriangle(g, e1, e2, e3).c2 == Some(c)
  {
    var t := NewTriangle(g, e1, e2, e3);
    var x1, x2, x3 := g.edges[e1], g.edges[e2], g.edges[e3];
    assert {a, b} == {x1.v1, x1.v2} && {b, c} == {x2.v1, x2.v2} && {c, a} == {x3.v1, x3.v2};
    assert a in {x1.v1, x1.v2} && b in {x1.v1, x1.v2};
    assert b in {x2.v1, x2.v2} && c in {x2.v1, x2.v2};
    assert c in {x3.v1, x3.v2} && a in {x3.v1, x3.v2};
    assert x1.v1 in {a, b} && x1.v2 in {a, b};
    assert x2.v1 in {b, c} && x2.v2 in {b, c};
    assert x3.v1 in {c, a} && x3.v2 in {c, a};
  }

  /** `Indices`: the corner indices in order; `None` when a corner is
      missing (selecting `Index` of a `null` corner throws). */
  function Indices(g: Graph, t: Triangle): (r: Option<seq<int>>)
    ensures r.Some? <==> (&& t.c0.Some? && t.c1.Some? && t.c2.Some?
                         && t.c0.value < |g.verts| && t.c1.value < |g.verts| && t.c2.value < |g.verts|)
    ensures r.Some? ==> |r.value| == 3
    ensures r.Some? ==> r.value[0] == g.verts[t.c0.value].index
    ensures r.Some? ==> r.value[1] == g.verts[t.c1.value].index
    ensures r.Some? ==> r.value[2] == g.verts[t.c2.value].index
  {
    match (t.c0, t.c1, t.c2)
    case (Some(a), Some(b), Some(c)) =>
      if a < |g.verts| && b < |g.verts| && c < |g.verts| then
        Some([g.verts[a].index, g.verts[b].index, g.verts[c].index])
      else None
    case _ => None
  }

  /** `IsSameTriangle`: each of the three given edges is one of the
      triangle's edges (a containment test, not set equality). */
  function IsSameTriangle(t: Triangle, a: EdgeId, b: EdgeId, c: EdgeId): (r: bool)
    ensures r <==> {a, b, c} <= {t.e1, t.e2, t.e3}
  {
    var es := [t.e1, t.e2, t.e3];
    a in es && b in es && c in es
  }

  /** The test does not depend on the order of its arguments. */
  lemma IsSameTrianglePermutation(t: Triangle, a: EdgeId, b: EdgeId, c: EdgeId)
    ensures IsSameTriangle(t, a, b, c) == IsSameTriangle(t, b, a, c)
    ensures IsSameTriangle(t, a, b, c) == IsSameTriangle(t, a, c, b)
    ensures IsSameTriangle(t, a, b, c) == IsSameTriangle(t, c, a, b)
  {
    assert {a, b, c} == {b, a, c} == {a, c, b} == {c, a, b};
  }

  /** A triangle is the same as the edges it was built from, in any order. */
  lemma NewTriangleIsSame(g: Graph, e1: EdgeId, e2: EdgeId, e3: EdgeId)
    requires e1 < |g.edges| && e2 < |g.edges| && e3 < |g.edges|
    ensures IsSameTriangle(NewTriangle(g, e1, e2, e3), e1, e2, e3)
    ensures IsSameTriangle(NewTriangle(g, e1, e2, e3), e3, e1, e2)
  {
    IsSameTrianglePermutation(NewTriangle(g, e1, e2, e3), e1, e2, e3);
  }

  /** Because the test is containment, a triangle is also "the same" as
      any triple drawn from its edges with repetition. */
  lemma IsSameTriangleRepeats(t: Triangle)
    ensures IsSameTriangle(t, t.e1, t.e1, t.e1)
  {
  }

  /** The bounds of `IsAbnormal`, in degrees. */
  const MinAngle: real := 0.01
  const MaxAngle: real := 179.001

  predicate AbnormalAngle(a: real) {
    a < MinAngle || a > MaxAngle
  }

  /** `IsAbnormal`: the angle, at the corner shared by edges 1 and 2,
      between the two edges is below 0.01 or above 179.001 degrees. The
      angle between two vectors is the parameter `angle`. With no shared
      corner, both vectors keep their Vertex1 -> Vertex2 direction. */
  function IsAbnormal(g: Graph, t: Triangle, angle: (Vec, Vec) -> real): (r: bool)
    requires Valid(g) && WellFormed(g, t)
    ensures EdgeIn(g, g.edges[t.e1]) && EdgeIn(g, g.edges[t.e2])
    ensures r <==> AbnormalAngle(angle(VectorFromOpt(g, g.edges[t.e1], t.c1), VectorFromOpt(g, g.edges[t.e2], t.c1)))
  {
    var edge1, edge2 := g.edges[t.e1], g.edges[t.e2];
    assert EdgeIn(g, edge1) && EdgeIn(g, edge2);
    var common := HasSameVertexWith(edge1, edge2);
    var a := angle(VectorFromOpt(g, edge1, common), VectorFromOpt(g, edge2, common));
    a < 0.01 || a > 179.001
  }

  /** At a proper corner b of the path a - b - c, `IsAbnormal` measures the
      angle between b -> a and b -> c. */
  lemma AbnormalMeasuresCorner(g: Graph, t: Triangle, angle: (Vec, Vec) -> real, a: VertexId, b: VertexId, c: VertexId)
    requires Valid(g) && WellFormed(g, t)
    requires a != b && b != c && c != a
    requires IsTheSameEdge(g.edges[t.e1], a, b) && IsTheSameEdge(g.edges[t.e2], b, c)
    ensures a < |g.verts| && b < |g.verts| && c < |g.verts|
    ensures IsAbnormal(g, t, angle) <==> AbnormalAngle(angle(Sub(Pos(g, a), Pos(g, b)), Sub(Pos(g, c), Pos(g, b))))
  {
    var x1, x2 := g.edges[t.e1], g.edges[t.e2];
    assert EdgeIn(g, x1) && EdgeIn(g, x2);
    assert {a, b} == {x1.v1, x1.v2} && {b, c} == {x2.v1, x2.v2};
    assert a in {x1.v1, x1.v2} && b in {x1.v1, x1.v2} && x1.v1 in {a, b} && x1.v2 in {a, b};
    assert b in {x2.v1, x2.v2} && c in {x2.v1, x2.v2} && x2.v1 in {b, c} && x2.v2 in {b, c};
    assert t.c1 == Some(b);
  }

  /** The thresholds: 0.005 degrees and 179.5 degrees are flagged, a right
      angle and 179.0005 degrees are not, and both bounds themselves are
      accepted. */
  lemma AbnormalThresholds()
    ensures AbnormalAngle(0.005) && AbnormalAngle(179.5)
    ensures !AbnormalAngle(90.0) && !AbnormalAngle(179.0005)
    ensures !AbnormalAngle(MinAngle) && !AbnormalAngle(MaxAngle)
  {
  }
}

=== FILE: triangulation.dfy ===
/** Picking the triangles out of the finished edge graph
    (`PickOutTriangles`, Assets/Scripts/Submesh2d.cs) and the whole
    triangulation run (`StartTriangulation`): divide and conquer over the
    vertices in a given order, then one pass over the live edges.
 */
module Triangulation {
  import opened Outcomes
  import opened Geometry
  import opened Sequences
  import opened Vertices
  import opened Edges
  import opened Triangles
  import opened VertexOrdering
  import opened Submesh
  import opened Merge

  // ---------------------------------------------------------------------
  // What a picked triangle looks like

  /** `t` was built around the live edge `t.e1`: its second edge leaves
      Vertex1 of `t.e1`, its third edge leaves Vertex2, neither is `t.e1`
      itself, the two share a vertex, and the corners are the ones the
      constructor derives. */
  predicate Closed(m: Mesh, t: Triangle) {
    && t.e1 < |m.g.edges| && t.e2 < |m.g.edges| && t.e3 < |m.g.edges|
    && EdgeIn(m.g, m.g.edges[t.e1])
    && t.e1 in m.active
    && t.e2 != t.e1 && t.e3 != t.e1
    && t.e2 in m.g.verts[m.g.edges[t.e1].v1].edges
    && t.e3 in m.g.verts[m.g.edges[t.e1].v2].edges
    && HasSameVertexWith(m.g.edges[t.e2], m.g.edges[t.e3]).Some?
    && t == NewTriangle(m.g, t.e1, t.e2, t.e3)
  }

  predicate AllClosed(m: Mesh, ts: seq<Triangle>) {
    forall i | 0 <= i < |ts| :: Closed(m, ts[i])
  }

  /** The incident edges `es` of vertex `v`, in some order. */
  predicate IncidentAt(g: Graph, v: VertexId, es: seq<EdgeId>) {
    v < |g.verts| && forall j | 0 <= j < |es| :: es[j] in g.verts[v].edges
  }

  lemma PermutationMembers<T>(a: seq<T>, b: seq<T>)
    requires multiset(a) == multiset(b)
    ensures forall j | 0 <= j < |a| :: a[j] in b
  {
    forall j | 0 <= j < |a| ensures a[j] in b {
      assert a[j] in multiset(a);
    }
  }

  // ---------------------------------------------------------------------
  // The innermost loop

  /** The innermost loop from position `k` on: the first edge of `es2`,
      other than `self`, that shares a vertex with `edge1` (the loop
      `break`s there). */
  function FirstPartner(g: Graph, self: EdgeId, edge1: EdgeId, es2: seq<EdgeId>, k: nat): (r: Option<nat>)
    requires edge1 < |g.edges| && EdgeIdsIn(g, es2) && k <= |es2|
    ensures r.Some? ==> k <= r.value < |es2| && es2[r.value] != self
                        && HasSameVertexWith(g.edges[edge1], g.edges[es2[r.value]]).Some?
    ensures forall q | k <= q < (if r.Some? then r.value else |es2|) ::
              es2[q] == self || HasSameVertexWith(g.edges[edge1], g.edges[es2[q]]).None?
    decreases |es2| - k
  {
    if k == |es2| then None
    else if es2[k] != self && HasSameVertexWith(g.edges[edge1], g.edges[es2[k]]).Some? then Some(k)
    else FirstPartner(g, self, edge1, es2, k + 1)
  }

  /** `commonVertices.Any(...)`: some earlier common vertex lies in the
      circle, the boundary counting as inside. */
  predicate AnyInside(g: Graph, common: seq<VertexId>, c: Circle)
    requires AllIn(g, common)
  {
    exists i | 0 <= i < |common| :: IsPointInsideCircle(Pos(g, common[i]), c.center, c.sqrRadius)
  }

  /** An edge a vertex lists is a live edge of the graph at that vertex. */
  lemma ListedEdge(m: Mesh, v: VertexId, x: EdgeId)
    requires Valid(m.g) && ListedAreActive(m)
    requires v < |m.g.verts| && x in m.g.verts[v].edges
    ensures x < |m.g.edges| && IsEndpoint(m.g.edges[x], v) && EdgeIn(m.g, m.g.edges[x]) && x in m.active
  {
  }

  lemma IncidentIds(m: Mesh, v: VertexId, es: seq<EdgeId>)
    requires Valid(m.g) && ListedAreActive(m) && IncidentAt(m.g, v, es)
    ensures EdgeIdsIn(m.g, es)
  {
    forall j | 0 <= j < |es| ensures es[j] < |m.g.edges| {
      ListedEdge(m, v, es[j]);
    }
  }

  lemma PrefixOfPrefix<T>(a: seq<T>, b: seq<T>, c: seq<T>)
    requires |a| <= |b| <= |c| && b[..|a|] == a && c[..|b|] == b
    ensures c[..|a|] == a
  {
    assert c[..|a|] == c[..|b|][..|a|];
  }

  // ---------------------------------------------------------------------
  // The loops

  /** `AddTriangle(edge, edge1, edge2)` on the triangles `ts` picked so
      far. */
  function AddPicked(m: Mesh, ts: seq<Triangle>, self: EdgeId, edge1: EdgeId, edge2: EdgeId): (r: seq<Triangle>)
    requires self < |m.g.edges| && edge1 < |m.g.edges| && edge2 < |m.g.edges|
    requires Closed(m, NewTriangle(m.g, self, edge1, edge2))
    requires AllClosed(m, ts) && TrisDistinct(ts)
    ensures |ts| <= |r| && r[..|ts|] == ts
    ensures AllClosed(m, r) && TrisDistinct(r)
    ensures exists i | 0 <= i < |r| :: IsSameTriangle(r[i], self, edge1, edge2)
  {
    var r := AddTriangle(m.(tris := ts), self, edge1, edge2).tris;
    assert forall i | 0 <= i < |ts| :: r[i] == ts[i];
    r
  }

  /** One pass of the middle loop, for `edge1 != self` at Vertex1: the
      first partner `edge2` at Vertex2 closes a triangle; the circle
      through the common vertex and both ends of `self` is computed (a
      degenerate circle throws) and the triangle is added unless one of
      the common vertices met earlier for `self` lies in that circle. The
      common vertex is remembered either way. */
  function Visit(m: Mesh, self: EdgeId, edge1: EdgeId, es2: seq<EdgeId>, common: seq<VertexId>, ts: seq<Triangle>)
    : (r: Result<(seq<Triangle>, seq<VertexId>)>)
    requires Valid(m.g) && ListedAreActive(m)
    requires self in m.active && self < |m.g.edges| && EdgeIn(m.g, m.g.edges[self])
    requires edge1 != self && edge1 in m.g.verts[m.g.edges[self].v1].edges
    requires IncidentAt(m.g, m.g.edges[self].v2, es2) && EdgeIdsIn(m.g, es2) && AllIn(m.g, common)
    requires AllClosed(m, ts) && TrisDistinct(ts)
    ensures r.Success? ==> |ts| <= |r.value.0| <= |ts| + 1 && r.value.0[..|ts|] == ts
    ensures r.Success? ==> AllClosed(m, r.value.0) && TrisDistinct(r.value.0) && AllIn(m.g, r.value.1)
    ensures FirstPartner(m.g, self, edge1, es2, 0).None? ==> r == Success((ts, common))
    ensures r.Success? && |r.value.0| == |ts| + 1 ==>
              && FirstPartner(m.g, self, edge1, es2, 0).Some?
              && r.value.0[|ts|] == NewTriangle(m.g, self, edge1, es2[FirstPartner(m.g, self, edge1, es2, 0).value])
    ensures r.Failure? ==> r.error == BadTriangle && FirstPartner(m.g, self, edge1, es2, 0).Some?
  {
    ListedEdge(m, m.g.edges[self].v1, edge1);
    match FirstPartner(m.g, self, edge1, es2, 0)
    case None => Success((ts, common))
    case Some(k) =>
      ListedEdge(m, m.g.edges[self].v2, es2[k]);
      Close(m, self, edge1, es2[k], common, ts)
  }

  /** The body of the innermost loop once `edge2` shares a vertex with
      `edge1`: the circle through that vertex and both ends of `self`,
      the triangle unless an earlier common vertex lies in the circle, and
      the common vertex remembered. */
  function Close(m: Mesh, self: EdgeId, edge1: EdgeId, edge2: EdgeId, common: seq<VertexId>, ts: seq<Triangle>)
    : (r: Result<(seq<Triangle>, seq<VertexId>)>)
    requires Valid(m.g) && self in m.active && self < |m.g.edges| && EdgeIn(m.g, m.g.edges[self])
    requires edge1 < |m.g.edges| && edge1 != self && edge1 in m.g.verts[m.g.edges[self].v1].edges
    requires edge2 < |m.g.edges| && edge2 != self && edge2 in m.g.verts[m.g.edges[self].v2].edges
    requires HasSameVertexWith(m.g.edges[edge1], m.g.edges[edge2]).Some?
    requires AllIn(m.g, common) && AllClosed(m, ts) && TrisDistinct(ts)
    ensures r.Success? ==> |ts| <= |r.value.0| <= |ts| + 1 && r.value.0[..|ts|] == ts
    ensures r.Success? ==> AllClosed(m, r.value.0) && TrisDistinct(r.value.0) && AllIn(m.g, r.value.1)
    ensures r.Success? ==> |r.value.1| == |common| + 1
    ensures r.Success? && |r.value.0| == |ts| + 1 ==> r.value.0[|ts|] == NewTriangle(m.g, self, edge1, edge2)
    ensures r.Failure? ==> r.error == BadTriangle
  {
    var g := m.g;
    var e := g.edges[self];
    assert EdgeIn(g, g.edges[edge1]) && EdgeIn(g, g.edges[edge2]);
    var commonVertex := HasSameVertexWith(g.edges[edge1], g.edges[edge2]).value;
    match GetCircumferenceAroundTriangle(Pos(g, commonVertex), Pos(g, e.v1), Pos(g, e.v2))
    case Failure(err) => Failure(err)
    case Success(circle) =>
      var ts1 := if AnyInside(g, common, circle) then ts else AddPicked(m, ts, self, edge1, edge2);
      assert ts1[..|ts|] == ts;
      Success((ts1, common + [commonVertex]))
  }

  /** The middle loop over `es1` (the edges at Vertex1, in angle order)
      from position `j` on, for the live edge `self`; `self` itself is
      skipped. */
  function Row(m: Mesh, self: EdgeId, es1: seq<EdgeId>, es2: seq<EdgeId>, j: nat, common: seq<VertexId>, ts: seq<Triangle>)
    : (r: Result<seq<Triangle>>)
    requires Valid(m.g) && ListedAreActive(m)
    requires self in m.active && self < |m.g.edges| && EdgeIn(m.g, m.g.edges[self])
    requires IncidentAt(m.g, m.g.edges[self].v1, es1) && IncidentAt(m.g, m.g.edges[self].v2, es2)
    requires EdgeIdsIn(m.g, es2) && j <= |es1| && AllIn(m.g, common)
    requires AllClosed(m, ts) && TrisDistinct(ts)
    ensures r.Success? ==> |ts| <= |r.value| && r.value[..|ts|] == ts
    ensures r.Success? ==> AllClosed(m, r.value) && TrisDistinct(r.value)
    ensures r.Failure? ==> r.error == BadTriangle
    decreases |es1| - j
  {
    if j == |es1| then
      assert ts[..|ts|] == ts;
      Success(ts)
    else if es1[j] == self then Row(m, self, es1, es2, j + 1, common, ts)
    else
      match Visit(m, self, es1[j], es2, common, ts)
      case Failure(err) => Failure(err)
      case Success((ts1, common1)) =>
        var r := Row(m, self, es1, es2, j + 1, common1, ts1);
        if r.Success? then
          PrefixOfPrefix(ts, ts1, r.value);
          r
        else r
  }

  /** One pass of the outer loop: the live edge `self`, with the edges at
      both of its ends ordered by their angle from it. */
  function AroundEdge(m: Mesh, angle: (Vec, Vec) -> real, self: EdgeId, ts: seq<Triangle>): (r: Result<seq<Triangle>>)
    requires Valid(m.g) && ListedAreActive(m) && self in m.active && self < |m.g.edges|
    requires AllClosed(m, ts) && TrisDistinct(ts)
    ensures r.Success? ==> |ts| <= |r.value| && r.value[..|ts|] == ts
    ensures r.Success? ==> AllClosed(m, r.value) && TrisDistinct(r.value)
    ensures r.Failure? ==> r.error == BadTriangle
  {
    var e := m.g.edges[self];
    assert EdgeIn(m.g, e);
    var es1 := GetOrderedEdgesByAngle(m.g, e.v1, self, angle);
    var es2 := GetOrderedEdgesByAngle(m.g, e.v2, self, angle);
    PermutationMembers(es1, m.g.verts[e.v1].edges);
    PermutationMembers(es2, m.g.verts[e.v2].edges);
    IncidentIds(m, e.v2, es2);
    Row(m, self, es1, es2, 0, [], ts)
  }

  /** The outer loop over the live edges from position `i` on. */
  function Pass(m: Mesh, angle: (Vec, Vec) -> real, i: nat, ts: seq<Triangle>): (r: Result<seq<Triangle>>)
    requires Valid(m.g) && ListedAreActive(m) && EdgeIdsIn(m.g, m.active) && i <= |m.active|
    requires AllClosed(m, ts) && TrisDistinct(ts)
    ensures r.Success? ==> |ts| <= |r.value| && r.value[..|ts|] == ts
    ensures r.Success? ==> AllClosed(m, r.value) && TrisDistinct(r.value)
    ensures r.Failure? ==> r.error == BadTriangle
    decreases |m.active| - i
  {
    if i == |m.active| then
      assert ts[..|ts|] == ts;
      Success(ts)
    else
      match AroundEdge(m, angle, m.active[i], ts)
      case Failure(err) => Failure(err)
      case Success(ts1) =>
        var r := Pass(m, angle, i + 1, ts1);
        if r.Success? then
          PrefixOfPrefix(ts, ts1, r.value);
          r
        else r
  }

  /** Picked triangles only use edges of the graph. */
  lemma ClosedKeepsConsistent(m: Mesh, ts: seq<Triangle>)
    requires Consistent(m) && AllClosed(m, ts)
    ensures Consistent(m.(tris := ts))
  {
    assert forall i | 0 <= i < |ts| :: EdgesIn(m.g, ts[i]);
  }

  /** `PickOutTriangles`: clears the triangle list and rebuilds it from
      the live edges. The edge graph is left as it is, every triangle is a
      closed fan around a live edge, no triangle repeats the edges of an
      earlier one, and the only exception is a degenerate circumcircle. */
  function PickOutTriangles(m: Mesh, angle: (Vec, Vec) -> real): (r: Result<Mesh>)
    requires Consistent(m)
    ensures r.Success? ==> r.value.g == m.g && r.value.active == m.active
    ensures r.Success? ==> Consistent(r.value) && AllClosed(r.value, r.value.tris) && TrisDistinct(r.value.tris)
    ensures r.Failure? ==> r.error == BadTriangle
  {
    ConsistentActiveIn(m);
    match Pass(m, angle, 0, [])
    case Failure(err) => Failure(err)
    case Success(ts) =>
      ClosedKeepsConsistent(m, ts);
      assert AllClosed(m.(tris := ts), ts);
      Success(m.(tris := ts))
  }

  /** The corners of a picked triangle all exist. */
  lemma ClosedCorners(m: Mesh, t: Triangle)
    requires Consistent(m) && Closed(m, t)
    ensures t.c0.Some? && t.c1.Some? && t.c2.Some?
    ensures t.c0.value < |m.g.verts| && t.c1.value < |m.g.verts| && t.c2.value < |m.g.verts|
  {
    var e := m.g.edges[t.e1];
    assert IsEndpoint(m.g.edges[t.e2], e.v1);
    assert IsEndpoint(m.g.edges[t.e3], e.v2);
    assert EdgeIn(m.g, m.g.edges[t.e2]);
  }

  /** The `Triangles` output of picked triangles is always defined: three
      vertex indices per triangle. */
  lemma ClosedTrianglesFlatten(m: Mesh, ts: seq<Triangle>)
    requires Consistent(m) && AllClosed(m, ts)
    ensures Flatten(m.g, ts).Some? && |Flatten(m.g, ts).value| == 3 * |ts|
  {
    forall i | 0 <= i < |ts| ensures Indices(m.g, ts[i]).Some? {
      ClosedCorners(m, ts[i]);
      assert EdgeIn(m.g, m.g.edges[ts[i].e1]);
    }
  }

  // ---------------------------------------------------------------------
  // CheckForAbnormalTriangles

  /** The positions, from `i` on, of the set flags, in increasing order. */
  function FlaggedFrom(flags: seq<bool>, i: nat): (r: seq<nat>)
    requires i <= |flags|
    ensures forall x: nat :: x in r <==> i <= x < |flags| && flags[x]
    ensures forall a, b | 0 <= a < b < |r| :: r[a] < r[b]
    decreases |flags| - i
  {
    if i == |flags| then []
    else
      var rest := FlaggedFrom(flags, i + 1);
      if flags[i] then
        assert forall b | 0 <= b < |rest| :: i < rest[b] by {
          forall b | 0 <= b < |rest| ensures i < rest[b] {
            assert rest[b] in rest;
          }
        }
        [i] + rest
      else rest
  }

  /** `CheckForAbnormalTriangles`: the
      positions of the triangles `IsAbnormal` flags (the source logs an
      error for each), in list order. */
  function CheckForAbnormalTriangles(m: Mesh, angle: (Vec, Vec) -> real): (r: seq<nat>)
    requires Valid(m.g) && forall k | 0 <= k < |m.tris| :: WellFormed(m.g, m.tris[k])
    ensures forall x: nat :: x in r <==> x < |m.tris| && IsAbnormal(m.g, m.tris[x], angle)
    ensures forall a, b | 0 <= a < b < |r| :: r[a] < r[b]
  {
    var flags := seq(|m.tris|, k requires 0 <= k < |m.tris| => IsAbnormal(m.g, m.tris[k], angle));
    FlaggedFrom(flags, 0)
  }

  // ---------------------------------------------------------------------
  // The whole run

  /** `StartTriangulation` on the vertices of `points` taken in the order
      `order` (the constructor's sort is not modelled): divide and conquer,
      then pick out the triangles. */
  function Triangulate(points: seq<Vec>, order: seq<VertexId>, o: Oracles, fuel: nat): (r: Result<Mesh>)
    requires forall k | 0 <= k < |order| :: order[k] < |points|
    ensures r.Success? ==> Consistent(r.value) && AllClosed(r.value, r.value.tris) && TrisDistinct(r.value.tris)
    ensures r.Success? ==> |r.value.g.verts| == |points|
    ensures r.Success? ==> forall v | 0 <= v < |points| :: r.value.g.verts[v].pos == points[v] && r.value.g.verts[v].index == v
    ensures r.Success? ==> TrianglesOf(r.value).Some? && |TrianglesOf(r.value).value| == 3 * |r.value.tris|
    ensures r.Failure? && r.error != BadTriangle ==> |order| > 3 && DriverError(o, r.error)
    ensures |order| < 2 ==> r == Success(InitialMesh(points))
  {
    var m0 := InitialMesh(points);
    InitialMeshConsistent(points);
    match DivideAndConquer(m0, order, o, fuel)
    case Failure(err) => Failure(err)
    case Success(m1) =>
      var r := PickOutTriangles(m1, o.angle);
      if r.Success? then
        ClosedTrianglesFlatten(r.value, r.value.tris);
        r
      else r
  }
}

=== FILE: vertex.dfy ===
/** `Vertex2d` (Assets/Scripts/Vertex2d.cs): a point with a stable index
    and the ordered list of its incident edges, addressed by edge id.
    The angle-ordering queries live in module `VertexOrdering`, because
    they need the edge arena.
 */
module Vertices {
  import opened Geometry
  import opened Sequences

  type VertexId = nat
  type EdgeId = nat

  datatype Vertex = Vertex(index: int, pos: Vec, edges: seq<EdgeId>)

  /** `AddEdge`: appends the edge unless it is already listed. */
  function AddEdge(v: Vertex, e: EdgeId): (r: Vertex)
    ensures r.index == v.index && r.pos == v.pos
    ensures e in r.edges
    ensures forall x :: x in r.edges <==> x in v.edges || x == e
    ensures |v.edges| <= |r.edges| <= |v.edges| + 1 && r.edges[..|v.edges|] == v.edges
    ensures NoDup(v.edges) ==> NoDup(r.edges)
    ensures NoDup(v.edges) ==> multiset(r.edges)[e] == 1
  {
    if e in v.edges then
      NoDupMultiplicityIf(v.edges, e);
      v
    else
      assert e !in v.edges;
      v.(edges := v.edges + [e])
  }

  lemma NoDupMultiplicityIf(s: seq<EdgeId>, e: EdgeId)
    ensures NoDup(s) ==> multiset(s)[e] == if e in s then 1 else 0
  {
    if NoDup(s) {
      NoDupMultiplicity(s, e);
    }
  }

  /** Adding the same edge twice is the same as adding it once. */
  lemma AddEdgeIdempotent(v: Vertex, e: EdgeId)
    ensures AddEdge(AddEdge(v, e), e) == AddEdge(v, e)
  {
  }

  /** `RemoveEdge`: `List.Remove`, which deletes the first occurrence only. */
  function RemoveEdge(v: Vertex, e: EdgeId): (r: Vertex)
    ensures r.index == v.index && r.pos == v.pos
    ensures multiset(r.edges) == multiset(v.edges) - multiset{e}
    ensures NoDup(v.edges) ==> e !in r.edges && NoDup(r.edges)
    ensures NoDup(v.edges) ==> r.edges == Without(v.edges, e)
  {
    RemoveFirstNoDupIf(v.edges, e);
    v.(edges := RemoveFirst(v.edges, e))
  }

  lemma RemoveFirstNoDupIf(s: seq<EdgeId>, e: EdgeId)
    ensures NoDup(s) ==> RemoveFirst(s, e) == Without(s, e) && e !in RemoveFirst(s, e) && NoDup(RemoveFirst(s, e))
  {
    if NoDup(s) {
      RemoveFirstNoDup(s, e);
    }
  }

  /** Removing an edge after adding it restores the incident list, when the
      edge was not listed before. */
  lemma RemoveUndoesAdd(v: Vertex, e: EdgeId)
    requires e !in v.edges
    ensures RemoveEdge(AddEdge(v, e), e) == v
  {
    RemoveFirstLast(v.edges, e);
  }

  lemma {:induction false} RemoveFirstLast(s: seq<EdgeId>, e: EdgeId)
    requires e !in s
    ensures RemoveFirst(s + [e], e) == s
    decreases |s|
  {
    if |s| > 0 {
      var t := s + [e];
      assert t[0] == s[0] && s[0] != e;
      assert t[1..] == s[1..] + [e];
      RemoveFirstLast(s[1..], e);
      calc {
        RemoveFirst(t, e);
        [s[0]] + RemoveFirst(t[1..], e);
        [s[0]] + s[1..];
        s;
      }
    }
  }
}

=== FILE: vertex_ordering.dfy ===
/** The two angle-ordering queries of `Vertex2d` (Assets/Scripts/Vertex2d.cs),
    `GetOrderedPotentials` and `GetOrderedEdgesByAngle`. `Vector2.Angle`
    (an arc cosine) is not modelled: the angle between two vectors is a
    parameter `angle`, used only as the sort key of the stable `OrderBy`.
 */
module VertexOrdering {
  import opened Geometry
  import opened Sequences
  import opened Vertices
  import opened Edges

  /** One incident edge seen from a vertex: the edge id, its far endpoint
      and its direction away from the vertex. */
  datatype Spoke = Spoke(edge: EdgeId, far: VertexId, dir: Vec)

  /** `s` describes edge `s.edge` as seen from `v`. */
  predicate SpokeOf(g: Graph, v: VertexId, s: Spoke) {
    && s.edge < |g.edges|
    && EdgeIn(g, g.edges[s.edge])
    && s.far == GetAnotherVertex(g.edges[s.edge], v)
    && s.dir == GetVectorFromEdge(g, g.edges[s.edge], v)
  }

  predicate AllSpokesOf(g: Graph, v: VertexId, ss: seq<Spoke>) {
    forall i | 0 <= i < |ss| :: SpokeOf(g, v, ss[i])
  }

  /** The spokes of the edges `es`, in order. */
  function SpokesOf(g: Graph, v: VertexId, es: seq<EdgeId>): (r: seq<Spoke>)
    requires Valid(g) && EdgeIdsIn(g, es)
    ensures |r| == |es|
    ensures forall i | 0 <= i < |es| :: r[i].edge == es[i] && SpokeOf(g, v, r[i])
  {
    if |es| == 0 then []
    else
      var e := g.edges[es[0]];
      assert EdgeIn(g, e);
      [Spoke(es[0], GetAnotherVertex(e, v), GetVectorFromEdge(g, e, v))] + SpokesOf(g, v, es[1..])
  }

  function EdgeOfSpoke(s: Spoke): EdgeId { s.edge }
  function FarOfSpoke(s: Spoke): VertexId { s.far }

  /** The spokes of a vertex, projected back to edge ids, are its incident
      list. */
  lemma SpokesProjectToEdges(g: Graph, v: VertexId, es: seq<EdgeId>)
    requires Valid(g) && EdgeIdsIn(g, es)
    ensures Map(SpokesOf(g, v, es), EdgeOfSpoke) == es
  {
  }

  /** Every element of a permutation of well-formed spokes is well-formed. */
  lemma PermutedSpokes(g: Graph, v: VertexId, ss: seq<Spoke>, tt: seq<Spoke>)
    requires AllSpokesOf(g, v, ss) && multiset(tt) == multiset(ss)
    ensures AllSpokesOf(g, v, tt)
  {
    forall i | 0 <= i < |tt| ensures SpokeOf(g, v, tt[i]) {
      assert tt[i] in multiset(tt);
      assert tt[i] in ss;
    }
  }

  // ---------------------------------------------------------------------
  // GetOrderedPotentials

  /** The `Where` before the sort: the spoke points to the orthogonal's
      side by more than the tolerance. */
  function Above(orth: Vec): Spoke -> bool {
    (s: Spoke) => Dot(s.dir, orth) > Tolerance
  }

  /** The sort key: the angle between the spoke and the edge itself. */
  function AngleKey(angle: (Vec, Vec) -> real, edgeVector: Vec): Spoke -> real {
    (s: Spoke) => angle(s.dir, edgeVector)
  }

  /** The `Where` after the projection: the far end is not an endpoint of
      the edge being merged. */
  function NotEndpointOf(e: Edge): VertexId -> bool {
    (w: VertexId) => w != e.v1 && w != e.v2
  }

  /** The qualifying spokes, in the stable angle order: the reference
      description of the potentials, filtering entirely before sorting. */
  function PotentialSpokes(g: Graph, v: VertexId, self: EdgeId, angle: (Vec, Vec) -> real): (r: seq<Spoke>)
    requires Valid(g) && v < |g.verts| && self < |g.edges|
    ensures EdgeIn(g, g.edges[self]) && EdgeIdsIn(g, g.verts[v].edges)
  {
    var e := g.edges[self];
    assert EdgeIn(g, e);
    assert EdgeIdsIn(g, g.verts[v].edges);
    var orth := GetOrtogonal(g, self);
    var key := AngleKey(angle, GetVectorFromEdge(g, e, v));
    var spokes := SpokesOf(g, v, g.verts[v].edges);
    SortBy(Filter(spokes, (s: Spoke) => Above(orth)(s) && NotEndpointOf(e)(s.far)), key)
  }

  /** Every potential spoke is a spoke of the vertex pointing to the
      orthogonal's side, and its far end is not an endpoint of the edge. */
  lemma PotentialSpokesQualify(g: Graph, v: VertexId, self: EdgeId, angle: (Vec, Vec) -> real)
    requires Valid(g) && v < |g.verts| && self < |g.edges|
    ensures EdgeIn(g, g.edges[self])
    ensures forall i | 0 <= i < |PotentialSpokes(g, v, self, angle)| ::
              && SpokeOf(g, v, PotentialSpokes(g, v, self, angle)[i])
              && Dot(PotentialSpokes(g, v, self, angle)[i].dir, GetOrtogonal(g, self)) > Tolerance
              && PotentialSpokes(g, v, self, angle)[i].far != g.edges[self].v1
              && PotentialSpokes(g, v, self, angle)[i].far != g.edges[self].v2
  {
    var e := g.edges[self];
    assert EdgeIn(g, e);
    assert EdgeIdsIn(g, g.verts[v].edges);
    var orth := GetOrtogonal(g, self);
    var key := AngleKey(angle, GetVectorFromEdge(g, e, v));
    var spokes := SpokesOf(g, v, g.verts[v].edges);
    var q := (s: Spoke) => Above(orth)(s) && NotEndpointOf(e)(s.far);
    var r := SortBy(Filter(spokes, q), key);
    assert r == PotentialSpokes(g, v, self, angle);
    SortedFilteredSpokes(g, v, spokes, q, key);
    forall i | 0 <= i < |r|
      ensures SpokeOf(g, v, r[i]) && Dot(r[i].dir, orth) > Tolerance && r[i].far != e.v1 && r[i].far != e.v2
    {
      assert Above(orth)(r[i]) && NotEndpointOf(e)(r[i].far);
    }
  }

  /** Sorting the spokes that pass a test keeps only spokes of the vertex
      that pass it. */
  lemma SortedFilteredSpokes(g: Graph, v: VertexId, spokes: seq<Spoke>, p: Spoke -> bool, key: Spoke -> real)
    requires AllSpokesOf(g, v, spokes)
    ensures forall i | 0 <= i < |SortBy(Filter(spokes, p), key)| ::
              SpokeOf(g, v, SortBy(Filter(spokes, p), key)[i]) && p(SortBy(Filter(spokes, p), key)[i])
  {
    var sorted := SortBy(Filter(spokes, p), key);
    forall i | 0 <= i < |sorted| ensures SpokeOf(g, v, sorted[i]) && p(sorted[i]) {
      var k := SortedFilterMember(spokes, p, key, i);
    }
  }

  /** `GetOrderedPotentials`: the far ends of the incident edges pointing to
      the orthogonal's side, in increasing angle from the edge, with the
      edge's own endpoints removed. */
  function GetOrderedPotentials(g: Graph, v: VertexId, self: EdgeId, angle: (Vec, Vec) -> real): (r: seq<VertexId>)
    requires Valid(g) && v < |g.verts| && self < |g.edges|
    ensures EdgeIn(g, g.edges[self])
    ensures forall i | 0 <= i < |r| :: r[i] != g.edges[self].v1 && r[i] != g.edges[self].v2
    ensures |r| == |PotentialSpokes(g, v, self, angle)|
    ensures forall i | 0 <= i < |r| :: r[i] == PotentialSpokes(g, v, self, angle)[i].far
  {
    var e := g.edges[self];
    assert EdgeIn(g, e);
    assert EdgeIdsIn(g, g.verts[v].edges);
    var orth := GetOrtogonal(g, self);
    var key := AngleKey(angle, GetVectorFromEdge(g, e, v));
    var spokes := SpokesOf(g, v, g.verts[v].edges);
    var r := Filter(Map(SortBy(Filter(spokes, Above(orth)), key), FarOfSpoke), NotEndpointOf(e));
    PotentialsAsReference(spokes, orth, key, e);
    r
  }

  /** Filtering by the far end after sorting and projecting is the same as
      filtering before sorting (the sort is stable). */
  lemma PotentialsAsReference(spokes: seq<Spoke>, orth: Vec, key: Spoke -> real, e: Edge)
    ensures Filter(Map(SortBy(Filter(spokes, Above(orth)), key), FarOfSpoke), NotEndpointOf(e))
         == Map(SortBy(Filter(spokes, (s: Spoke) => Above(orth)(s) && NotEndpointOf(e)(s.far)), key), FarOfSpoke)
  {
    var above := Filter(spokes, Above(orth));
    var notEnd := (s: Spoke) => NotEndpointOf(e)(s.far);
    var both := (s: Spoke) => Above(orth)(s) && NotEndpointOf(e)(s.far);
    FilterMap(SortBy(above, key), FarOfSpoke, NotEndpointOf(e), notEnd);
    FilterSortBy(above, key, notEnd);
    FilterFilter(spokes, Above(orth), notEnd, both);
  }

  /** Every potential is the far end of an edge incident to `v` whose
      direction from `v` has a dot product above the tolerance with the
      edge's orthogonal. */
  lemma PotentialsComeFromIncidentEdges(g: Graph, v: VertexId, self: EdgeId, angle: (Vec, Vec) -> real, i: nat)
    returns (k: nat)
    requires Valid(g) && v < |g.verts| && self < |g.edges|
    requires i < |GetOrderedPotentials(g, v, self, angle)|
    ensures EdgeIdsIn(g, g.verts[v].edges)
    ensures k < |g.verts[v].edges|
    ensures GetOrderedPotentials(g, v, self, angle)[i] == GetAnotherVertex(g.edges[g.verts[v].edges[k]], v)
    ensures Dot(GetVectorFromEdge(g, g.edges[g.verts[v].edges[k]], v), GetOrtogonal(g, self)) > Tolerance
  {
    var e := g.edges[self];
    var orth := GetOrtogonal(g, self);
    var spokes := SpokesOf(g, v, g.verts[v].edges);
    var key := AngleKey(angle, GetVectorFromEdge(g, e, v));
    k := SortedFilterMember(spokes, (s: Spoke) => Above(orth)(s) && NotEndpointOf(e)(s.far), key, i);
    assert SpokeOf(g, v, spokes[k]);
  }

  /** Every potential is a vertex of the graph. */
  lemma PotentialsInGraph(g: Graph, v: VertexId, self: EdgeId, angle: (Vec, Vec) -> real)
    requires Valid(g) && v < |g.verts| && self < |g.edges|
    ensures forall i | 0 <= i < |GetOrderedPotentials(g, v, self, angle)| :: GetOrderedPotentials(g, v, self, angle)[i] < |g.verts|
  {
    var ps := GetOrderedPotentials(g, v, self, angle);
    forall i | 0 <= i < |ps| ensures ps[i] < |g.verts| {
      var k := PotentialsComeFromIncidentEdges(g, v, self, angle, i);
      assert EdgeIn(g, g.edges[g.verts[v].edges[k]]);
    }
  }

  /** The potentials come in non-decreasing angle order. */
  lemma PotentialsSorted(g: Graph, v: VertexId, self: EdgeId, angle: (Vec, Vec) -> real)
    requires Valid(g) && v < |g.verts| && self < |g.edges|
    ensures EdgeIn(g, g.edges[self])
    ensures SortedBy(PotentialSpokes(g, v, self, angle), AngleKey(angle, GetVectorFromEdge(g, g.edges[self], v)))
  {
  }

  /** Potentials at the same angle keep the order of the incident list. */
  lemma PotentialsStable(g: Graph, v: VertexId, self: EdgeId, angle: (Vec, Vec) -> real, k: real)
    requires Valid(g) && v < |g.verts| && self < |g.edges|
    ensures EdgeIn(g, g.edges[self]) && EdgeIdsIn(g, g.verts[v].edges)
    ensures
      var e := g.edges[self];
      var orth := GetOrtogonal(g, self);
      var key := AngleKey(angle, GetVectorFromEdge(g, e, v));
      var q := Filter(SpokesOf(g, v, g.verts[v].edges), (s: Spoke) => Above(orth)(s) && NotEndpointOf(e)(s.far));
      KeyClass(PotentialSpokes(g, v, self, angle), key, k) == KeyClass(q, key, k)
  {
    var e := g.edges[self];
    var orth := GetOrtogonal(g, self);
    var key := AngleKey(angle, GetVectorFromEdge(g, e, v));
    var q := Filter(SpokesOf(g, v, g.verts[v].edges), (s: Spoke) => Above(orth)(s) && NotEndpointOf(e)(s.far));
    SortByStable(q, key, k);
  }

  // ---------------------------------------------------------------------
  // GetOrderedEdgesByAngle

  /** `GetOrderedEdgesByAngle`: the incident edges, stably sorted by their
      angle from the given edge. */
  function GetOrderedEdgesByAngle(g: Graph, v: VertexId, self: EdgeId, angle: (Vec, Vec) -> real): (r: seq<EdgeId>)
    requires Valid(g) && v < |g.verts| && self < |g.edges|
    ensures EdgeIn(g, g.edges[self]) && EdgeIdsIn(g, r)
    ensures multiset(r) == multiset(g.verts[v].edges)
    ensures forall i, j | 0 <= i < j < |r| ::
              angle(GetVectorFromEdge(g, g.edges[r[i]], v), GetVectorFromEdge(g, g.edges[self], v))
              <= angle(GetVectorFromEdge(g, g.edges[r[j]], v), GetVectorFromEdge(g, g.edges[self], v))
  {
    var e := g.edges[self];
    assert EdgeIn(g, e);
    var es := g.verts[v].edges;
    assert EdgeIdsIn(g, es);
    var key := AngleKey(angle, GetVectorFromEdge(g, e, v));
    var spokes := SpokesOf(g, v, es);
    var sorted := SortBy(spokes, key);
    var r := Map(sorted, EdgeOfSpoke);
    MapSortBy(spokes, key, EdgeOfSpoke);
    SpokesProjectToEdges(g, v, es);
    PermutedSpokes(g, v, spokes, sorted);
    SortedSpokesOrderEdges(g, v, sorted, angle, GetVectorFromEdge(g, e, v));
    r
  }

  /** Spokes sorted by their angle from `base` project to edges in the same
      angle order. */
  lemma SortedSpokesOrderEdges(g: Graph, v: VertexId, sorted: seq<Spoke>, angle: (Vec, Vec) -> real, base: Vec)
    requires AllSpokesOf(g, v, sorted) && SortedBy(sorted, AngleKey(angle, base))
    ensures EdgeIdsIn(g, Map(sorted, EdgeOfSpoke))
    ensures forall i, j | 0 <= i < j < |sorted| ::
              angle(GetVectorFromEdge(g, g.edges[Map(sorted, EdgeOfSpoke)[i]], v), base)
              <= angle(GetVectorFromEdge(g, g.edges[Map(sorted, EdgeOfSpoke)[j]], v), base)
  {
    var r := Map(sorted, EdgeOfSpoke);
    var key := AngleKey(angle, base);
    forall i, j | 0 <= i < j < |sorted|
      ensures angle(GetVectorFromEdge(g, g.edges[r[i]], v), base) <= angle(GetVectorFromEdge(g, g.edges[r[j]], v), base)
    {
      assert SpokeOf(g, v, sorted[i]) && SpokeOf(g, v, sorted[j]);
      assert key(sorted[i]) <= key(sorted[j]);
    }
  }
}
